=== FILE: README.md ===
# api-scout request pipeline, modelled in Dafny

This project models the core of api-scout, a self-hosted, Postman-style API tester. It covers
the path a request takes from the editor to the wire and back:

- **Template variables.** `{{name}}` placeholders are resolved in one left-to-right pass. The
  server copy looks names up exactly as written; the client copy trims them first.
- **The server's execute route.** It chooses the variables in force, merges collection headers
  under the request's own, resolves the url, header values and body, and records a history
  entry. The same file builds the Postman and OpenAPI exports and prettifies the project name.
- **The script sandbox.** A pre- or post-request script is modelled as the sequence of `pm`
  calls it makes, ending where it throws. The sandboxes are classes whose fields are the local
  clones the calls write.
- **The HTTP executor.** This covers the request configuration handed to axios, the
  classification of transport errors, and response-header and cookie normalisation.
- **The browser-side helpers:**
  - url normalisation;
  - header-row parsing, and the reading of save and update replies (including the 409 conflict);
  - the zod schemas, as parse functions;
  - `Set-Cookie` parsing;
  - the sidebar's automatic folders;
  - the header and form-row editors;
  - tab close and open;
  - tab persistence;
  - the JSON syntax-highlighter's tokenizer.

JavaScript objects are modelled as `Dicts.Dict<V>`: lists of key/value pairs with distinct keys,
kept in insertion order. Assignment, `delete`, spread and `Object.entries` are defined over them.
The following are parameters of the model, not part of it:

- `JSON.parse`, as a function returning a `Json.Parsed` outcome;
- the network (`send`, `transport`);
- the storage provider's answers;
- the clock readings;
- `localStorage` contents;
- `typeof window`.

Three behaviours of the code are worth stating, because a reader might expect otherwise:

- **History write failure.** The execute route awaits `addToHistory` inside its `try`
  (`src/index.ts:246-259`). A failed history write therefore ends in a 500 reply carrying the
  error's message; it is not ignored (`ServerExecute.ExecuteRoute`).
- **Substitution happens twice for collection headers.** The collection's header text is
  resolved before it is parsed (`src/index.ts:289`). Its values are resolved again, together
  with the request's own headers, after the merge (`src/index.ts:233-239`). A value that becomes
  a placeholder after the first pass is therefore substituted again.
- **Size limits.** An exceeded `maxContentLength`/`maxBodyLength`
  (`ui-src/src/lib/executor.ts:81-82`) has no branch of its own. It is an axios error without
  one of the three known codes (`ui-src/src/lib/executor.ts:39-65`), so its message is passed
  through (`Executor.HandleAxiosError`).

## Model

| member | source | states |
|---|---|---|
| Placeholders.MatchLen | src/index.ts:196 | the pattern `\{\{([^}]+)\}\}` matches at the start of a text only as `{{`, a non-empty run free of `}`, then `}}`; the match lies inside the text |
| Placeholders.MatchLenOf | src/index.ts:196 | conversely, `{{name}}` with a non-empty `}`-free name is matched, and the match is exactly its length |
| Placeholders.ResolveLeading | src/index.ts:196-198 | a leading placeholder becomes the variable's value when its (server: exact, client: trimmed) name is a key, even when the value is empty, and stays verbatim otherwise; the rest of the text is resolved on its own |
| Placeholders.NotRescanned | src/index.ts:196-198 | a substituted value that is itself a placeholder naming another key is left as it is: the pass never scans replaced text |
| Placeholders.AbsentNamesUnchanged | src/index.ts:196-198 | when no matched name is a key, every placeholder is kept verbatim and the text comes back unchanged |
| Placeholders.EmptyVariablesUnchanged | src/index.ts:196-198 | with an empty variable map every text is returned unchanged |
| Placeholders.NoMatchUnchanged | ui-src/src/lib/env-resolver.ts:15-18 | a text in which the pattern matches at no position is returned unchanged |
| Placeholders.NoOpenBracesUnchanged | ui-src/src/lib/env-resolver.ts:15-18 | in particular a text without `{{` is returned unchanged |
| Placeholders.TrimDifference | ui-src/src/lib/env-resolver.ts:15-17 | the two copies disagree on `{{ a }}`: the client (trimming) resolves it to `a`'s value, the server keeps it verbatim |
| Placeholders.ClientTrimsPadded | ui-src/src/lib/env-resolver.ts:16-17 | the client looks a space-padded name up under the trimmed name |
| Placeholders.ServerKeepsPadded | src/index.ts:197 | the server looks a space-padded name up as written, so the padded placeholder stays |
| EnvResolver.ResolveVariablesMeaning | ui-src/src/lib/env-resolver.ts:13-18 | the client `resolveVariables` is the trimming resolver (the early return for an empty input changes nothing), and a text without `{{` is returned as it is |
| EnvResolver.ResolveHeaderVariables | ui-src/src/lib/env-resolver.ts:24-35 | the loop assigns every resolved key its resolved value in entry order: the result is those pairs assigned into `{}`, has at most as many entries as the input, and under each key holds the value of the last entry resolving to it |
| EnvResolver.PlainHeaderKeysKept | ui-src/src/lib/env-resolver.ts:28-34 | when no key holds `{{`, the keys and their order are kept and only the values change |
| EnvResolver.CollidingKeysCollapse | ui-src/src/lib/env-resolver.ts:30-32 | two keys resolving to the same text leave one entry, holding the later value |
| EnvResolver.ParseEnvironmentVariables | ui-src/src/lib/env-resolver.ts:40-50 | an object's entries, an array's indexed items, and `{}` on a parse failure, `null` or any non-object |
| ServerExecute.ResolveVariables | src/index.ts:192-199 | an empty text comes back empty; with a variable record, names are looked up exactly as written (the non-trimming resolver); with `null` variables it throws exactly when the pattern matches somewhere, with the message naming the leftmost match's key, and otherwise returns the text unchanged |
| ServerExecute.NullSourceThrows | src/index.ts:196-197 | with `null` variables a leading `{{name}}` throws `Cannot read properties of null (reading 'name')`, whatever follows |
| ServerExecute.StringIndexResolves | src/index.ts:196-197 | variables that parse to a string expose its characters: `{{i}}` becomes the `i`-th character |
| ServerExecute.SelectEnvironment | src/index.ts:268-270 | the first environment with the given id, or with the name `Local Environment` when no id is given; `None` only when no environment is wanted |
| ServerExecute.LoadVariablesFromStorage | src/index.ts:266-280 | a failing `getEnvironments` propagates; `{}` when no environment is selected or its text does not parse; otherwise the raw parse result as a variable source (`null` kept as `null`) |
| ServerExecute.SourceOf | src/index.ts:274 | `null` stays `null`; an object gives its entries, an array its indexed items, a string its indexed characters, a number or boolean nothing |
| ServerExecute.ChooseVariables | src/index.ts:219-223 | the caller's own `variables` win outright, even `null`; otherwise they are loaded from storage |
| ServerExecute.CollectionHeadersOf | src/index.ts:288-295 | `{}` without header text; otherwise the text is variable-resolved, then parsed and spread; `{}` when the resolution throws or the text does not parse, both being caught |
| ServerExecute.CollectionWithId | src/index.ts:287 | `find` by id: a collection with the id, none before it, and `None` only when no collection has the id |
| ServerExecute.GetCollectionHeaders | src/index.ts:282-297 | `{}` when the request lookup fails or finds nothing, the request has no collection, or the collections cannot be read; otherwise exactly the headers of the first stored collection with the request's collection id, and `{}` when there is none |
| ServerExecute.MergedHeaders | src/index.ts:226-229 | with a `requestId`, collection headers spread under the request's own (`{}` when absent); without one, the request's headers as they are |
| ServerExecute.ResolveHeaderValues | src/index.ts:233-239 | succeeds exactly when every value resolves, and then keeps the keys and their order with each value resolved; otherwise fails with the error of the first value that throws |
| ServerExecute.Prepare | src/index.ts:224-242 | url, then headers, then body are resolved, and the first that throws is the result; it succeeds exactly when all three resolve, always with a variable record; on success url and body (only when present) are resolved, headers merged then resolved (absent only without `requestId` and headers), and every other field unchanged |
| ServerExecute.RequestHeadersWin | src/index.ts:226-239 | when the request is prepared, the keys after the merge are the union; a key of the request's own headers keeps the request's value, a collection-only key the collection's, each resolved |
| ServerExecute.BodyText | src/index.ts:254 | a text body is recorded as it is, a JSON body serialised, an absent body as absent |
| ServerExecute.HistoryRecordOf | src/index.ts:246-255 | method and url as sent; a missing status or time recorded as 0; a missing request body as the empty text |
| ServerExecute.ResolveHeaders | src/index.ts:233-239 | the loop's result equals `ResolveHeaderValues`: every header value resolved, keys and order kept, or the first error |
| ServerExecute.ThrewAtFirst | src/index.ts:234-238 | the loop's early exit at a throwing header, with all before it resolved, is the error `ResolveHeaderValues` reports |
| ServerExecute.ExecuteRoute | src/index.ts:215-263 | a failure to load the variables, or a resolution that throws, gives a 500 with its message; otherwise exactly the prepared request is sent, the history record is built from it and the response, and a failed history write gives a 500 |
| ServerExecute.PrepareSteps | src/index.ts:224-242 | the route's statements from the merge to the body, stopping at the first resolution that throws, give exactly `Prepare` |
| ServerExecute.Resolved | src/index.ts:196-198 | the text a resolution returns whenever it does not throw |
| ServerExport.HeaderEntries | src/index.ts:425-434 | no entries without header text or when it fails to parse or is `null`; otherwise `Object.entries` of the parse: an object's entries in order, a string's or array's indexed entries, none for a number or boolean |
| ServerExport.CollectHeaders | src/index.ts:424-431 | one `{key, value, type: 'text'}` per header entry, in entry order |
| ServerExport.AfterFirst | src/index.ts:448 | `split(sep)[1] ?? ''` behind the caller's `includes` test: the text itself without the separator; otherwise what follows the first separator, up to the next one when there is one; never holds the separator |
| ServerExport.BeforeFirst | src/index.ts:448 | `split(sep)[0]`: the text before the first separator, or the whole text without one |
| ServerExport.AfterScheme | src/index.ts:448 | the url itself without `://`; otherwise what follows the first `://`, up to the next `://` when there is one |
| ServerExport.Host | src/index.ts:448 | the part after the scheme up to its first `/`, or all of it without a `/` |
| ServerExport.Path | src/index.ts:449 | no segments when the part after the scheme has no `/`; otherwise segments free of `/` that join with `/` into what follows the first `/` |
| ServerExport.HostPathJoin | src/index.ts:448-449 | host and path joined with `/` give back the part after the scheme, and the whole url when it has no `://` |
| ServerExport.ItemOfFields | src/index.ts:436-452 | an item carries the request's name, method and raw url, its body or `''`, the host and path above, and one text header per parsed header entry, in order |
| ServerExport.BuildItem | src/index.ts:423-453 | the loop body builds exactly the item of the request |
| ServerExport.BuildPostmanCollection | src/index.ts:417-455 | the collection is named as given, carries the v2.1.0 schema url, and its items are the requests' items in order |
| ServerExport.CollectionItems | src/index.ts:423 | one item per request, the item at each index being that request's |
| ServerExport.PathName | src/index.ts:375 | the url when it starts with `/`, else `/` and the url; never empty and always starting with `/` |
| ServerExport.PathNameIdempotent | src/index.ts:375 | a path name is its own path name |
| ServerExport.AddOperationKeys | src/index.ts:376-379 | one request adds its path name to the paths and nothing else |
| ServerExport.PathsOfKeys | src/index.ts:374-383 | the paths of the map are exactly the path names of the requests' urls |
| ServerExport.PathsOfLastWins | src/index.ts:374-383 | under each request's path and lower-cased method sits the operation of the last request with that path and method |
| ServerExport.OpenApiPaths | src/index.ts:374-383 | the `forEach` builds exactly the paths map of the requests in order |
| ProjectName.StripScope | src/index.ts:100 | a name starting with `@` whose first `/` comes after a non-empty scope loses everything up to that `/`; any other name is kept as it is |
| ProjectName.Spaced | src/index.ts:101 | every `-` and `_` becomes a space, every other character is kept |
| ProjectName.CapitalizeAt | src/index.ts:103 | a single word gets its first character upper-cased and keeps the rest |
| ProjectName.CapitalizeWordsSingle | src/index.ts:102-104 | a text without a space is capitalised as one word |
| ProjectName.CapitalizeWordsCons | src/index.ts:102-104 | split, map and join: the first word capitalised, the space, then the rest's words |
| ProjectName.CapitalizeWordsAt | src/index.ts:102-104 | character-wise: the first character and every character after a space are upper-cased, nothing else changes, the length is kept |
| ProjectName.GetProjectName | src/index.ts:91-109 | `Auto-Captured` without a package name or with an empty one; otherwise the scope-stripped, spaced name with every word capitalised |
| ProjectName.CapitalizeWordsIdempotent | src/index.ts:102-104 | capitalising the words twice changes nothing more |
| ScriptExecutor.PreSandbox.constructor | ui-src/src/app/_scripts/scriptExecutor.ts:22-25 | the clones start as copies of the caller's environment, headers and body |
| ScriptExecutor.PreSandbox.Set | ui-src/src/app/_scripts/scriptExecutor.ts:30 | `environment.set` and `variables.set` assign the key in the environment clone only |
| ScriptExecutor.PreSandbox.Unset | ui-src/src/app/_scripts/scriptExecutor.ts:32 | `unset` deletes the key from the environment clone only |
| ScriptExecutor.PreSandbox.AddHeader | ui-src/src/app/_scripts/scriptExecutor.ts:37 | `headers.add` assigns the header in the request clone, overwriting one of the same name |
| ScriptExecutor.PreSandbox.UpdateBody | ui-src/src/app/_scripts/scriptExecutor.ts:43 | `body.update` replaces the body clone |
| ScriptExecutor.PreSandbox.Apply | ui-src/src/app/_scripts/scriptExecutor.ts:28-50 | one call changes the clones as the step function says and returns what it throws |
| ScriptExecutor.PreSandbox.RunCalls | ui-src/src/app/_scripts/scriptExecutor.ts:53-54 | the calls run in order on the clones up to the first throw: the clones and the thrown message are those of the run function |
| ScriptExecutor.PreOutcome | ui-src/src/app/_scripts/scriptExecutor.ts:16-63 | a blank script succeeds with the context untouched; a failure returns the caller's context with an error; url and method are never changed |
| ScriptExecutor.RunPreRequestScript | ui-src/src/app/_scripts/scriptExecutor.ts:16-63 | running the calls on a sandbox object gives exactly that outcome |
| ScriptExecutor.PreStepVariable | ui-src/src/app/_scripts/scriptExecutor.ts:29-49 | a `set` or `unset` of a key leaves what it wrote; every other call leaves the key alone |
| ScriptExecutor.PreStepHeader | ui-src/src/app/_scripts/scriptExecutor.ts:36-41 | an `add` of a header that does not throw leaves its value; every other call leaves the header alone |
| ScriptExecutor.PreLastVariableWrite | ui-src/src/app/_scripts/scriptExecutor.ts:29-49 | after a script that does not throw, a key holds what the last `set`/`unset` of it left, through either `set` |
| ScriptExecutor.PreVariableUntouched | ui-src/src/app/_scripts/scriptExecutor.ts:29-49 | a key no call writes keeps its value |
| ScriptExecutor.PreLastHeaderAdd | ui-src/src/app/_scripts/scriptExecutor.ts:37 | after a script that does not throw, a header holds the value of its last `add` |
| ScriptExecutor.PreLastBodyUpdate | ui-src/src/app/_scripts/scriptExecutor.ts:43 | after a script that does not throw, the body is that of the last `update` |
| ScriptExecutor.ShadowedAddStops | ui-src/src/app/_scripts/scriptExecutor.ts:36-41 | while a request header named `add` is spread over the helper, `headers.add` throws and changes nothing |
| ScriptExecutor.AddShadowedFails | ui-src/src/app/_scripts/scriptExecutor.ts:34-62 | a script calling `headers.add` with such a header fails, and the caller's context comes back |
| ScriptExecutor.CheckFailure | ui-src/src/app/_scripts/scriptExecutor.ts:97-105 | `to.have.status(c)` throws exactly when the status is not `c`; a throw inside a test body throws its message |
| ScriptExecutor.PostSandbox.constructor | ui-src/src/app/_scripts/scriptExecutor.ts:75-76 | the environment clone starts as the caller's, with no tests |
| ScriptExecutor.PostSandbox.Set | ui-src/src/app/_scripts/scriptExecutor.ts:81 | `set` assigns the key in the clone; tests unchanged |
| ScriptExecutor.PostSandbox.Unset | ui-src/src/app/_scripts/scriptExecutor.ts:83 | `unset` deletes the key from the clone; tests unchanged |
| ScriptExecutor.PostSandbox.Test | ui-src/src/app/_scripts/scriptExecutor.ts:109-116 | `test(name, fn)` records under `name` whether no assertion of the body threw, overwriting an earlier result; the body's environment writes up to the first throwing assertion stay; it never throws |
| ScriptExecutor.PostSandbox.RunBody | ui-src/src/app/_scripts/scriptExecutor.ts:109-114 | `fn()` runs the body's steps in order until an assertion throws; it reports whether the body passed and leaves the environment as `TestEnvironment` says |
| ScriptExecutor.PassesAll | ui-src/src/app/_scripts/scriptExecutor.ts:109-116 | a test passes exactly when none of its body's assertions throws |
| ScriptExecutor.TestStopsAt | ui-src/src/app/_scripts/scriptExecutor.ts:109-116 | a test body that throws at step `i` leaves the environment as its steps before `i` wrote it |
| ScriptExecutor.SavedInTest | ui-src/src/app/_scripts/scriptExecutor.ts:81-116 | a test whose body only sets a variable writes it and passes |
| ScriptExecutor.WriteAfterFailureLost | ui-src/src/app/_scripts/scriptExecutor.ts:81-116 | a write after a failing assertion in the same test is not made, and the test is recorded as failed |
| ScriptExecutor.PostSandbox.Apply | ui-src/src/app/_scripts/scriptExecutor.ts:79-121 | one call changes the clone and the tests as the step function says and returns what it throws |
| ScriptExecutor.PostOutcome | ui-src/src/app/_scripts/scriptExecutor.ts:68-127 | a blank script succeeds with no tests; a failure returns the caller's environment and an error; success exactly when no error |
| ScriptExecutor.RunPostRequestScript | ui-src/src/app/_scripts/scriptExecutor.ts:68-127 | running the calls on a sandbox object gives exactly that outcome |
| ScriptExecutor.PostStepTest | ui-src/src/app/_scripts/scriptExecutor.ts:109-116 | a test call records its result under its name; every other call leaves that record alone |
| ScriptExecutor.PostLastTest | ui-src/src/app/_scripts/scriptExecutor.ts:109-116 | up to the first uncaught throw, a test name holds `true` exactly when every assertion of its last run held |
| ScriptExecutor.PostAssertStops | ui-src/src/app/_scripts/scriptExecutor.ts:97-99 | a failing assertion outside a test throws its message and changes nothing else |
| ScriptExecutor.FailedAssertEnds | ui-src/src/app/_scripts/scriptExecutor.ts:124-125 | a script with such an assertion fails with its message, the caller's environment, and the tests recorded before it |
| Executor.HandleAxiosError | ui-src/src/lib/executor.ts:37-68 | always a failure with the elapsed time; timeout, DNS and refused-connection codes get their fixed messages (the timeout's defaulting to 30000), any other error its own message |
| Executor.SizeLimitOf | ui-src/src/lib/executor.ts:81-82 | unlimited exactly when `maxResponseSize` is missing or 0; otherwise that many megabytes in bytes |
| Executor.PutIfFalsy | ui-src/src/lib/executor.ts:93-95 | sets the key only when it is missing or empty; other keys untouched |
| Executor.ConfigHeaders | ui-src/src/lib/executor.ts:88-110 | `Content-Type: application/json` added only beside a JSON body and `Host: localhost` only for a docker-host url, each only when unset; every other header kept |
| Executor.PayloadOf | ui-src/src/lib/executor.ts:89-100 | no body unless the upper-cased method is POST/PUT/PATCH/DELETE and the body is non-empty; then the parsed value, or the raw text when it does not parse |
| Executor.ConfigOf | ui-src/src/lib/executor.ts:74-110 | method upper-cased, timeout defaulting to 30000, no redirects exactly when `followRedirects` is false (else 5), both size limits from `maxResponseSize`, TLS rejection unless disabled, payload and headers as above |
| Executor.BuildConfig | ui-src/src/lib/executor.ts:74-110 | the step-by-step construction gives exactly that configuration |
| Executor.AttachBody | ui-src/src/lib/executor.ts:88-101 | the body step sets the payload and adds Content-Type only for a JSON payload |
| Executor.AddDockerHost | ui-src/src/lib/executor.ts:103-110 | the Host step touches the headers only for a url naming `host.docker.internal` |
| Executor.Kept | ui-src/src/lib/executor.ts:117-124 | `set-cookie` in any case is dropped; a string is kept; an array is joined with `", "`; any other value is dropped |
| Executor.NormalizedGet | ui-src/src/lib/executor.ts:116-125 | the normalised headers have distinct keys and hold under each key what `Kept` makes of the raw value |
| Executor.NormalizeHeaders | ui-src/src/lib/executor.ts:115-125 | the `forEach` builds exactly the normalised headers |
| Executor.Cookies | ui-src/src/lib/executor.ts:127-136 | an array as is, a non-empty string as a one-element list, nothing when absent, empty or of another type |
| Executor.ExecuteRequest | ui-src/src/lib/executor.ts:70-160 | any received response, whatever its status, is a success carrying status, normalised headers, cookies, body and time; axios errors go through `handleAxiosError`; other throws fail with their message or `Unknown error occurred` |
| RequestHandlers.HasSchemeMatchesRegex | ui-src/src/app/_scripts/requestHandlers.ts:21 | the greedy scheme scan agrees with the regular expression: a letter, scheme characters, then `://` |
| RequestHandlers.HttpHasScheme | ui-src/src/app/_scripts/requestHandlers.ts:16-21 | the `http(s)://` test is a special case of the scheme test |
| RequestHandlers.NormalizeUrl | ui-src/src/app/_scripts/requestHandlers.ts:6-27 | empty exactly for a blank input; the trimmed url when it starts with `{{` or `/` or carries a scheme; otherwise `http://` and the trimmed url |
| RequestHandlers.NormalizedIsTrimmed | ui-src/src/app/_scripts/requestHandlers.ts:6-27 | every result is already trimmed |
| RequestHandlers.NormalizedIsKept | ui-src/src/app/_scripts/requestHandlers.ts:6-27 | every result is empty or one of the cases left as it is |
| RequestHandlers.NormalizeUrlIdempotent | ui-src/src/app/_scripts/requestHandlers.ts:6-27 | normalising a normalised url changes nothing |
| RequestHandlers.ParseHeaders | ui-src/src/app/_scripts/requestHandlers.ts:32-40 | the `forEach` builds exactly the header object of the rows |
| RequestHandlers.HeaderLastRowWins | ui-src/src/app/_scripts/requestHandlers.ts:34-38 | a key holds the untrimmed value of the last row whose trimmed key it is |
| RequestHandlers.HeaderKeys | ui-src/src/app/_scripts/requestHandlers.ts:34-38 | the keys are exactly the rows' trimmed non-empty keys; the empty key never appears |
| RequestHandlers.JsonPayload | ui-src/src/app/_scripts/requestHandlers.ts:91-100 | url normalised, headers parsed, empty body and environment id dropped, settings spread, `timeout` overridden by `(timeout ?? 30) * 1000` |
| RequestHandlers.FormatResponseBody | ui-src/src/app/_scripts/requestHandlers.ts:117-126 | `''` for undefined or null, a string as it is, other values as their pretty JSON text |
| RequestHandlers.IsJsonResponse | ui-src/src/app/_scripts/requestHandlers.ts:140-152 | objects and arrays are JSON, missing and scalar bodies are not, a string is when it parses |
| RequestHandlers.IsHtmlResponse | ui-src/src/app/_scripts/requestHandlers.ts:131-135 | false without headers; otherwise whether `content-type`, or failing that `Content-Type`, contains `text/html` |
| RequestCrud.SaveRequest | ui-src/src/app/_scripts/requestCrudHandlers.ts:6-44 | a missing collection id or blank name fails with `Collection and request name are required`; success exactly for a valid input and an ok reply; a non-ok reply fails with the reply's `error`, else `Failed to save request`, and a network error or unreadable reply with `Failed to save request` |
| RequestCrud.UpdatePayloadOf | ui-src/src/app/_scripts/requestCrudHandlers.ts:57-75 | `forceOverwrite` is true only when passed as true (default false); name, method, url, headers, body, `expectedUpdatedAt` and both scripts are passed through |
| RequestCrud.ClassifyUpdateReply | ui-src/src/app/_scripts/requestCrudHandlers.ts:78-96 | a conflict exactly for a 409 whose body sets `conflict`, carrying the server version; success exactly for an ok reply with a JSON body; otherwise an error, `Update failed` by default |
| RequestCrud.UpdateRequest | ui-src/src/app/_scripts/requestCrudHandlers.ts:49-96 | the PUT sent for the request id carries the caller's fields with `forceOverwrite` defaulting to false, and the result is the classification of its reply: success exactly for an ok reply with a JSON body, a conflict exactly for a 409 flagged as one |
| RequestCrud.UpdateOutcomesExclusive | ui-src/src/app/_scripts/requestCrudHandlers.ts:80-91 | 409 is never ok, so a reply is exactly one of conflict, success and error |
| RequestCrud.ParseHeadersToArray | ui-src/src/app/_scripts/requestCrudHandlers.ts:117-128 | never empty: one blank row on a parse failure, `null` or a value without entries; otherwise one row per `Object.entries` entry (an object's, or a string's or array's indexed entries), in order |
| RequestCrud.BlankRowIsEmpty | ui-src/src/app/_scripts/requestCrudHandlers.ts:124 | the single blank row reads back as no header at all |
| RequestCrud.HeaderRowsRoundTrip | ui-src/src/app/_scripts/requestCrudHandlers.ts:117-128 | loading a stored header object into rows and parsing the rows again gives the object back, for non-empty trimmed keys |
| Validators.ParseMethod | ui-src/src/lib/validators.ts:16 | only the five upper-case method names are accepted, each as the method it names |
| Validators.ParseMethodName | ui-src/src/lib/validators.ts:16 | every method name is accepted |
| Validators.ParseCredentials | ui-src/src/lib/validators.ts:4-12 | accepted exactly with an e-mail address and a password of at least 6 characters |
| Validators.ParseExecute | ui-src/src/lib/validators.ts:15-25 | accepted exactly with a known method, a non-empty url, a timeout in [1000, 120000] and a size in [1, 100] when given; the fields are passed through |
| Validators.ParseCollectionName | ui-src/src/lib/validators.ts:28-34 | accepted exactly for a name of 1 to 100 characters |
| Validators.ParseCreateRequest | ui-src/src/lib/validators.ts:37-44 | accepted exactly for a name of 1 to 100 characters, a known or missing method, a non-empty url and collection id; the method defaults to GET and headers to `{}` |
| Validators.CreateRequestReparse | ui-src/src/lib/validators.ts:37-44 | parsing what the schema produced gives it back |
| Validators.ParseUpdateRequest | ui-src/src/lib/validators.ts:46-52 | every field may be missing; the ones given obey the create bounds |
| Validators.CreateAcceptedUpdateAccepts | ui-src/src/lib/validators.ts:37-52 | whatever a create accepts, an update accepts |
| Validators.ParseCreateEnvironment | ui-src/src/lib/validators.ts:55-58 | accepted exactly for a name of 1 to 50 characters; variables default to `{}` |
| Validators.CreateEnvironmentReparse | ui-src/src/lib/validators.ts:55-58 | parsing a parsed environment gives it back |
| Validators.ParseUpdateEnvironment | ui-src/src/lib/validators.ts:60-63 | both fields may be missing; a name given has 1 to 50 characters |
| Validators.CreateEnvironmentAcceptedUpdateAccepts | ui-src/src/lib/validators.ts:55-63 | whatever an environment create accepts, an update accepts |
| CookieTable.NameAndValue | ui-src/src/app/_components/CookieTable.tsx:15-16 | the text before the first `=`, and everything after it with further `=` kept; the whole text and `''` without `=` |
| CookieTable.Attributes | ui-src/src/app/_components/CookieTable.tsx:20-23 | each attribute is read trimmed, its name lower-cased, its value as it stands |
| CookieTable.Initial | ui-src/src/app/_components/CookieTable.tsx:13-18 | name and value from the trimmed first `;`-segment, no attribute set |
| CookieTable.ParseCookie | ui-src/src/app/_components/CookieTable.tsx:12-33 | the attribute loop builds exactly the cookie of the line |
| CookieTable.SetAttribute | ui-src/src/app/_components/CookieTable.tsx:25-29 | the five tests of the loop body apply one attribute |
| CookieTable.LastValueWins | ui-src/src/app/_components/CookieTable.tsx:25-27 | `domain`, `path` and `expires` hold the value of their last occurrence |
| CookieTable.AbsentValueKept | ui-src/src/app/_components/CookieTable.tsx:25-27 | without an occurrence, such an attribute stays unset |
| CookieTable.FlagSet | ui-src/src/app/_components/CookieTable.tsx:28-29 | any occurrence of `httponly` or `secure` sets its flag, whatever its value |
| CookieTable.FlagUnset | ui-src/src/app/_components/CookieTable.tsx:28-29 | without an occurrence, a flag stays unset |
| CookieTable.UnknownAttributeIgnored | ui-src/src/app/_components/CookieTable.tsx:20-30 | an attribute of no known name changes nothing, wherever it stands |
| CookieTable.NameValueFixed | ui-src/src/app/_components/CookieTable.tsx:15-30 | the attributes never change the name and value |
| Sidebar.FolderSegments | ui-src/src/components/Sidebar.tsx:110-112 | only segments that are non-empty, not `api` or `v1`, and start with neither `:` nor `{{` are kept; the first kept one is the first such segment of the path |
| Sidebar.GroupingPath | ui-src/src/components/Sidebar.tsx:107-108 | the second space-separated token of the name when it has a space, else the url |
| Sidebar.Capitalize | ui-src/src/components/Sidebar.tsx:119 | the first character upper-cased, the rest kept |
| Sidebar.InFolder | ui-src/src/components/Sidebar.tsx:114-124 | the requests whose folder segment is the key, in input order |
| Sidebar.GroupPairsContents | ui-src/src/components/Sidebar.tsx:114-125 | a folder exists exactly for a segment some request was filed under, with id `folder-` plus the segment, the capitalised name and those requests in input order |
| Sidebar.OrganizeIntoFolders | ui-src/src/components/Sidebar.tsx:101-129 | the `forEach` builds the folders of the grouping, listed in creation order |
| Sidebar.FolderListed | ui-src/src/components/Sidebar.tsx:117-128 | every listed folder is that of a segment, holding exactly the requests filed under it |
| Sidebar.FiledInItsFolder | ui-src/src/components/Sidebar.tsx:114-125 | a request with a folder segment is in the listed folder of that segment |
| Sidebar.Leftovers | ui-src/src/components/Sidebar.tsx:307 | the requests in no folder, in input order |
| Sidebar.InSomeFolderIff | ui-src/src/components/Sidebar.tsx:101-129 | a request is in some folder exactly when its grouping path has a folder segment |
| Sidebar.FoldersAndLeftoversPartition | ui-src/src/components/Sidebar.tsx:307 | every request is shown exactly once: in the leftovers exactly when it is in no folder, which is when it has no folder segment |
| RequestEditor.AddRow | ui-src/src/components/RequestEditor.tsx:59-61 | `addHeader` and `addFormData`: one blank row appended, the others untouched |
| RequestEditor.SpliceStart | ui-src/src/components/RequestEditor.tsx:65 | where `splice(index, 1)` starts: a negative index counts from the end, the start is clamped to the list |
| RequestEditor.RemoveRow | ui-src/src/components/RequestEditor.tsx:63-67 | `removeHeader` and `removeFormData`: never empty; an in-range index removes that row keeping the others' order; removing the only row leaves one blank row |
| RequestEditor.UpdateRow | ui-src/src/components/RequestEditor.tsx:69-73 | `updateHeader`: only the row at the index changes |
| RequestEditor.RemoveAddedRow | ui-src/src/components/RequestEditor.tsx:59-67 | removing the row just added gives the list back, and an empty list comes back as one blank row |
| RequestEditor.MergeRow | ui-src/src/components/RequestEditor.tsx:140 | the fields present in the update replace the row's, the others are kept |
| RequestEditor.UpdateFormDataItem | ui-src/src/components/RequestEditor.tsx:138-142 | only the row at the index changes, by the merge |
| RequestEditor.KindChangeResets | ui-src/src/components/RequestEditor.tsx:197 | changing a row's type keeps its key, clears the value and the file, and leaves the other rows alone |
| RequestEditor.SingleFieldEdits | ui-src/src/components/RequestEditor.tsx:189-219 | typing a key, a value or choosing a file changes that field only |
| RequestEditor.HeaderBadge | ui-src/src/components/RequestEditor.tsx:315 | the badge count is at most the number of rows |
| RequestEditor.HeaderBadgeExtremes | ui-src/src/components/RequestEditor.tsx:315 | the count is 0 exactly when no row has a key, and the number of rows exactly when every row has one |
| RequestEditor.HeaderBadgeAdd | ui-src/src/components/RequestEditor.tsx:315 | adding a header leaves the count alone |
| RequestEditor.HeaderBadgeRemove | ui-src/src/components/RequestEditor.tsx:315 | removing a row takes one off the count exactly when the row had a key |
| RequestTabs.WithoutId | ui-src/src/app/_components/RequestTabs.tsx:79 | exactly the tabs whose id differs, and no more of them than there were |
| RequestTabs.WithoutIdAppend | ui-src/src/app/_components/RequestTabs.tsx:79 | the filter keeps order: filtering a concatenation concatenates the filtered parts |
| RequestTabs.WithoutIdSingle | ui-src/src/app/_components/RequestTabs.tsx:79 | a single tab stays exactly when its id differs |
| RequestTabs.WithoutDistinct | ui-src/src/app/_components/RequestTabs.tsx:79 | with distinct ids, the remaining tabs keep distinct ids |
| RequestTabs.WithoutCount | ui-src/src/app/_components/RequestTabs.tsx:79 | with distinct ids, closing removes exactly one tab when the id is open and none otherwise |
| RequestTabs.CloseTab | ui-src/src/app/_components/RequestTabs.tsx:77-84 | the strip becomes exactly the filtered strip, so the others keep their order; a closed active tab hands over to the first remaining one, otherwise the active id is kept |
| RequestTabs.CloseKeepsValid | ui-src/src/app/_components/RequestTabs.tsx:71-84 | while the button is shown (more than one tab), closing never empties the strip, removes exactly one tab, and keeps distinct ids and an open active tab |
| RequestTabs.OpenTab | ui-src/src/app/_components/RequestTabs.tsx:96-100 | the new tab is appended and becomes active; the others are kept |
| RequestTabs.OpenKeepsValid | ui-src/src/app/_components/RequestTabs.tsx:96-100 | a new tab with an id not yet open keeps the strip valid |
| RequestTabs.StripScheme | ui-src/src/app/_components/RequestTabs.tsx:69 | `http://` or `https://` at the start is removed, nothing else |
| RequestTabs.First20 | ui-src/src/app/_components/RequestTabs.tsx:69 | `substring(0, 20)`: the first twenty characters, or the whole text when shorter |
| RequestTabs.TabLabel | ui-src/src/app/_components/RequestTabs.tsx:69 | never empty: `New Request` for an empty url, else the url without scheme cut to twenty characters, or the whole url when that is empty |
| RequestTabs.LabelIgnoresScheme | ui-src/src/app/_components/RequestTabs.tsx:69 | a url with either scheme is labelled like the rest of it |
| StorageUtils.NewTab | ui-src/src/app/_scripts/storageUtils.ts:6-19 | method GET, name `New Request`, empty url and body, JSON body type, one blank header row, one blank text form row, no response, not executing, no saved id or timestamp |
| StorageUtils.WithoutFiles | ui-src/src/app/_scripts/storageUtils.ts:62 | every form row with its file cleared, nothing else changed |
| StorageUtils.SavedTab | ui-src/src/app/_scripts/storageUtils.ts:60-64 | files and response cleared, every other field unchanged |
| StorageUtils.SavedTabIdempotent | ui-src/src/app/_scripts/storageUtils.ts:60-64 | saving a saved tab changes nothing more |
| StorageUtils.RestoredTab | ui-src/src/app/_scripts/storageUtils.ts:35-42 | not executing, files cleared, one blank text row for missing form data, every other field as stored |
| StorageUtils.RestoredTabs | ui-src/src/app/_scripts/storageUtils.ts:35-42 | each stored tab restored, in order |
| StorageUtils.LoadTabs | ui-src/src/app/_scripts/storageUtils.ts:24-53 | a result exactly when the saved text parses to a non-empty array; then the restored tabs, with the saved active id or else the first tab's |
| StorageUtils.SaveLoadRoundTrip | ui-src/src/app/_scripts/storageUtils.ts:35-64 | reading back what was saved gives the same tabs in order, without files or response and not executing, with the saved active id |
| StorageUtils.NewTabSurvivesStorage | ui-src/src/app/_scripts/storageUtils.ts:6-64 | a new tab comes back from storage as it was |
| StorageUtils.LoadSettings | ui-src/src/app/_scripts/storageUtils.ts:75-84 | the defaults outside a browser, without a saved value or when it does not parse; otherwise the spread of any parsed value (an object's entries, a string's or array's indexed entries, nothing for `null` or a scalar) over the defaults, every other default kept |
| JsonHighlighter.ClosingQuote | ui-src/src/app/_components/JsonHighlighter.tsx:23 | the result is a quote reached by a run of string-body units (`\u` and four alphanumerics, `\` and a non-`u`, any character but `\` and `"`), and every quote so reached is the result, so `None` means there is none |
| JsonHighlighter.StringMatch | ui-src/src/app/_components/JsonHighlighter.tsx:23 | a match exactly at a `"` with a closing quote; it runs past the closing quote and ends with `"` or `:` |
| JsonHighlighter.StringKey | ui-src/src/app/_components/JsonHighlighter.tsx:23 | the optional `(\s*:)?` is greedy: a string match ends in `:` exactly when whitespace and a colon follow its closing quote, and then takes just those; otherwise it ends at the closing quote |
| JsonHighlighter.KeywordMatch | ui-src/src/app/_components/JsonHighlighter.tsx:23 | `true`, `false` or `null` between word boundaries, and no match when none of them stands there |
| JsonHighlighter.NumberMatch | ui-src/src/app/_components/JsonHighlighter.tsx:23 | a number match is non-empty and starts with `-` or a digit |
| JsonHighlighter.NumberWhere | ui-src/src/app/_components/JsonHighlighter.tsx:23 | a number matches exactly where a digit, or `-` and a digit, stands |
| JsonHighlighter.NumberGrammar | ui-src/src/app/_components/JsonHighlighter.tsx:23 | what a number match takes splits into `-?\d+`, `(?:\.\d*)?` and `(?:[eE][+-]?\d+)?`, and no digit follows it |
| JsonHighlighter.NumberLongest | ui-src/src/app/_components/JsonHighlighter.tsx:23 | every number of that grammar starting at a position ends within the match there: the greedy match is the longest |
| JsonHighlighter.ExponentSplit | ui-src/src/app/_components/JsonHighlighter.tsx:23 | the exponent taken is one of the grammar, and no digit follows a non-empty one |
| JsonHighlighter.MatchAt | ui-src/src/app/_components/JsonHighlighter.tsx:23 | every match is non-empty and lies inside the input |
| JsonHighlighter.MatchAtWellFormed | ui-src/src/app/_components/JsonHighlighter.tsx:23 | so `lastIndex` strictly increases and the loop ends |
| JsonHighlighter.ClassifyMatch | ui-src/src/app/_components/JsonHighlighter.tsx:35-47 | a string followed by `\s*:` is a key and any other string a string; `true`/`false` are booleans, `null` is null, anything else a number |
| JsonHighlighter.NextMatch | ui-src/src/app/_components/JsonHighlighter.tsx:28 | `regex.exec` from `lastIndex`: the first position with a match, and no match before it |
| JsonHighlighter.TokenizedConcat | ui-src/src/app/_components/JsonHighlighter.tsx:28-62 | pieces that tokenize the input spell it out |
| JsonHighlighter.PiecesTokenized | ui-src/src/app/_components/JsonHighlighter.tsx:28-62 | what is emitted is non-empty plain text holding no match start, each followed by a token at its match, or ending the input |
| JsonHighlighter.PiecesClassified | ui-src/src/app/_components/JsonHighlighter.tsx:34-53 | every emitted token carries the class of its text |
| JsonHighlighter.EmitMatch | ui-src/src/app/_components/JsonHighlighter.tsx:29-55 | one round pushes the text since `lastIndex` (when non-empty) and the token, and moves `lastIndex` strictly forward past the match |
| JsonHighlighter.Scan | ui-src/src/app/_components/JsonHighlighter.tsx:22-64 | the loop emits exactly the pieces of the input |
| JsonHighlighter.Highlight | ui-src/src/app/_components/JsonHighlighter.tsx:22-64 | `highlight` with the JSON regular expression emits exactly those pieces |
| JsonHighlighter.HighlightTokenizes | ui-src/src/app/_components/JsonHighlighter.tsx:19-64 | the pieces concatenate back to the input, tokenize it and are classified; an empty input gives no pieces |
| Strings.Trim | ui-src/src/app/_scripts/requestHandlers.ts:7 | neither end of the result is whitespace, and it is empty exactly for a blank input |
| Strings.TrimInfix | ui-src/src/app/_scripts/requestHandlers.ts:7 | the result is the infix of the text between a leading and a trailing run of whitespace, nothing else removed |
| Strings.TrimIdempotent | ui-src/src/app/_scripts/requestHandlers.ts:7 | trimming twice is trimming once |
| Strings.Split | ui-src/src/app/_components/CookieTable.tsx:13 | `split(sep)` never gives an empty list, and its first piece is a prefix of the text |
| Strings.SplitJoin | ui-src/src/app/_components/CookieTable.tsx:15-16 | joining a split with the same separator gives the text back |
| Strings.SplitFirst | ui-src/src/components/Sidebar.tsx:107 | the first piece of a split is the text before the first separator |
| Strings.NatToString | ui-src/src/lib/executor.ts:42 | decimal digits, at least one, without a leading zero |
| Strings.NatToStringRoundTrip | ui-src/src/lib/executor.ts:42 | reading the digits back gives the number |
| Dicts.Put | ui-src/src/lib/env-resolver.ts:31 | the key holds the value, every other key is untouched, a present key keeps its place and a new one is appended |
| Dicts.Remove | ui-src/src/app/_scripts/scriptExecutor.ts:32 | the key is gone and every other key is untouched |
| Dicts.Merge | src/index.ts:228 | `{...a, ...b}`: a key of `b` holds `b`'s value, any other key `a`'s, and the keys are the union |
| Dicts.FromPairs | ui-src/src/lib/env-resolver.ts:30-32 | pairs assigned in order into `{}`: each key holds its last pair's value |
| Dicts.FromPairsCollide | ui-src/src/lib/env-resolver.ts:31 | two assignments to the same key leave one entry with the later value |
| Dicts.Values | ui-src/src/components/Sidebar.tsx:128 | `Object.values`: the values in entry order |
| Json.Spread | ui-src/src/app/_scripts/storageUtils.ts:79 | spreading `null` or a number or boolean gives `{}`, an object its entries, an array or string its items or characters under the keys `"0"`, `"1"`, ... |
| Arrays.Find | src/index.ts:287 | `find`: some element satisfies the test exactly when a result comes back, and the result is the element at the first index that does |
| Types.Failure | ui-src/src/lib/executor.ts:154-158 | a failure carries only its error and time |

## Left out

- **Storage and network.** The Express wiring, the storage provider, the network calls and the
  axios transport are outside the model. Their answers are parameters: `Storage`, `send`,
  `transport` and `RequestCrud`'s `send`.
- **The clock.** `Date.now` readings are parameters, and so are the tab ids built from them.
- **Browser state.** `localStorage` contents and `typeof window` are parameters.
- **Dynamic scripts.** Script evaluation by `new Function` is not modelled. A script is its text
  (for the blank test) and the sequence of `pm` calls it makes. The read-only helpers (`get`,
  `response.text`, `response.json`) change nothing and are not calls. Infinite scripts are not
  modelled.
- **Concurrency.** There is no concurrency between executions: each pipeline step runs
  sequentially.
- **FormData.** The multipart branch of `executeHttpRequest` is not modelled: it builds a
  browser `FormData` and only sends it.
- **Error catches.** The `String(body)` fallback of `formatResponseBody`, taken when
  `JSON.stringify` throws, is not modelled: the pretty text is part of the body value.
  Likewise, `JSON.stringify` results are carried as data, not computed.
- **Module not modelled.** `importExportHandlers.ts` is not part of this model.
- **Rendering.** Theme colours and React rendering are not modelled.
- **Object key order.** `Object.entries` lists integer-like keys first in JavaScript. The model
  keeps plain insertion order for every key.
- **Characters.** Case mapping is modelled for ASCII letters only. `trim` and `\s` use a fixed
  whitespace set. Strings are sequences of characters, not UTF-16 code units, so
  `substring(0, 20)` counts characters.
- **Parsed JSON values.** Values inside parsed JSON objects are kept in their string form
  (`String(value)`). A `null` member value is not told apart from the text `null`.
- **Conflict checking on the server.** The server side of the conflict check is not modelled: the
  PUT route forwards the body to storage without comparing timestamps. Only the client's reading
  of a 409 reply is modelled.
- ServerExecute.Prepare, ServerExecute.ExecuteRoute: a collection header whose parsed value is
  not a string (as in `{"X-Retry": 3}`, or the items of an array such as `[1]`) reaches `resolveVariables` as
  that value, where `.replace` throws and the route answers 500. The model carries the value's
  string form, so it resolves the header and sends it.
- Validators.ParseExecute, Validators.ParseCreateRequest, RequestHandlers.JsonPayload: numbers
  are integers. A fractional `timeout` or `maxResponseSize` that zod accepts (1500.5), and the
  fractional product `timeout * 1000`, are not modelled.
- Validators.ParseCredentials, Validators.ParseExecute, Validators.ParseCollectionName,
  Validators.ParseCreateRequest, Validators.ParseUpdateRequest, Validators.ParseCreateEnvironment,
  Validators.ParseUpdateEnvironment: the input fields are typed (`Option<string>`, `Option<int>`,
  `Option<bool>`). zod's rejection of a wrongly typed field (`url: 5`, `timeout: "3000"`), of an
  explicit `null` in an `.optional()` field (which the model reads as missing) and of an input
  that is not an object is not modelled. "Accepted exactly" holds on well-typed input.
- ScriptExecutor.PostSandbox.Test, ScriptExecutor.PostOutcome, ScriptExecutor.RunPostRequestScript:
  a test body holds assertions and `pm.environment.set`/`unset` calls. A `pm.test` nested inside
  a test body is not modelled.
- Validators.ParseCredentials: zod's e-mail format check is a parameter `isEmail`. zod's error
  messages are not modelled, only whether an input is accepted and what it becomes.
- RequestCrud.ClassifyUpdateReply: an absent `conflict` flag in the reply is modelled as
  `false`, which reads the same in the `&&` test.
- RequestEditor.UpdateRow: it requires an index inside the list. The editor only calls it for a
  row it shows, and JavaScript would otherwise grow the array with holes.
- StorageUtils.RestoredTab: stored tabs are assumed to be tab objects. The parse result is typed
  as tabs, and an array element of another shape is not modelled.
- Sidebar.Leftovers: `includes` compares request objects by reference; the model compares them
  by value. The two agree while no two requests of a collection are equal field for field.
- RequestTabs.CloseKeepsValid: closing never empties the strip only while tab ids are distinct,
  which is the invariant the model states. With two tabs sharing an id, `filter` removes both.
- Placeholders.NotRescanned: stated for a text made of one placeholder whose value is another
  placeholder. `Placeholders.ResolveLeading` gives the general step: the rest is resolved
  separately from the inserted value.
- ServerExecute.ResolveVariables, Placeholders.ResolveLeading: a variable whose parsed value is
  `null` (as in `{"a": null}`) is kept by both resolvers, since `null ?? match` gives the
  placeholder back. The model stores the string form the parse outcome carries and substitutes
  it.
- Sidebar.OrganizeIntoFolders, Placeholders.ResolveLeading, ServerExecute.ResolveVariables,
  RequestHandlers.ParseHeaders, Dicts.Put, Dicts.Get: names inherited through JavaScript's
  prototype chain (`constructor`, `toString`, `__proto__`, a string's or array's `length`) are
  not modelled. Objects are plain key lists, so a lookup sees only their own keys. In the
  system, a folder segment naming an inherited member finds it already present and the
  `requests.push` throws. Both resolvers substitute such a placeholder with the inherited value's
  text, where the model keeps it. `parseHeaders` assigning `__proto__` drops the key, where
  `Put` keeps it.
- ScriptExecutor.PreOutcome: only `Error` throws are modelled, as `Throw(message)`. A script
  that throws a value other than an `Error` yields `error: undefined`, not a message, and
  `throw null` or `throw undefined` makes the catch itself throw out of the runner.
- ScriptExecutor.PostOutcome: the same restriction to `Error` throws applies to the
  post-request script's catch.
- ScriptExecutor.RunPreRequestScript: it inherits `PreOutcome`'s restriction to `Error` throws.
- ScriptExecutor.RunPostRequestScript: it inherits `PostOutcome`'s restriction to `Error` throws.
- Executor.BuildConfig: the configuration holds the caller's `request.headers` object itself,
  and the `Content-Type` and `Host` steps then write into it, so the caller's headers are
  changed too. The model builds the configuration's headers as a new value and does not
  capture that aliasing.

=== FILE: arrays.dfy ===
/** The JavaScript array built-ins the modelled code relies on: `find`. */
module Arrays {
  import opened Options

  /** The index of the first element satisfying `p`: `xs.findIndex(p)`, and so
      the element `xs.find(p)` returns. */
  function FindIndex<T>(xs: seq<T>, p: T -> bool): (r: Option<nat>)
    ensures r.Some? ==> r.value < |xs| && p(xs[r.value])
    ensures r.Some? ==> forall j :: 0 <= j < r.value ==> !p(xs[j])
    ensures r.None? ==> forall j :: 0 <= j < |xs| ==> !p(xs[j])
  {
    if xs == [] then None
    else if p(xs[0]) then Some(0)
    else match FindIndex(xs[1..], p)
      case Some(i) => Some(i + 1)
      case None => None
  }

  /** `xs.find(p)` */
  function Find<T>(xs: seq<T>, p: T -> bool): (r: Option<T>)
    ensures r.Some? <==> exists j :: 0 <= j < |xs| && p(xs[j])
    ensures r.Some? ==> exists j :: 0 <= j < |xs| && xs[j] == r.value && p(xs[j]) &&
                                    forall k :: 0 <= k < j ==> !p(xs[k])
  {
    match FindIndex(xs, p)
    case Some(i) => Some(xs[i])
    case None => None
  }

  /** Concatenation is associative. */
  lemma Associative<X>(a: seq<X>, b: seq<X>, c: seq<X>)
    ensures (a + b) + c == a + (b + c)
  {
  }
}

=== FILE: client_types.dfy ===
/**
 * The records the browser client edits and stores (ui-src/src/types/index.ts):
 * header and form rows, request tabs and their settings. A `File` chosen in a
 * form row is opaque to the modelled code and is represented by a handle.
 */
module ClientTypes {
  import opened Options
  import opened Types

  /** One `{ key, value }` row of the header editor. */
  datatype HeaderRow = HeaderRow(key: string, value: string)

  /** The row the editors add: empty key and value. */
  const BlankHeader := HeaderRow("", "")

  /** A browser `File` object. */
  datatype FileHandle = FileHandle(id: nat)

  datatype FieldKind = TextField | FileField

  /** One row of the multipart form editor. */
  datatype FormRow = FormRow(key: string, value: string, kind: FieldKind, file: Option<FileHandle>)

  /** The form row the editors add: an empty text field without a file. */
  const BlankFormRow := FormRow("", "", TextField, None)

  datatype BodyType = JsonBodyType | FormDataBodyType

  /** An open request tab; `response` is `null` until a request ran. */
  datatype RequestTab = RequestTab(
    id: string,
    name: string,
    httpMethod: string,
    url: string,
    headers: seq<HeaderRow>,
    body: string,
    bodyType: BodyType,
    formData: seq<FormRow>,
    response: Option<ExecuteResponse>,
    executing: bool,
    savedRequestId: Option<string>,
    serverUpdatedAt: Option<string>,
    preRequestScript: Option<string>,
    postRequestScript: Option<string>)

  /** The per-request settings; every field may be missing in what was stored. */
  datatype RequestSettings = RequestSettings(
    sslVerification: Option<bool>,
    followRedirects: Option<bool>,
    timeout: Option<int>,
    maxResponseSize: Option<int>)

  /** A request saved in a collection; `headers` is JSON text. */
  datatype RequestItem = RequestItem(
    id: string,
    name: string,
    httpMethod: string,
    url: string,
    headers: string,
    body: Option<string>,
    updatedAt: Option<string>)

  /** The open tabs and the id of the active one. */
  datatype TabsState = TabsState(tabs: seq<RequestTab>, activeTabId: string)
}

=== FILE: cookie_table.dfy ===
/**
 * The `Set-Cookie` parser of the response panel's cookie table
 * (ui-src/src/app/_components/CookieTable.tsx, `parseCookie`): a loose
 * reading of section 5.2 of RFC 6265. The first `;`-separated segment gives
 * the name and value, split at its first `=`; each further segment is an
 * attribute, matched by its lower-cased name. Unlike the RFC, nothing is
 * trimmed around `=`, and the `Max-Age`, `SameSite` and unknown attributes
 * are ignored.
 */
module CookieTable {
  import opened Options
  import opened Strings

  /** A parsed cookie; attributes not seen stay unset (`None`). */
  datatype Cookie = Cookie(
    name: string,
    value: string,
    domain: Option<string>,
    path: Option<string>,
    expires: Option<string>,
    httpOnly: Option<bool>,
    secure: Option<bool>)

  /** `const [first, ...rest] = text.split('=')` with `rest.join('=')`: the
      text before the first `=` and everything after it, further `=` kept. */
  function NameAndValue(text: string): (r: (string, string))
    ensures IndexOf(text, "=").None? ==> r == (text, "")
    ensures IndexOf(text, "=").Some? ==>
              r == (text[..IndexOf(text, "=").value], text[IndexOf(text, "=").value + 1..])
  {
    var parts := Split(text, "=");
    match IndexOf(text, "=")
    case Some(i) =>
      SplitFirst(text, "=", i);
      (parts[0], Join(parts[1..], "="))
    case None =>
      SplitAbsent(text, "=");
      (parts[0], Join(parts[1..], "="))
  }

  /** An attribute segment as the parser reads it: trimmed, its name
      lower-cased, its value as it stands. */
  function AttributeOf(segment: string): (string, string) {
    var nv := NameAndValue(Trim(segment));
    (ToLower(nv.0), nv.1)
  }

  function Attributes(segments: seq<string>): (kvs: seq<(string, string)>)
    ensures |kvs| == |segments|
    ensures forall i :: 0 <= i < |segments| ==> kvs[i] == AttributeOf(segments[i])
  {
    seq(|segments|, i requires 0 <= i < |segments| => AttributeOf(segments[i]))
  }

  /** One attribute: `domain`, `path` and `expires` take its value,
      `httponly` and `secure` set their flag, whatever the value; any other
      name changes nothing. */
  function Apply(c: Cookie, k: string, v: string): Cookie {
    if k == "domain" then c.(domain := Some(v))
    else if k == "path" then c.(path := Some(v))
    else if k == "expires" then c.(expires := Some(v))
    else if k == "httponly" then c.(httpOnly := Some(true))
    else if k == "secure" then c.(secure := Some(true))
    else c
  }

  /** The attributes applied in order. */
  function ApplyAll(c: Cookie, kvs: seq<(string, string)>): Cookie
    decreases |kvs|
  {
    if kvs == [] then c
    else Apply(ApplyAll(c, kvs[..|kvs| - 1]), kvs[|kvs| - 1].0, kvs[|kvs| - 1].1)
  }

  /** The cookie before any attribute: name and value from the trimmed first
      segment. */
  function Initial(str: string): (c: Cookie)
    ensures c.domain.None? && c.path.None? && c.expires.None? && c.httpOnly.None? && c.secure.None?
    ensures (c.name, c.value) == NameAndValue(Trim(Split(str, ";")[0]))
  {
    var nv := NameAndValue(Trim(Split(str, ";")[0]));
    Cookie(nv.0, nv.1, None, None, None, None, None)
  }

  /** What `parseCookie` returns for a `Set-Cookie` line. */
  function CookieOf(str: string): Cookie {
    ApplyAll(Initial(str), Attributes(Split(str, ";")[1..]))
  }

  /** `parseCookie`: fills the cookie's fields attribute by attribute. */
  method ParseCookie(str: string) returns (cookie: Cookie)
    ensures cookie == CookieOf(str)
  {
    var parts := Split(str, ";");
    cookie := Initial(str);
    ghost var init := cookie;
    var attrs := parts[1..];
    ghost var kvs := Attributes(attrs);
    var i := 0;
    while i < |attrs|
      invariant 0 <= i <= |attrs|
      invariant cookie == ApplyAll(init, kvs[..i])
    {
      var (k, val) := AttributeOf(attrs[i]);
      assert (k, val) == kvs[i];
      cookie := SetAttribute(cookie, k, val);
      ApplyAllSnoc(init, kvs, i);
      i := i + 1;
    }
    assert kvs[..|attrs|] == kvs;
  }

  /** The body of the attribute loop: five independent tests of the
      lower-cased name, of which at most one holds. */
  method SetAttribute(c: Cookie, k: string, val: string) returns (cookie: Cookie)
    ensures cookie == Apply(c, k, val)
  {
    cookie := c;
    if k == "domain" { cookie := cookie.(domain := Some(val)); }
    if k == "path" { cookie := cookie.(path := Some(val)); }
    if k == "expires" { cookie := cookie.(expires := Some(val)); }
    if k == "httponly" { cookie := cookie.(httpOnly := Some(true)); }
    if k == "secure" { cookie := cookie.(secure := Some(true)); }
    KnownNamesDistinct();
  }

  lemma ApplyAllSnoc(c: Cookie, kvs: seq<(string, string)>, i: nat)
    requires i < |kvs|
    ensures ApplyAll(c, kvs[..i + 1]) == Apply(ApplyAll(c, kvs[..i]), kvs[i].0, kvs[i].1)
  {
    assert kvs[..i + 1][..i] == kvs[..i];
  }

  /** The five attribute names are pairwise different, so at most one of
      the parser's tests matches. */
  lemma KnownNamesDistinct()
    ensures "domain" != "path" && "domain" != "expires" && "domain" != "httponly" && "domain" != "secure"
    ensures "path" != "expires" && "path" != "httponly" && "path" != "secure"
    ensures "expires" != "httponly" && "expires" != "secure" && "httponly" != "secure"
  {
    assert |"domain"| == 6 && |"path"| == 4 && |"expires"| == 7 && |"httponly"| == 8 && |"secure"| == 6;
    assert "domain"[0] != "secure"[0];
  }

  /** The attributes that carry a value. */
  predicate IsValueAttribute(k: string) {
    k == "domain" || k == "path" || k == "expires"
  }

  function ValueOf(c: Cookie, k: string): Option<string> {
    if k == "domain" then c.domain else if k == "path" then c.path else c.expires
  }

  /** The attributes that are flags. */
  predicate IsFlagAttribute(k: string) {
    k == "httponly" || k == "secure"
  }

  function FlagOf(c: Cookie, k: string): Option<bool> {
    if k == "httponly" then c.httpOnly else c.secure
  }

  /** A value attribute holds the value of its last occurrence: a later
      duplicate overwrites an earlier one. */
  lemma {:induction false} LastValueWins(c: Cookie, kvs: seq<(string, string)>, k: string, i: nat)
    requires IsValueAttribute(k) && i < |kvs| && kvs[i].0 == k
    requires forall j :: i < j < |kvs| ==> kvs[j].0 != k
    ensures ValueOf(ApplyAll(c, kvs), k) == Some(kvs[i].1)
    decreases |kvs|
  {
    var n := |kvs| - 1;
    if i < n {
      LastValueWins(c, kvs[..n], k, i);
    }
  }

  /** Without an occurrence, a value attribute keeps what it had. */
  lemma {:induction false} AbsentValueKept(c: Cookie, kvs: seq<(string, string)>, k: string)
    requires IsValueAttribute(k)
    requires forall j :: 0 <= j < |kvs| ==> kvs[j].0 != k
    ensures ValueOf(ApplyAll(c, kvs), k) == ValueOf(c, k)
    decreases |kvs|
  {
    if kvs != [] {
      AbsentValueKept(c, kvs[..|kvs| - 1], k);
    }
  }

  /** A flag is set by any occurrence, whatever its value, and later
      attributes never clear it. */
  lemma {:induction false} FlagSet(c: Cookie, kvs: seq<(string, string)>, k: string, i: nat)
    requires IsFlagAttribute(k) && i < |kvs| && kvs[i].0 == k
    ensures FlagOf(ApplyAll(c, kvs), k) == Some(true)
    decreases |kvs|
  {
    var n := |kvs| - 1;
    if i < n {
      FlagSet(c, kvs[..n], k, i);
    }
  }

  /** Without an occurrence, a flag keeps what it had. */
  lemma {:induction false} FlagUnset(c: Cookie, kvs: seq<(string, string)>, k: string)
    requires IsFlagAttribute(k)
    requires forall j :: 0 <= j < |kvs| ==> kvs[j].0 != k
    ensures FlagOf(ApplyAll(c, kvs), k) == FlagOf(c, k)
    decreases |kvs|
  {
    if kvs != [] {
      FlagUnset(c, kvs[..|kvs| - 1], k);
    }
  }

  /** An attribute of no known name leaves the cookie as it is, wherever it
      stands. */
  lemma {:induction false} UnknownAttributeIgnored(c: Cookie, before: seq<(string, string)>,
                                                   k: string, v: string, after: seq<(string, string)>)
    requires !IsValueAttribute(k) && !IsFlagAttribute(k)
    ensures ApplyAll(c, before + [(k, v)] + after) == ApplyAll(c, before + after)
    decreases |after|
  {
    if after == [] {
      assert (before + [(k, v)] + after)[..|before|] == before;
      assert before + after == before;
    } else {
      var n := |after| - 1;
      UnknownAttributeIgnored(c, before, k, v, after[..n]);
      assert (before + [(k, v)] + after)[..|before| + 1 + n] == before + [(k, v)] + after[..n];
      assert (before + after)[..|before| + n] == before + after[..n];
    }
  }

  /** The name and value never depend on the attributes: they are the two
      sides of the first `=` of the trimmed first segment. */
  lemma NameValueFixed(str: string)
    ensures CookieOf(str).name == Initial(str).name && CookieOf(str).value == Initial(str).value
  {
    NameValueFixedAll(Initial(str), Attributes(Split(str, ";")[1..]));
  }

  lemma {:induction false} NameValueFixedAll(c: Cookie, kvs: seq<(string, string)>)
    ensures ApplyAll(c, kvs).name == c.name && ApplyAll(c, kvs).value == c.value
    decreases |kvs|
  {
    if kvs != [] {
      NameValueFixedAll(c, kvs[..|kvs| - 1]);
    }
  }
}

=== FILE: dicts.dfy ===
/**
 * JavaScript plain objects with string keys (`Record<string, V>`), the maps
 * every modelled file builds and reads: their own entries in insertion order,
 * each key at most once. `obj[k] = v` overwrites an existing key in place and
 * appends a new one; `delete obj[k]` removes the entry; `{...a, ...b}` assigns
 * the entries of `b` over a copy of `a`.
 */
module Dicts {
  import opened Options

  predicate DistinctKeys<V>(entries: seq<(string, V)>) {
    forall i, j :: 0 <= i < j < |entries| ==> entries[i].0 != entries[j].0
  }

  /** An object's entries, as `Object.entries` lists them. */
  type Dict<V> = d: seq<(string, V)> | DistinctKeys(d) witness []

  /** The key set of a list of pairs. */
  function Keys<V>(ps: seq<(string, V)>): set<string> {
    set i | 0 <= i < |ps| :: ps[i].0
  }

  /** The keys in entry order, as `Object.keys` lists them. */
  function KeySeq<V>(ps: seq<(string, V)>): seq<string> {
    seq(|ps|, i requires 0 <= i < |ps| => ps[i].0)
  }

  /** The values in entry order, as `Object.values` lists them. */
  function Values<V>(ps: seq<(string, V)>): (r: seq<V>)
    ensures |r| == |ps|
    ensures forall i :: 0 <= i < |ps| ==> r[i] == ps[i].1
  {
    seq(|ps|, i requires 0 <= i < |ps| => ps[i].1)
  }

  /** The index of the last pair with key `k`. */
  function LastIndex<V>(ps: seq<(string, V)>, k: string): (r: Option<nat>)
    ensures r.Some? ==> r.value < |ps| && ps[r.value].0 == k
    ensures r.Some? ==> forall j :: r.value < j < |ps| ==> ps[j].0 != k
    ensures r.None? <==> k !in Keys(ps)
    decreases |ps|
  {
    if ps == [] then None
    else if ps[|ps| - 1].0 == k then Some(|ps| - 1)
    else
      var r := LastIndex(ps[..|ps| - 1], k);
      assert Keys(ps) == Keys(ps[..|ps| - 1]) + {ps[|ps| - 1].0};
      r
  }

  /** The value of the last pair with key `k`: what assigning the pairs one
      after the other leaves under `k`. On an object this is `obj[k]`. */
  function Get<V>(ps: seq<(string, V)>, k: string): Option<V> {
    match LastIndex(ps, k)
    case Some(i) => Some(ps[i].1)
    case None => None
  }

  /** In an object the entry holding `k` is the only one. */
  lemma GetEntry<V>(d: Dict<V>, i: nat)
    requires i < |d|
    ensures Get(d, d[i].0) == Some(d[i].1)
  {
  }

  lemma KeysUpdate<V>(d: seq<(string, V)>, i: nat, k: string, v: V)
    requires i < |d| && d[i].0 == k
    ensures Keys(d[i := (k, v)]) == Keys(d)
  {
    var r := d[i := (k, v)];
    forall x | x in Keys(d) ensures x in Keys(r) {
      var j :| 0 <= j < |d| && d[j].0 == x;
      assert r[j].0 == x;
    }
  }

  lemma KeysAppend<V>(d: seq<(string, V)>, k: string, v: V)
    ensures Keys(d + [(k, v)]) == Keys(d) + {k}
  {
    var r := d + [(k, v)];
    forall x | x in Keys(r) ensures x in Keys(d) + {k} {
      var j :| 0 <= j < |r| && r[j].0 == x;
      if j < |d| { assert d[j].0 == x; }
    }
    assert r[|d|].0 == k;
    forall x | x in Keys(d) ensures x in Keys(r) {
      var j :| 0 <= j < |d| && d[j].0 == x;
      assert r[j].0 == x;
    }
  }

  lemma LastIndexAppend<V>(d: seq<(string, V)>, k: string, v: V, k': string)
    requires k' != k
    ensures LastIndex(d + [(k, v)], k') == LastIndex(d, k')
  {
    assert (d + [(k, v)])[..|d|] == d;
  }

  /** Looking a key up in one more pair of a sequence. */
  lemma GetPrefix<V>(ps: seq<(string, V)>, i: nat, k: string)
    requires i < |ps|
    ensures Get(ps[..i + 1], k) == if ps[i].0 == k then Some(ps[i].1) else Get(ps[..i], k)
  {
    assert ps[..i + 1][..i] == ps[..i];
  }

  /** `obj[k] = v` */
  function Put<V>(d: Dict<V>, k: string, v: V): (r: Dict<V>)
    ensures Get(r, k) == Some(v)
    ensures forall k' :: k' != k ==> Get(r, k') == Get(d, k')
    ensures Keys(r) == Keys(d) + {k}
    ensures k in Keys(d) ==> KeySeq(r) == KeySeq(d)
    ensures k !in Keys(d) ==> r == d + [(k, v)]
  {
    match LastIndex(d, k)
    case Some(i) =>
      KeysUpdate(d, i, k, v);
      assert KeySeq(d[i := (k, v)]) == KeySeq(d);
      d[i := (k, v)]
    case None =>
      KeysAppend(d, k, v);
      assert forall k' :: k' != k ==> Get(d + [(k, v)], k') == Get(d, k') by {
        forall k' | k' != k { LastIndexAppend(d, k, v, k'); }
      }
      d + [(k, v)]
  }

  /** The last pair with `k` is found wherever it sits. */
  lemma LastIndexAt<V>(ps: seq<(string, V)>, k: string, m: nat)
    requires m < |ps| && ps[m].0 == k
    requires forall j :: m < j < |ps| ==> ps[j].0 != k
    ensures LastIndex(ps, k) == Some(m)
  {
    assert k in Keys(ps);
  }

  lemma RemoveAtKeys<V>(d: Dict<V>, i: nat, k: string)
    requires i < |d| && d[i].0 == k
    ensures DistinctKeys(d[..i] + d[i + 1..])
    ensures Keys(d[..i] + d[i + 1..]) == Keys(d) - {k}
  {
    var r := d[..i] + d[i + 1..];
    assert forall j :: 0 <= j < |r| ==> r[j] == (if j < i then d[j] else d[j + 1]);
    forall x | x in Keys(d) - {k} ensures x in Keys(r) {
      var j :| 0 <= j < |d| && d[j].0 == x;
      if j < i { assert r[j].0 == x; } else { assert r[j - 1].0 == x; }
    }
  }

  lemma RemoveAtGet<V>(d: Dict<V>, i: nat, k: string, k': string)
    requires i < |d| && d[i].0 == k && k' != k
    ensures Get(d[..i] + d[i + 1..], k') == Get(d, k')
  {
    var r := d[..i] + d[i + 1..];
    RemoveAtKeys(d, i, k);
    assert forall j :: 0 <= j < |r| ==> r[j] == (if j < i then d[j] else d[j + 1]);
    match LastIndex(d, k')
    case None =>
    case Some(m) =>
      var m' := if m < i then m else m - 1;
      LastIndexAt(r, k', m');
  }

  lemma RemoveAt<V>(d: Dict<V>, i: nat, k: string)
    requires i < |d| && d[i].0 == k
    ensures DistinctKeys(d[..i] + d[i + 1..])
    ensures Get(d[..i] + d[i + 1..], k) == None
    ensures forall k' :: k' != k ==> Get(d[..i] + d[i + 1..], k') == Get(d, k')
    ensures Keys(d[..i] + d[i + 1..]) == Keys(d) - {k}
  {
    RemoveAtKeys(d, i, k);
    forall k' | k' != k ensures Get(d[..i] + d[i + 1..], k') == Get(d, k') {
      RemoveAtGet(d, i, k, k');
    }
  }

  /** `delete obj[k]` */
  function Remove<V>(d: Dict<V>, k: string): (r: Dict<V>)
    ensures Get(r, k) == None
    ensures forall k' :: k' != k ==> Get(r, k') == Get(d, k')
    ensures Keys(r) == Keys(d) - {k}
    ensures |r| <= |d|
  {
    match LastIndex(d, k)
    case Some(i) =>
      RemoveAt(d, i, k);
      d[..i] + d[i + 1..]
    case None => d
  }

  /** One more assignment keeps the merge property. */
  lemma MergeStep<V>(a: Dict<V>, init: seq<(string, V)>, last: (string, V), m: Dict<V>)
    requires forall k :: Get(m, k) == if k in Keys(init) then Get(init, k) else Get(a, k)
    requires Keys(m) == Keys(a) + Keys(init)
    ensures forall k ::
              Get(Put(m, last.0, last.1), k) == if k in Keys(init + [last]) then Get(init + [last], k) else Get(a, k)
    ensures Keys(Put(m, last.0, last.1)) == Keys(a) + Keys(init + [last])
  {
    KeysAppend(init, last.0, last.1);
    forall k | k != last.0 { LastIndexAppend(init, last.0, last.1, k); }
  }

  /** `{...a, ...pairs}` and, generally, assigning `pairs` in order over a copy
      of `a`: later pairs win, keys already in `a` keep their place. */
  function Merge<V>(a: Dict<V>, pairs: seq<(string, V)>): (r: Dict<V>)
    ensures forall k :: Get(r, k) == if k in Keys(pairs) then Get(pairs, k) else Get(a, k)
    ensures Keys(r) == Keys(a) + Keys(pairs)
    ensures |r| <= |a| + |pairs|
    decreases |pairs|
  {
    if pairs == [] then a
    else
      var init := pairs[..|pairs| - 1];
      var last := pairs[|pairs| - 1];
      assert pairs == init + [last];
      MergeStep(a, init, last, Merge(a, init));
      Put(Merge(a, init), last.0, last.1)
  }

  /** An object built by assigning `pairs` one after the other into `{}`. */
  function FromPairs<V>(pairs: seq<(string, V)>): (r: Dict<V>)
    ensures forall k :: Get(r, k) == Get(pairs, k)
    ensures Keys(r) == Keys(pairs)
    ensures |r| <= |pairs|
  {
    Merge([], pairs)
  }

  /** Assigning pairs whose keys are distinct into `{}` keeps them as they are,
      in order. */
  lemma {:induction false} FromDistinctPairs<V>(pairs: seq<(string, V)>)
    requires DistinctKeys(pairs)
    ensures FromPairs(pairs) == pairs
    decreases |pairs|
  {
    if pairs != [] {
      var init := pairs[..|pairs| - 1];
      FromDistinctPairs(init);
      assert pairs[|pairs| - 1].0 !in Keys(init);
      assert Merge([], pairs) == Put(Merge([], init), pairs[|pairs| - 1].0, pairs[|pairs| - 1].1);
    }
  }

  /** Two assignments to the same key leave one entry, with the later value. */
  lemma FromPairsCollide<V>(a: (string, V), b: (string, V))
    requires a.0 == b.0
    ensures FromPairs([a, b]) == [b]
  {
    FromDistinctPairs([a]);
    assert [a, b][..1] == [a];
    assert Merge([], [a, b]) == Put(Merge([], [a]), b.0, b.1);
    LastIndexAt([a], a.0, 0);
  }

  /** Lists with the same keys in the same order find the same last index. */
  lemma {:induction false} LastIndexSameKeys<V, W>(a: seq<(string, V)>, b: seq<(string, W)>, k: string)
    requires KeySeq(a) == KeySeq(b)
    ensures LastIndex(a, k) == LastIndex(b, k)
    decreases |a|
  {
    assert |a| == |KeySeq(a)| == |b|;
    if a != [] {
      assert a[|a| - 1].0 == KeySeq(a)[|a| - 1] == b[|b| - 1].0;
      var ka, kb := KeySeq(a[..|a| - 1]), KeySeq(b[..|b| - 1]);
      assert ka == kb by {
        forall i | 0 <= i < |ka| ensures ka[i] == kb[i] {
          assert ka[i] == a[i].0 == KeySeq(a)[i];
          assert kb[i] == b[i].0 == KeySeq(b)[i];
        }
      }
      LastIndexSameKeys(a[..|a| - 1], b[..|b| - 1], k);
    }
  }

  /** An object with every value passed through `f`, keys and order unchanged. */
  function MapValues<V, W>(d: Dict<V>, f: V -> W): (r: Dict<W>)
    ensures KeySeq(r) == KeySeq(d)
    ensures forall i :: 0 <= i < |d| ==> r[i] == (d[i].0, f(d[i].1))
    ensures forall k :: Get(r, k) == if Get(d, k).Some? then Some(f(Get(d, k).value)) else None
  {
    var r := seq(|d|, i requires 0 <= i < |d| => (d[i].0, f(d[i].1)));
    assert forall i :: 0 <= i < |d| ==> r[i].0 == d[i].0;
    assert KeySeq(r) == KeySeq(d);
    assert forall k :: LastIndex(r, k) == LastIndex(d, k) by {
      forall k { LastIndexSameKeys(r, d, k); }
    }
    r
  }
}

=== FILE: env_resolver.dfy ===
/**
 * The client's variable resolution (ui-src/src/lib/env-resolver.ts): the
 * trimming `{{name}}` resolver, its application to every key and value of a
 * header object, and the tolerant parse of an environment's variables.
 */
module EnvResolver {
  import opened Options
  import opened Strings
  import opened Dicts
  import opened Json
  import opened Placeholders

  /** `resolveVariables(input, variables)`: an empty input is returned at once;
      otherwise every `{{ name }}` whose trimmed name is a key is replaced. */
  function ResolveVariables(input: string, variables: Dict<string>): string {
    if input == [] then input else Resolve(input, variables, true)
  }

  /** The early return changes nothing: the resolver is the trimming
      substitution, and a text without `{{` comes back as it is. */
  lemma ResolveVariablesMeaning(input: string, variables: Dict<string>)
    ensures ResolveVariables(input, variables) == Resolve(input, variables, true)
    ensures !Contains(input, "{{") ==> ResolveVariables(input, variables) == input
  {
    if !Contains(input, "{{") {
      NoOpenBracesUnchanged(input, variables, true);
    }
  }

  /** The header entries with key and value resolved, in entry order. */
  function ResolvedPairs(headers: Dict<string>, variables: Dict<string>): (ps: seq<(string, string)>)
    ensures |ps| == |headers|
    ensures forall i :: 0 <= i < |headers| ==>
              ps[i] == (ResolveVariables(headers[i].0, variables), ResolveVariables(headers[i].1, variables))
  {
    seq(|headers|, i requires 0 <= i < |headers| =>
      (ResolveVariables(headers[i].0, variables), ResolveVariables(headers[i].1, variables)))
  }

  /** `resolveHeaderVariables`: assigns `resolved[resolve(key)] = resolve(value)`
      for every entry in order, so entries whose keys resolve alike collapse
      into the later one. */
  method ResolveHeaderVariables(headers: Dict<string>, variables: Dict<string>) returns (resolved: Dict<string>)
    ensures resolved == FromPairs(ResolvedPairs(headers, variables))
    ensures |resolved| <= |headers|
    ensures forall k :: Get(resolved, k) == Get(ResolvedPairs(headers, variables), k)
  {
    ghost var pairs := ResolvedPairs(headers, variables);
    resolved := [];
    var i := 0;
    while i < |headers|
      invariant 0 <= i <= |headers|
      invariant resolved == FromPairs(pairs[..i])
    {
      var (key, value) := headers[i];
      assert pairs[..i + 1][..i] == pairs[..i];
      resolved := Put(resolved, ResolveVariables(key, variables), ResolveVariables(value, variables));
      i := i + 1;
    }
    assert pairs[..|headers|] == pairs;
  }

  /** When no header key holds a placeholder, the keys, their order and the
      number of entries are kept; only the values are resolved. */
  lemma PlainHeaderKeysKept(headers: Dict<string>, variables: Dict<string>)
    requires forall i :: 0 <= i < |headers| ==> !Contains(headers[i].0, "{{")
    ensures FromPairs(ResolvedPairs(headers, variables)) == ResolvedPairs(headers, variables)
    ensures KeySeq(FromPairs(ResolvedPairs(headers, variables))) == KeySeq(headers)
  {
    var ps := ResolvedPairs(headers, variables);
    forall i | 0 <= i < |ps| ensures ps[i].0 == headers[i].0 {
      ResolveVariablesMeaning(headers[i].0, variables);
    }
    FromDistinctPairs(ps);
  }

  /** Two header keys that resolve to the same text leave one entry: the
      later key and value, resolved. */
  lemma CollidingKeysCollapse(headers: Dict<string>, variables: Dict<string>)
    requires |headers| == 2
    requires ResolveVariables(headers[0].0, variables) == ResolveVariables(headers[1].0, variables)
    ensures FromPairs(ResolvedPairs(headers, variables)) ==
            [(ResolveVariables(headers[1].0, variables), ResolveVariables(headers[1].1, variables))]
  {
    var ps := ResolvedPairs(headers, variables);
    assert ps == [ps[0], ps[1]];
    FromPairsCollide(ps[0], ps[1]);
  }

  /** `parseEnvironmentVariables`: the parsed value when it is an object (an
      array counts, as `typeof` says), and `{}` when parsing fails or gives
      `null`, a string, a number or a boolean. */
  function ParseEnvironmentVariables(jsonString: string, parse: string -> Parsed): (r: Dict<string>)
    ensures parse(jsonString).Obj? ==> r == parse(jsonString).entries
    ensures parse(jsonString).Arr? ==> r == IndexEntries(parse(jsonString).items)
    ensures !(parse(jsonString).Obj? || parse(jsonString).Arr?) ==> r == []
  {
    match parse(jsonString)
    case Obj(entries) => entries
    case Arr(items) => IndexEntries(items)
    case _ => []
  }
}

=== FILE: executor.dfy ===
/**
 * The client's HTTP executor (ui-src/src/lib/executor.ts): the request
 * configuration handed to the transport, the classification of transport
 * errors, and the shaping of a received response. The transport itself, the
 * TLS agent and the clock are inputs: `transport` answers a configuration,
 * `startTime` and `now` are the two readings of `Date.now`.
 */
module Executor {
  import opened Options
  import opened Strings
  import opened Dicts
  import opened Json
  import opened Types

  const DefaultTimeout := 30000
  const DefaultMaxRedirects := 5

  /** An axios error: its `code`, when it has one, and its `message`. */
  datatype AxiosError = AxiosError(code: Option<string>, message: string)

  /** `handleAxiosError`: always a failure, with a message chosen by the code. */
  function HandleAxiosError(error: AxiosError, startTime: int, now: int, timeout: Option<int>): (r: ExecuteResponse)
    ensures !r.success && r.time == Some(now - startTime)
    ensures r.status.None? && r.headers.None? && r.cookies.None? && r.body.None?
    ensures error.code == Some("ECONNABORTED") ==>
              r.error == Some("Request timeout after " + IntToString(timeout.GetOr(DefaultTimeout)) + "ms")
    ensures error.code == Some("ENOTFOUND") ==> r.error == Some("DNS lookup failed")
    ensures error.code == Some("ECONNREFUSED") ==> r.error == Some("Connection refused")
    ensures !(error.code in {Some("ECONNABORTED"), Some("ENOTFOUND"), Some("ECONNREFUSED")}) ==>
              r.error == Some(error.message)
  {
    var message :=
      if error.code == Some("ECONNABORTED") then
        "Request timeout after " + IntToString(timeout.GetOr(DefaultTimeout)) + "ms"
      else if error.code == Some("ENOTFOUND") then "DNS lookup failed"
      else if error.code == Some("ECONNREFUSED") then "Connection refused"
      else error.message;
    Failure(message, now - startTime)
  }

  /** `maxContentLength` / `maxBodyLength`: a byte count, or `Infinity`. */
  datatype SizeLimit = Unlimited | Bytes(count: int)

  /** `config.data`: absent, a parsed JSON value, or the raw body text. */
  datatype Payload = NoData | JsonData(value: Parsed) | RawData(text: string)

  /** The axios configuration derived from a request. */
  datatype RequestConfig = RequestConfig(
    httpMethod: string,
    url: string,
    headers: Dict<string>,
    timeout: int,
    maxRedirects: nat,
    maxContentLength: SizeLimit,
    maxBodyLength: SizeLimit,
    rejectUnauthorized: bool,
    data: Payload)

  /** A header value that JavaScript treats as false: missing or empty. */
  predicate Falsy(value: Option<string>) {
    value.None? || value.value == ""
  }

  /** The methods that carry a body. */
  predicate CarriesBody(upperMethod: string) {
    upperMethod in {"POST", "PUT", "PATCH", "DELETE"}
  }

  /** A body is sent when the method carries one and the body is not empty. */
  predicate SendsBody(request: ExecuteRequest) {
    CarriesBody(ToUpper(request.httpMethod)) && request.body.Some? && request.body.value != ""
  }

  /** The size limit for an optional `maxResponseSize` in megabytes. */
  function SizeLimitOf(maxResponseSize: Option<int>): (r: SizeLimit)
    ensures maxResponseSize.None? || maxResponseSize.value == 0 <==> r.Unlimited?
    ensures r.Bytes? ==> r.count == maxResponseSize.value * 1048576
  {
    if maxResponseSize.Some? && maxResponseSize.value != 0 then Bytes(maxResponseSize.value * 1024 * 1024)
    else Unlimited
  }

  /** `if (!headers[key]) headers[key] = value` */
  function PutIfFalsy(headers: Dict<string>, key: string, value: string): (r: Dict<string>)
    ensures Falsy(Get(headers, key)) ==> Get(r, key) == Some(value)
    ensures !Falsy(Get(headers, key)) ==> r == headers
    ensures forall k :: k != key ==> Get(r, k) == Get(headers, k)
    ensures Keys(r) == Keys(headers) + {key}
  {
    if Falsy(Get(headers, key)) then Put(headers, key, value) else headers
  }

  /** The request headers with Content-Type added beside a JSON body and Host
      added for a Docker-host url, each only where no value is set. */
  function ConfigHeaders(base: Dict<string>, jsonBody: bool, dockerHost: bool): (r: Dict<string>)
    ensures Get(r, "Content-Type") ==
              if jsonBody && Falsy(Get(base, "Content-Type")) then Some("application/json") else Get(base, "Content-Type")
    ensures Get(r, "Host") == if dockerHost && Falsy(Get(base, "Host")) then Some("localhost") else Get(base, "Host")
    ensures forall k :: k != "Content-Type" && k != "Host" ==> Get(r, k) == Get(base, k)
  {
    var withType := if jsonBody then PutIfFalsy(base, "Content-Type", "application/json") else base;
    assert "Content-Type" != "Host" by { assert "Content-Type"[0] != "Host"[0]; }
    if dockerHost then PutIfFalsy(withType, "Host", "localhost") else withType
  }

  /** `config.data` for a request. */
  function PayloadOf(request: ExecuteRequest, parse: string -> Parsed): (data: Payload)
    ensures !SendsBody(request) <==> data.NoData?
    ensures SendsBody(request) && parse(request.body.value).Failed? ==> data == RawData(request.body.value)
    ensures SendsBody(request) && !parse(request.body.value).Failed? ==> data == JsonData(parse(request.body.value))
  {
    if !SendsBody(request) then NoData
    else if parse(request.body.value).Failed? then RawData(request.body.value)
    else JsonData(parse(request.body.value))
  }

  /** The configuration `executeRequest` hands to axios. */
  function ConfigOf(request: ExecuteRequest, parse: string -> Parsed): (config: RequestConfig)
    ensures config.httpMethod == ToUpper(request.httpMethod) && config.url == request.url
    ensures config.timeout == request.timeout.GetOr(DefaultTimeout)
    ensures config.maxRedirects == 0 <==> request.followRedirects == Some(false)
    ensures config.maxRedirects != 0 ==> config.maxRedirects == DefaultMaxRedirects
    ensures config.maxContentLength == config.maxBodyLength == SizeLimitOf(request.maxResponseSize)
    ensures config.rejectUnauthorized <==> request.sslVerification != Some(false)
    ensures config.data == PayloadOf(request, parse)
    ensures config.headers == ConfigHeaders(request.headers.GetOr([]), config.data.JsonData?,
                                            Contains(request.url, "host.docker.internal"))
  {
    var data := PayloadOf(request, parse);
    RequestConfig(ToUpper(request.httpMethod), request.url,
                  ConfigHeaders(request.headers.GetOr([]), data.JsonData?, Contains(request.url, "host.docker.internal")),
                  request.timeout.GetOr(DefaultTimeout),
                  if request.followRedirects == Some(false) then 0 else DefaultMaxRedirects,
                  SizeLimitOf(request.maxResponseSize), SizeLimitOf(request.maxResponseSize),
                  request.sslVerification != Some(false), data)
  }

  /** The configuration built step by step as `executeRequest` does: the
      base object, then the body with its Content-Type, then the Host. */
  method BuildConfig(request: ExecuteRequest, parse: string -> Parsed) returns (config: RequestConfig)
    ensures config == ConfigOf(request, parse)
  {
    var upper := ToUpper(request.httpMethod);
    var limit := SizeLimitOf(request.maxResponseSize);
    config := RequestConfig(upper, request.url, request.headers.GetOr([]), request.timeout.GetOr(DefaultTimeout),
                            if request.followRedirects == Some(false) then 0 else DefaultMaxRedirects,
                            limit, limit, request.sslVerification != Some(false), NoData);
    config := AttachBody(config, request, parse);
    config := AddDockerHost(config);
    ConfigOfFields(request, parse, config);
  }

  /** The body step: a body the method carries is parsed as JSON, with
      Content-Type set to `application/json` unless one is set, or sent as
      text when it does not parse. */
  method AttachBody(config: RequestConfig, request: ExecuteRequest, parse: string -> Parsed) returns (r: RequestConfig)
    requires config.httpMethod == ToUpper(request.httpMethod)
    ensures r == config.(data := PayloadOf(request, parse),
                         headers := if PayloadOf(request, parse).JsonData?
                                    then PutIfFalsy(config.headers, "Content-Type", "application/json")
                                    else config.headers)
  {
    r := config.(data := NoData);
    if CarriesBody(config.httpMethod) && request.body.Some? && request.body.value != "" {
      var parsed := parse(request.body.value);
      if !parsed.Failed? {
        r := r.(data := JsonData(parsed));
        if Falsy(Get(r.headers, "Content-Type")) {
          r := r.(headers := Put(r.headers, "Content-Type", "application/json"));
        }
      } else {
        r := r.(data := RawData(request.body.value));
      }
    }
  }

  /** The Docker step: for a url naming `host.docker.internal`, Host is set
      to `localhost` unless one is set. */
  method AddDockerHost(config: RequestConfig) returns (r: RequestConfig)
    ensures r == config.(headers := if Contains(config.url, "host.docker.internal")
                                    then PutIfFalsy(config.headers, "Host", "localhost")
                                    else config.headers)
  {
    r := config;
    if Contains(config.url, "host.docker.internal") {
      if Falsy(Get(r.headers, "Host")) {
        r := r.(headers := Put(r.headers, "Host", "localhost"));
      }
    }
  }

  /** A configuration with the fields `ConfigOf` gives is that configuration. */
  lemma ConfigOfFields(request: ExecuteRequest, parse: string -> Parsed, config: RequestConfig)
    requires config.httpMethod == ToUpper(request.httpMethod) && config.url == request.url
    requires config.timeout == request.timeout.GetOr(DefaultTimeout)
    requires config.maxRedirects == if request.followRedirects == Some(false) then 0 else DefaultMaxRedirects
    requires config.maxContentLength == config.maxBodyLength == SizeLimitOf(request.maxResponseSize)
    requires config.rejectUnauthorized == (request.sslVerification != Some(false))
    requires config.data == PayloadOf(request, parse)
    requires config.headers == ConfigHeaders(request.headers.GetOr([]), config.data.JsonData?,
                                             Contains(request.url, "host.docker.internal"))
    ensures config == ConfigOf(request, parse)
  {
  }

  /** A raw response header value as axios gives it. */
  datatype HeaderValue = HString(text: string) | HArray(items: seq<string>) | HOther

  /** What one raw header contributes to the response headers: nothing for
      `set-cookie` in any case, a string as is, an array joined with `", "`,
      nothing for any other value. */
  function Kept(key: string, value: HeaderValue): (r: Option<string>)
    ensures ToLower(key) == "set-cookie" ==> r.None?
    ensures ToLower(key) != "set-cookie" && value.HString? ==> r == Some(value.text)
    ensures ToLower(key) != "set-cookie" && value.HArray? ==> r == Some(Join(value.items, ", "))
    ensures value.HOther? ==> r.None?
  {
    if ToLower(key) == "set-cookie" then None
    else match value
      case HString(text) => Some(text)
      case HArray(items) => Some(Join(items, ", "))
      case HOther => None
  }

  /** The response headers: the kept ones, in the order axios lists them. */
  function Normalized(raw: seq<(string, HeaderValue)>): (r: seq<(string, string)>)
    ensures |r| <= |raw| && Keys(r) <= Keys(raw)
    decreases |raw|
  {
    if raw == [] then []
    else
      var init := raw[..|raw| - 1];
      var (key, value) := raw[|raw| - 1];
      var rest := Normalized(init);
      assert Keys(raw) == Keys(init) + {key};
      match Kept(key, value)
      case None => rest
      case Some(text) => KeysAppend(rest, key, text); rest + [(key, text)]
  }

  lemma DistinctInit<V>(ps: seq<(string, V)>)
    requires ps != [] && DistinctKeys(ps)
    ensures DistinctKeys(ps[..|ps| - 1]) && ps[|ps| - 1].0 !in Keys(ps[..|ps| - 1])
  {
  }

  /** The normalised headers of an object have distinct keys, and under each
      key hold what `Kept` makes of the raw value. */
  lemma {:induction false} NormalizedGet(raw: Dict<HeaderValue>)
    ensures DistinctKeys(Normalized(raw))
    ensures forall k :: Get(Normalized(raw), k) == if Get(raw, k).Some? then Kept(k, Get(raw, k).value) else None
    decreases |raw|
  {
    if raw != [] {
      var n := |raw| - 1;
      var init := raw[..n];
      var (key, value) := raw[n];
      DistinctInit(raw);
      NormalizedGet(init);
      var rest := Normalized(init);
      forall k ensures Get(Normalized(raw), k) == if Get(raw, k).Some? then Kept(k, Get(raw, k).value) else None {
        GetPrefix(raw, n, k);
        assert raw[..n + 1] == raw;
        if k != key {
          match Kept(key, value)
          case None =>
          case Some(text) => LastIndexAppend(rest, key, text, k);
        }
      }
    }
  }

  /** The response header loop (`Object.entries(...).forEach`). */
  method NormalizeHeaders(raw: Dict<HeaderValue>) returns (headers: Dict<string>)
    ensures headers == Normalized(raw)
    ensures forall k :: Get(headers, k) == if Get(raw, k).Some? then Kept(k, Get(raw, k).value) else None
  {
    headers := [];
    var i := 0;
    while i < |raw|
      invariant 0 <= i <= |raw|
      invariant headers == Normalized(raw[..i])
    {
      var (key, value) := raw[i];
      assert raw[..i + 1][..i] == raw[..i];
      assert key !in Keys(raw[..i]);
      if ToLower(key) != "set-cookie" {
        match value
        case HString(text) =>
          headers := Put(headers, key, text);
        case HArray(items) =>
          headers := Put(headers, key, Join(items, ", "));
        case HOther =>
      }
      i := i + 1;
    }
    assert raw[..|raw|] == raw;
    NormalizedGet(raw);
  }

  /** The cookie list: an array as is, a non-empty string as a one-element
      list, and nothing otherwise. */
  function Cookies(setCookie: Option<HeaderValue>): (r: seq<string>)
    ensures setCookie.None? ==> r == []
    ensures setCookie.Some? && setCookie.value.HArray? ==> r == setCookie.value.items
    ensures setCookie.Some? && setCookie.value.HString? && setCookie.value.text != "" ==> r == [setCookie.value.text]
    ensures setCookie.Some? && (setCookie.value.HOther? || setCookie.value == HString("")) ==> r == []
  {
    match setCookie
    case Some(HArray(items)) => items
    case Some(HString(text)) => if text != "" then [text] else []
    case _ => []
  }

  /** A response as axios resolves it. */
  datatype HttpResponse = HttpResponse(status: int, statusText: string, headers: Dict<HeaderValue>, data: ResponseBody)

  /** What the transport does with a configuration: it answers, or it throws
      an axios error, another `Error`, or something that is not an `Error`. */
  datatype Outcome = Received(response: HttpResponse) | ThrewAxios(error: AxiosError) | ThrewError(message: string) | ThrewOther

  /** `executeRequest`. Every received response is a success, whatever its
      status (`validateStatus` accepts all). */
  method ExecuteRequest(request: ExecuteRequest, parse: string -> Parsed, transport: RequestConfig -> Outcome,
                        startTime: int, now: int) returns (r: ExecuteResponse)
    ensures transport(ConfigOf(request, parse)).Received? ==>
              var response := transport(ConfigOf(request, parse)).response;
              r.success && r.status == Some(response.status) && r.statusText == Some(response.statusText) &&
              r.headers == Some(Normalized(response.headers)) &&
              r.cookies == Some(Cookies(Get(response.headers, "set-cookie"))) &&
              r.body == Some(response.data) && r.time == Some(now - startTime) && r.error.None?
    ensures transport(ConfigOf(request, parse)).ThrewAxios? ==>
              r == HandleAxiosError(transport(ConfigOf(request, parse)).error, startTime, now, request.timeout)
    ensures transport(ConfigOf(request, parse)).ThrewError? ==>
              r == Failure(transport(ConfigOf(request, parse)).message, now - startTime)
    ensures transport(ConfigOf(request, parse)).ThrewOther? ==> r == Failure("Unknown error occurred", now - startTime)
    ensures r.success <==> transport(ConfigOf(request, parse)).Received?
  {
    var config := BuildConfig(request, parse);
    var outcome := transport(config);
    match outcome
    case Received(response) =>
      var headers := NormalizeHeaders(response.headers);
      var cookies := Cookies(Get(response.headers, "set-cookie"));
      r := ExecuteResponse(true, Some(response.status), Some(response.statusText), Some(headers),
                           Some(cookies), Some(response.data), Some(now - startTime), None);
    case ThrewAxios(error) =>
      r := HandleAxiosError(error, startTime, now, request.timeout);
    case ThrewError(message) =>
      r := Failure(message, now - startTime);
    case ThrewOther =>
      r := Failure("Unknown error occurred", now - startTime);
  }
}

=== FILE: json.dfy ===
/**
 * `JSON.parse` is foreign code: callers receive its outcome as a `Parsed`
 * value. Values inside arrays and objects are kept in their string form; a
 * `null` member value is not told apart from the text `null`. `Entries` is
 * `Object.entries` and `Spread` is `{...value}` on a parse result.
 */
module Json {
  import opened Options
  import opened Strings
  import opened Dicts

  datatype Parsed =
    | Failed(message: string)       // JSON.parse threw a SyntaxError
    | Null                          // the text `null`
    | Primitive                     // a number or a boolean
    | Str(text: string)             // a JSON string
    | Arr(items: seq<string>)       // an array
    | Obj(entries: Dict<string>)    // an object, in key order

  /** Distinct naturals are written differently. */
  lemma NatToStringInjective(a: nat, b: nat)
    requires NatToString(a) == NatToString(b)
    ensures a == b
  {
    NatToStringRoundTrip(a);
    NatToStringRoundTrip(b);
  }

  /** The entries an array or string exposes: its indices `"0"`, `"1"`, ... */
  function IndexEntries(items: seq<string>): (r: Dict<string>)
    ensures |r| == |items|
    ensures forall i :: 0 <= i < |items| ==> r[i] == (NatToString(i), items[i])
  {
    var r := seq(|items|, i requires 0 <= i < |items| => (NatToString(i), items[i]));
    assert DistinctKeys(r) by {
      forall i, j | 0 <= i < j < |r| ensures r[i].0 != r[j].0 {
        if r[i].0 == r[j].0 { NatToStringInjective(i, j); }
      }
    }
    r
  }

  /** `Object.entries(value)`; `None` where it throws (on `null`). */
  function Entries(p: Parsed): (r: Option<Dict<string>>)
    requires !p.Failed?
    ensures r.None? <==> p.Null?
    ensures p.Obj? ==> r == Some(p.entries)
    ensures p.Primitive? ==> r == Some([])
  {
    match p
    case Null => None
    case Primitive => Some([])
    case Str(text) => Some(IndexEntries(seq(|text|, i requires 0 <= i < |text| => [text[i]])))
    case Arr(items) => Some(IndexEntries(items))
    case Obj(entries) => Some(entries)
  }

  /** `{...value}`: like `Object.entries`, except that spreading `null` gives `{}`. */
  function Spread(p: Parsed): (r: Dict<string>)
    requires !p.Failed?
    ensures p.Null? ==> r == []
    ensures !p.Null? ==> Some(r) == Entries(p)
    ensures p.Primitive? ==> r == []
    ensures p.Arr? ==> |r| == |p.items| && forall i :: 0 <= i < |r| ==> r[i] == (NatToString(i), p.items[i])
    ensures p.Str? ==> |r| == |p.text| && forall i :: 0 <= i < |r| ==> r[i] == (NatToString(i), [p.text[i]])
  {
    if p.Null? then [] else Entries(p).value
  }
}

=== FILE: json_highlighter.dfy ===
/**
 * The tokenizer of the JSON syntax highlighter
 * (ui-src/src/app/_components/JsonHighlighter.tsx, `highlight`). Its global
 * regular expression has three alternatives, tried in order at each
 * position: a quoted string with an optional trailing `\s*:`, one of the
 * words `true`, `false`, `null` between word boundaries, and a number. Each is
 * written out below as the length of its match at a position, which is
 * what the regular-expression engine finds for it.
 */
module JsonHighlighter {
  import opened Options
  import opened Strings
  import opened Arrays

  predicate IsAsciiDigit(c: char) {
    '0' <= c <= '9'
  }

  predicate IsAlnum(c: char) {
    'a' <= c <= 'z' || 'A' <= c <= 'Z' || IsAsciiDigit(c)
  }

  /** `\w`, the characters a word boundary `\b` looks at. */
  predicate IsWordChar(c: char) {
    IsAlnum(c) || c == '_'
  }

  /** The end of the run of digits starting at `j`. */
  function DigitRun(s: string, j: nat): (e: nat)
    requires j <= |s|
    ensures j <= e <= |s|
    ensures forall m :: j <= m < e ==> IsAsciiDigit(s[m])
    ensures e < |s| ==> !IsAsciiDigit(s[e])
    decreases |s| - j
  {
    if j < |s| && IsAsciiDigit(s[j]) then DigitRun(s, j + 1) else j
  }

  /** The end of the run of whitespace (`\s*`) starting at `j`. */
  function SpaceRun(s: string, j: nat): (e: nat)
    requires j <= |s|
    ensures j <= e <= |s|
    ensures forall m :: j <= m < e ==> IsWhitespace(s[m])
    ensures e < |s| ==> !IsWhitespace(s[e])
    decreases |s| - j
  {
    if j < |s| && IsWhitespace(s[j]) then SpaceRun(s, j + 1) else j
  }

  /** `s[j..k]` is a run of the units `\\u[a-zA-Z0-9]{4}`, `\\[^u]` and
      `[^\\"]` a string body is made of. */
  predicate StringBody(s: string, j: nat, k: nat)
    requires j <= k <= |s|
    decreases k - j
  {
    j == k ||
    (s[j] != '"' && s[j] != '\\' && StringBody(s, j + 1, k)) ||
    (s[j] == '\\' && j + 2 <= k && s[j + 1] != 'u' && StringBody(s, j + 2, k)) ||
    (s[j] == '\\' && j + 6 <= k && s[j + 1] == 'u' &&
     IsAlnum(s[j + 2]) && IsAlnum(s[j + 3]) && IsAlnum(s[j + 4]) && IsAlnum(s[j + 5]) &&
     StringBody(s, j + 6, k))
  }

  /** `(\\u[a-zA-Z0-9]{4}|\\[^u]|[^\\"])*"` from `j`: the index of the closing
      quote. Every backslash opens an escape of two characters, or of six
      for `\u`, so the first quote not inside an escape closes the string:
      the result is the one quote that a string body reaches from `j`, and
      there is none when the result is `None`. */
  function ClosingQuote(s: string, j: nat): (r: Option<nat>)
    requires j <= |s|
    ensures r.Some? ==> j <= r.value < |s| && s[r.value] == '"' && StringBody(s, j, r.value)
    ensures forall k :: j <= k < |s| && s[k] == '"' && StringBody(s, j, k) ==> r == Some(k)
    decreases |s| - j
  {
    if j == |s| then None
    else if s[j] == '"' then Some(j)
    else if s[j] == '\\' then
      if j + 1 == |s| then None
      else if s[j + 1] != 'u' then ClosingQuote(s, j + 2)
      else if j + 6 <= |s| && IsAlnum(s[j + 2]) && IsAlnum(s[j + 3]) && IsAlnum(s[j + 4]) && IsAlnum(s[j + 5])
      then ClosingQuote(s, j + 6)
      else None
    else ClosingQuote(s, j + 1)
  }

  /** The first alternative at `i`: a quoted string, taking `\s*:` after it
      when that follows. */
  function StringMatch(s: string, i: nat): (r: Option<nat>)
    requires i < |s|
    ensures r.Some? <==> s[i] == '"' && ClosingQuote(s, i + 1).Some?
    ensures r.Some? ==> 2 <= r.value <= |s| - i && i + r.value > ClosingQuote(s, i + 1).value
    ensures r.Some? ==> s[i + r.value - 1] == '"' || s[i + r.value - 1] == ':'
  {
    if s[i] != '"' then None
    else match ClosingQuote(s, i + 1)
      case None => None
      case Some(k) =>
        var w := SpaceRun(s, k + 1);
        if w < |s| && s[w] == ':' then Some(w + 1 - i) else Some(k + 1 - i)
  }

  /** `\s*:` starts at `p`: whitespace, then a colon. */
  predicate ColonFollows(s: string, p: nat) {
    exists w :: p <= w < |s| && s[w] == ':' && forall m :: p <= m < w ==> IsWhitespace(s[m])
  }

  /** The optional `(\s*:)?` is greedy: a string match ends in `:` exactly when
      whitespace and a colon follow the closing quote, and then it takes just
      that whitespace and colon; otherwise it ends at the closing quote. */
  lemma StringKey(s: string, i: nat)
    requires i < |s| && StringMatch(s, i).Some?
    ensures var k := ClosingQuote(s, i + 1).value;
            var e := i + StringMatch(s, i).value;
            (s[e - 1] == ':' <==> ColonFollows(s, k + 1)) &&
            (s[e - 1] == ':' ==> forall m :: k < m < e - 1 ==> IsWhitespace(s[m])) &&
            (s[e - 1] != ':' ==> e == k + 1)
  {
    var k := ClosingQuote(s, i + 1).value;
    var w := SpaceRun(s, k + 1);
    if ColonFollows(s, k + 1) {
      var v :| k + 1 <= v < |s| && s[v] == ':' && forall m :: k + 1 <= m < v ==> IsWhitespace(s[m]);
      assert w == v;
    }
  }

  /** `word` at `i`, with a word boundary on either side. */
  predicate WordAt(s: string, i: nat, word: string) {
    i + |word| <= |s| && s[i..i + |word|] == word &&
    (i == 0 || !IsWordChar(s[i - 1])) &&
    (i + |word| == |s| || !IsWordChar(s[i + |word|]))
  }

  /** The second alternative at `i`: `\b(true|false|null)\b`. */
  function KeywordMatch(s: string, i: nat): (r: Option<nat>)
    ensures r.Some? ==> (r.value == 4 && (WordAt(s, i, "true") || WordAt(s, i, "null"))) ||
                        (r.value == 5 && WordAt(s, i, "false"))
    ensures r.None? ==> !WordAt(s, i, "true") && !WordAt(s, i, "false") && !WordAt(s, i, "null")
  {
    if WordAt(s, i, "true") then Some(4)
    else if WordAt(s, i, "false") then Some(5)
    else if WordAt(s, i, "null") then Some(4)
    else None
  }

  /** The exponent `[eE][+-]?\d+` at `p`, when there is one: its end. */
  function ExponentEnd(s: string, p: nat): (e: nat)
    requires p <= |s|
    ensures p <= e <= |s|
  {
    if p < |s| && (s[p] == 'e' || s[p] == 'E') then
      var q := if p + 1 < |s| && (s[p + 1] == '+' || s[p + 1] == '-') then p + 2 else p + 1;
      var d := DigitRun(s, q);
      if d > q then d else p
    else p
  }

  /** The third alternative at `i`: `-?\d+(?:\.\d*)?(?:[eE][+-]?\d+)?`. */
  function NumberMatch(s: string, i: nat): (r: Option<nat>)
    requires i < |s|
    ensures r.Some? ==> 1 <= r.value <= |s| - i
    ensures r.Some? ==> s[i] == '-' || IsAsciiDigit(s[i])
  {
    var start := if s[i] == '-' then i + 1 else i;
    var d := DigitRun(s, start);
    if d == start then None
    else
      var p := if d < |s| && s[d] == '.' then DigitRun(s, d + 1) else d;
      Some(ExponentEnd(s, p) - i)
  }

  /** No character of `s[from..to]` is anything but a digit. */
  predicate AllDigits(s: string, from: nat, to: nat)
    requires from <= to <= |s|
  {
    forall m :: from <= m < to ==> IsAsciiDigit(s[m])
  }

  /** `-?\d+` is `s[i..a]`. */
  predicate IntegerPart(s: string, i: nat, a: nat)
    requires i <= a <= |s|
  {
    (i < a && AllDigits(s, i, a)) ||
    (i + 1 < a && s[i] == '-' && AllDigits(s, i + 1, a))
  }

  /** `(?:\.\d*)?` is `s[a..b]`. */
  predicate FractionPart(s: string, a: nat, b: nat)
    requires a <= b <= |s|
  {
    a == b || (s[a] == '.' && AllDigits(s, a + 1, b))
  }

  /** `(?:[eE][+-]?\d+)?` is `s[b..e]`. */
  predicate ExponentPart(s: string, b: nat, e: nat)
    requires b <= e <= |s|
  {
    b == e ||
    (b + 1 < e && (s[b] == 'e' || s[b] == 'E') &&
     (AllDigits(s, b + 1, e) || (b + 2 < e && (s[b + 1] == '+' || s[b + 1] == '-') && AllDigits(s, b + 2, e))))
  }

  /** `s[i..e]` is a number in the highlighter's grammar, cut into its three
      parts at `a` and `b`. */
  predicate NumberSplit(s: string, i: nat, a: nat, b: nat, e: nat) {
    i <= a <= b <= e <= |s| && IntegerPart(s, i, a) && FractionPart(s, a, b) && ExponentPart(s, b, e)
  }

  /** A number matches exactly where a digit, or `-` and a digit, stands. */
  lemma NumberWhere(s: string, i: nat)
    requires i < |s|
    ensures NumberMatch(s, i).Some? <==> IsAsciiDigit(s[i]) || (s[i] == '-' && i + 1 < |s| && IsAsciiDigit(s[i + 1]))
  {
    var start := if s[i] == '-' then i + 1 else i;
    var d := DigitRun(s, start);
    assert d > start <==> start < |s| && IsAsciiDigit(s[start]);
    if d > start {
      var p := if d < |s| && s[d] == '.' then DigitRun(s, d + 1) else d;
      NumberMatchEnd(s, i, start, d, p);
    } else {
      NumberMatchNone(s, i, start);
    }
  }

  /** What a number match takes is a number of the grammar, and no digit
      follows it. */
  lemma NumberGrammar(s: string, i: nat)
    requires i < |s| && NumberMatch(s, i).Some?
    ensures var e := i + NumberMatch(s, i).value;
            (exists a, b :: NumberSplit(s, i, a, b, e)) && (e < |s| ==> !IsAsciiDigit(s[e]))
  {
    var start := if s[i] == '-' then i + 1 else i;
    NumberMatchStarts(s, i, start);
    var d := DigitRun(s, start);
    var p := if d < |s| && s[d] == '.' then DigitRun(s, d + 1) else d;
    var e := ExponentEnd(s, p);
    NumberMatchEnd(s, i, start, d, p);
    assert e == i + NumberMatch(s, i).value;
    assert e < |s| ==> !IsAsciiDigit(s[e]) by {
      ExponentSplit(s, p);
    }
    assert IntegerPart(s, i, d) by {
      assert AllDigits(s, start, d);
    }
    assert FractionPart(s, d, p) by {
      if p > d {
        assert AllDigits(s, d + 1, p);
      }
    }
    ExponentSplit(s, p);
    assert NumberSplit(s, i, d, p, i + NumberMatch(s, i).value);
  }

  /** Without a digit where the integer part starts there is no number. */
  lemma NumberMatchNone(s: string, i: nat, start: nat)
    requires i < |s| && start == (if s[i] == '-' then i + 1 else i)
    requires DigitRun(s, start) == start
    ensures NumberMatch(s, i).None?
  {
  }

  /** So a number match has at least one integer digit. */
  lemma NumberMatchStarts(s: string, i: nat, start: nat)
    requires i < |s| && start == (if s[i] == '-' then i + 1 else i)
    requires NumberMatch(s, i).Some?
    ensures DigitRun(s, start) > start
  {
  }

  /** The exponent taken at `p` is an exponent of the grammar, and no digit
      follows it unless none was taken. */
  lemma ExponentSplit(s: string, p: nat)
    requires p <= |s|
    ensures ExponentPart(s, p, ExponentEnd(s, p))
    ensures ExponentEnd(s, p) > p && ExponentEnd(s, p) < |s| ==> !IsAsciiDigit(s[ExponentEnd(s, p)])
  {
    if p < |s| && (s[p] == 'e' || s[p] == 'E') {
      var q := if p + 1 < |s| && (s[p + 1] == '+' || s[p + 1] == '-') then p + 2 else p + 1;
      var d := DigitRun(s, q);
      if d > q {
        assert AllDigits(s, q, d);
      }
    }
  }

  /** A run of digits from `j` reaches at least as far as any digits do. */
  lemma DigitRunCovers(s: string, j: nat, to: nat)
    requires j <= to <= |s| && AllDigits(s, j, to)
    ensures to <= DigitRun(s, j)
  {
  }

  /** The greedy match is the longest number at `i`: every number of the
      grammar starting there ends at or before it. */
  lemma NumberLongest(s: string, i: nat, a: nat, b: nat, e: nat)
    requires i < |s| && NumberSplit(s, i, a, b, e)
    ensures NumberMatch(s, i).Some? && e <= i + NumberMatch(s, i).value
  {
    var start := if s[i] == '-' then i + 1 else i;
    IntegerCovers(s, i, a);
    var d := DigitRun(s, start);
    var p := if d < |s| && s[d] == '.' then DigitRun(s, d + 1) else d;
    var x := ExponentEnd(s, p);
    NumberMatchEnd(s, i, start, d, p);
    assert e <= x by {
      if a < d {
        assert IsAsciiDigit(s[a]);
      } else if a < b {
        FractionCovers(s, a, b);
        if b < p {
          assert IsAsciiDigit(s[b]);
        } else if b < e {
          ExponentCovers(s, b, e);
        }
      } else if p > d {
        assert s[a] == '.';
      } else if b < e {
        ExponentCovers(s, b, e);
      }
    }
  }

  /** Where a number match ends once its integer digits `s[start..d]` are
      found. */
  lemma NumberMatchEnd(s: string, i: nat, start: nat, d: nat, p: nat)
    requires i < |s| && start == (if s[i] == '-' then i + 1 else i)
    requires start < d == DigitRun(s, start)
    requires p == if d < |s| && s[d] == '.' then DigitRun(s, d + 1) else d
    ensures NumberMatch(s, i) == Some(ExponentEnd(s, p) - i)
  {
  }

  /** The integer part of any number at `i` is covered by the digit run taken. */
  lemma IntegerCovers(s: string, i: nat, a: nat)
    requires i <= a <= |s| && IntegerPart(s, i, a)
    ensures var start := if s[i] == '-' then i + 1 else i;
            start < a <= DigitRun(s, start)
  {
    var start := if s[i] == '-' then i + 1 else i;
    DigitRunCovers(s, start, a);
  }

  /** A non-empty fraction part is covered by the digit run after its point. */
  lemma FractionCovers(s: string, a: nat, b: nat)
    requires a < b <= |s| && FractionPart(s, a, b)
    ensures s[a] == '.' && b <= DigitRun(s, a + 1)
  {
    DigitRunCovers(s, a + 1, b);
  }

  /** Any exponent of the grammar at `p` is no longer than the one taken. */
  lemma ExponentCovers(s: string, p: nat, e: nat)
    requires p < e <= |s| && ExponentPart(s, p, e)
    ensures e <= ExponentEnd(s, p)
  {
    var q := if p + 1 < |s| && (s[p + 1] == '+' || s[p + 1] == '-') then p + 2 else p + 1;
    DigitRunCovers(s, q, e);
  }

  /** What the regular expression matches at `i`: the first alternative that
      matches there. Every match is non-empty. */
  function MatchAt(s: string, i: nat): (r: Option<nat>)
    ensures r.Some? ==> i < |s| && 1 <= r.value <= |s| - i
  {
    if i >= |s| then None
    else match StringMatch(s, i)
      case Some(n) => Some(n)
      case None =>
        match KeywordMatch(s, i)
        case Some(n) => Some(n)
        case None => NumberMatch(s, i)
  }

  datatype TokenKind = Key | StringToken | BooleanToken | NullToken | NumberToken

  /** `/word/.test(text)`: the word occurs somewhere in the text. */
  predicate HasWord(text: string, word: string)
    decreases |text|
  {
    |word| <= |text| && (text[..|word|] == word || HasWord(text[1..], word))
  }

  /** The colour class chosen for a matched text: `startsWith('"')` and
      `endsWith(':')` look at one character each. */
  function Classify(text: string): TokenKind {
    if |text| > 0 && text[0] == '"' then (if text[|text| - 1] == ':' then Key else StringToken)
    else if HasWord(text, "true") || HasWord(text, "false") then BooleanToken
    else if HasWord(text, "null") then NullToken
    else NumberToken
  }

  /** A text made of number characters holds none of the words. */
  lemma {:induction false} NoWordInNumber(text: string, word: string)
    requires forall m :: 0 <= m < |text| ==> IsAsciiDigit(text[m]) || text[m] in "-+.eE"
    requires word in {"true", "false", "null"}
    ensures !HasWord(text, word)
    decreases |text|
  {
    if |word| <= |text| {
      assert text[..|word|][0] == text[0];
      NoWordInNumber(text[1..], word);
    }
  }

  /** The characters a number match is made of. */
  lemma NumberChars(s: string, i: nat)
    requires i < |s| && NumberMatch(s, i).Some?
    ensures forall m :: i <= m < i + NumberMatch(s, i).value ==> IsAsciiDigit(s[m]) || s[m] in "-+.eE"
  {
  }

  /** The class a match gets: a string followed by `\s*:` is a key, any other
      string a string; `true` and `false` are booleans, `null` is null, and
      everything else is a number. */
  lemma ClassifyMatch(s: string, i: nat)
    requires MatchAt(s, i).Some?
    ensures var text := s[i..i + MatchAt(s, i).value];
            (StringMatch(s, i).Some? ==> Classify(text) == if text[|text| - 1] == ':' then Key else StringToken) &&
            (StringMatch(s, i).None? && KeywordMatch(s, i).Some? ==>
               Classify(text) == if WordAt(s, i, "null") then NullToken else BooleanToken) &&
            (StringMatch(s, i).None? && KeywordMatch(s, i).None? ==> Classify(text) == NumberToken)
  {
    if StringMatch(s, i).None? {
      if KeywordMatch(s, i).Some? {
        ClassifyWord(s, i);
      } else {
        ClassifyNumber(s, i);
      }
    }
  }

  /** A keyword match is classed by the word it is. */
  lemma ClassifyWord(s: string, i: nat)
    requires KeywordMatch(s, i).Some?
    ensures Classify(s[i..i + KeywordMatch(s, i).value]) == if WordAt(s, i, "null") then NullToken else BooleanToken
  {
    var text := s[i..i + KeywordMatch(s, i).value];
    if WordAt(s, i, "true") {
      assert text == "true";
    } else if WordAt(s, i, "false") {
      assert text == "false";
    } else {
      assert text == "null";
      assert !HasWord(text, "true") by { assert !HasWord(text[1..], "true"); }
    }
  }

  /** A number match is classed as a number. */
  lemma ClassifyNumber(s: string, i: nat)
    requires i < |s| && NumberMatch(s, i).Some?
    ensures Classify(s[i..i + NumberMatch(s, i).value]) == NumberToken
  {
    var text := s[i..i + NumberMatch(s, i).value];
    NumberChars(s, i);
    assert text[0] == s[i];
    NoWordInNumber(text, "true");
    NoWordInNumber(text, "false");
    NoWordInNumber(text, "null");
  }

  /** An element `highlight` emits: plain text, or a coloured span carrying
      the index of its match. */
  datatype Piece = Plain(text: string) | Token(kind: TokenKind, text: string, index: nat)

  /** The text of the pieces, one after the other. */
  function Concat(pieces: seq<Piece>): string
    decreases |pieces|
  {
    if pieces == [] then [] else pieces[0].text + Concat(pieces[1..])
  }

  /** Where a match starts and how long it is. The scan below is stated
      for any matcher and classifier and used with `MatchAt` and `Classify`. */
  type Matcher = (string, nat) -> Option<nat>

  type Classifier = string -> TokenKind

  /** Every match lies inside the input and is non-empty, so the scan moves on. */
  ghost predicate WellFormed(m: Matcher, s: string) {
    forall q: nat :: m(s, q).Some? ==> q < |s| && 1 <= m(s, q).value <= |s| - q
  }

  lemma MatchAtWellFormed(s: string)
    ensures WellFormed(MatchAt, s)
  {
  }

  /** No match starts in `[from, to)`. */
  predicate NoMatchIn(m: Matcher, s: string, from: nat, to: nat) {
    forall q :: from <= q < to ==> m(s, q).None?
  }

  /** `regex.exec` from `lastIndex`: the first position where a match starts. */
  function NextMatch(m: Matcher, s: string, from: nat): (r: Option<nat>)
    ensures r.Some? ==> from <= r.value < |s| && m(s, r.value).Some? && NoMatchIn(m, s, from, r.value)
    ensures r.None? ==> NoMatchIn(m, s, from, |s|)
    decreases |s| - from
  {
    if from >= |s| then None
    else if m(s, from).Some? then Some(from)
    else NextMatch(m, s, from + 1)
  }

  /** A piece in its place: plain text holds no match start; a token is the
      match at its own index. Both are non-empty. */
  predicate Fits(m: Matcher, s: string, offset: nat, piece: Piece) {
    |piece.text| > 0 &&
    match piece
    case Plain(text) => NoMatchIn(m, s, offset, offset + |text|)
    case Token(kind, text, index) => index == offset && m(s, offset) == Some(|text|)
  }

  /** Pieces that, read from the front, are the input from `from` on, each
      fitting in place where the one before ends; plain text is always
      followed by a token or ends the input. */
  predicate Tokenized(m: Matcher, s: string, pieces: seq<Piece>, from: nat)
    decreases |pieces|
  {
    from <= |s| &&
    if pieces == [] then from == |s|
    else
      var p := pieces[0];
      from + |p.text| <= |s| && p.text == s[from..from + |p.text|] && Fits(m, s, from, p) &&
      (p.Plain? && |pieces| > 1 ==> pieces[1].Token?) &&
      Tokenized(m, s, pieces[1..], from + |p.text|)
  }

  /** A token fitting at `from` in front of pieces tokenizing what follows it. */
  lemma ConsToken(m: Matcher, s: string, from: nat, n: nat, kind: TokenKind, rest: seq<Piece>)
    requires from + n <= |s| && 0 < n && m(s, from) == Some(n)
    requires Tokenized(m, s, rest, from + n)
    ensures Tokenized(m, s, [Token(kind, s[from..from + n], from)] + rest, from)
  {
    var ps := [Token(kind, s[from..from + n], from)] + rest;
    assert ps[0] == Token(kind, s[from..from + n], from) && ps[1..] == rest;
  }

  /** Plain text without a match start in front of pieces that begin with a token. */
  lemma ConsPlain(m: Matcher, s: string, from: nat, to: nat, rest: seq<Piece>)
    requires from < to <= |s| && NoMatchIn(m, s, from, to)
    requires Tokenized(m, s, rest, to) && (rest != [] ==> rest[0].Token?)
    ensures Tokenized(m, s, [Plain(s[from..to])] + rest, from)
  {
    var ps := [Plain(s[from..to])] + rest;
    assert ps[0] == Plain(s[from..to]) && ps[1..] == rest;
    assert |ps[0].text| == to - from;
  }

  /** Tokenized pieces spell out the input from `from` on. */
  lemma {:induction false} TokenizedConcat(m: Matcher, s: string, pieces: seq<Piece>, from: nat)
    requires Tokenized(m, s, pieces, from)
    ensures Concat(pieces) == s[from..]
    decreases |pieces|
  {
    if pieces == [] {
    } else {
      var n := |pieces[0].text|;
      TokenizedConcat(m, s, pieces[1..], from + n);
      assert s[from..] == s[from..from + n] + s[from + n..];
    }
  }

  /** Every token carries the class of its text. */
  predicate Classified(c: Classifier, pieces: seq<Piece>) {
    forall j :: 0 <= j < |pieces| ==> pieces[j].Token? ==> pieces[j].kind == c(pieces[j].text)
  }

  /** The text before the match at `index`, when there is some. */
  function Before(s: string, from: nat, index: nat): seq<Piece>
    requires from <= index <= |s|
  {
    if index > from then [Plain(s[from..index])] else []
  }

  /** The coloured span for the match at `index`. */
  function TokenAt(m: Matcher, c: Classifier, s: string, index: nat): Piece
    requires WellFormed(m, s) && m(s, index).Some?
  {
    var text := s[index..index + m(s, index).value];
    Token(c(text), text, index)
  }

  /** What `highlight` emits from `lastIndex == from` on: the text before
      the next match (when there is some), the match, and what is emitted
      after it; with no match left, the rest of the input as plain text. */
  function Pieces(m: Matcher, c: Classifier, s: string, from: nat): seq<Piece>
    requires WellFormed(m, s) && from <= |s|
    decreases |s| - from
  {
    match NextMatch(m, s, from)
    case None => Before(s, from, |s|)
    case Some(index) =>
      Before(s, from, index) + ([TokenAt(m, c, s, index)] + Pieces(m, c, s, index + m(s, index).value))
  }

  /** `Pieces` when the next match is at `index` and `n` long. */
  lemma PiecesSome(m: Matcher, c: Classifier, s: string, from: nat, index: nat, n: nat)
    requires WellFormed(m, s) && from <= |s| && NextMatch(m, s, from) == Some(index) && m(s, index) == Some(n)
    ensures index + n <= |s|
    ensures Pieces(m, c, s, from) ==
            Before(s, from, index) + ([Token(c(s[index..index + n]), s[index..index + n], index)] + Pieces(m, c, s, index + n))
  {
  }

  /** The loop's step keeps what is emitted so far followed by what is
      still to come. */
  lemma PiecesStep(m: Matcher, c: Classifier, s: string, done: seq<Piece>, from: nat, index: nat, total: seq<Piece>,
                    emitted: seq<Piece>, next: nat)
    requires WellFormed(m, s) && from <= |s| && NextMatch(m, s, from) == Some(index)
    requires done + Pieces(m, c, s, from) == total
    requires emitted == done + Before(s, from, index) + [TokenAt(m, c, s, index)]
    requires next == index + m(s, index).value
    ensures emitted + Pieces(m, c, s, next) == total
  {
    var before := Before(s, from, index);
    var rest := Pieces(m, c, s, next);
    Associative(done, before, [TokenAt(m, c, s, index)] + rest);
    Associative(done + before, [TokenAt(m, c, s, index)], rest);
  }

  /** Plain text (when there is some) and a token in front of pieces
      tokenizing what follows the token. */
  lemma TokenizedStep(m: Matcher, s: string, from: nat, index: nat, n: nat, kind: TokenKind,
                      rest: seq<Piece>, whole: seq<Piece>)
    requires from <= index && index + n <= |s| && 0 < n && m(s, index) == Some(n)
    requires NoMatchIn(m, s, from, index) && Tokenized(m, s, rest, index + n)
    requires whole == Before(s, from, index) + ([Token(kind, s[index..index + n], index)] + rest)
    ensures Tokenized(m, s, whole, from)
  {
    var tail := [Token(kind, s[index..index + n], index)] + rest;
    ConsToken(m, s, index, n, kind, rest);
    assert tail[0].Token?;
    if index > from {
      ConsPlain(m, s, from, index, tail);
    } else {
      assert [] + tail == tail;
    }
  }

  /** What is emitted from `from` on tokenizes the rest of the input. */
  lemma {:induction false} PiecesTokenized(m: Matcher, c: Classifier, s: string, from: nat)
    requires WellFormed(m, s) && from <= |s|
    ensures Tokenized(m, s, Pieces(m, c, s, from), from)
    decreases |s| - from
  {
    match NextMatch(m, s, from)
    case None =>
      if from < |s| {
        ConsPlain(m, s, from, |s|, []);
        assert [Plain(s[from..|s|])] + [] == [Plain(s[from..|s|])];
      }
    case Some(index) =>
      var n := m(s, index).value;
      PiecesTokenized(m, c, s, index + n);
      PiecesTokenizedStep(m, c, s, from, index, n);
  }

  lemma PiecesTokenizedStep(m: Matcher, c: Classifier, s: string, from: nat, index: nat, n: nat)
    requires WellFormed(m, s) && from <= |s| && NextMatch(m, s, from) == Some(index) && m(s, index) == Some(n)
    requires Tokenized(m, s, Pieces(m, c, s, index + n), index + n)
    ensures Tokenized(m, s, Pieces(m, c, s, from), from)
  {
    PiecesSome(m, c, s, from, index, n);
    TokenizedStep(m, s, from, index, n, c(s[index..index + n]), Pieces(m, c, s, index + n), Pieces(m, c, s, from));
  }

  /** Every token emitted from `from` on carries the class of its text. */
  lemma {:induction false} PiecesClassified(m: Matcher, c: Classifier, s: string, from: nat)
    requires WellFormed(m, s) && from <= |s|
    ensures Classified(c, Pieces(m, c, s, from))
    decreases |s| - from
  {
    match NextMatch(m, s, from)
    case None =>
    case Some(index) =>
      var n := m(s, index).value;
      PiecesClassified(m, c, s, index + n);
      PiecesClassifiedStep(m, c, s, from, index, n);
  }

  lemma PiecesClassifiedStep(m: Matcher, c: Classifier, s: string, from: nat, index: nat, n: nat)
    requires WellFormed(m, s) && from <= |s| && NextMatch(m, s, from) == Some(index) && m(s, index) == Some(n)
    requires Classified(c, Pieces(m, c, s, index + n))
    ensures Classified(c, Pieces(m, c, s, from))
  {
    PiecesSome(m, c, s, from, index, n);
    ClassifiedCons(c, Before(s, from, index), Token(c(s[index..index + n]), s[index..index + n], index),
                   Pieces(m, c, s, index + n), Pieces(m, c, s, from));
  }

  lemma ClassifiedCons(c: Classifier, before: seq<Piece>, token: Piece, rest: seq<Piece>, ps: seq<Piece>)
    requires forall j :: 0 <= j < |before| ==> before[j].Plain?
    requires token.Token? ==> token.kind == c(token.text)
    requires Classified(c, rest)
    requires ps == before + ([token] + rest)
    ensures Classified(c, ps)
  {
    forall j | 0 <= j < |ps| && ps[j].Token? ensures ps[j].kind == c(ps[j].text) {
      if j > |before| {
        assert ps[j] == rest[j - |before| - 1];
      }
    }
  }

  /** The loop of `highlight` with the matcher `m`: repeatedly finds the next
      match, emits the text before it (when there is some) and the match,
      and finally emits what is left. */
  method Scan(m: Matcher, c: Classifier, s: string) returns (pieces: seq<Piece>)
    requires WellFormed(m, s)
    ensures pieces == Pieces(m, c, s, 0)
  {
    pieces := [];
    var lastIndex := 0;
    var next := NextMatch(m, s, 0);
    while next.Some?
      invariant lastIndex <= |s| && next == NextMatch(m, s, lastIndex)
      invariant pieces + Pieces(m, c, s, lastIndex) == Pieces(m, c, s, 0)
      decreases |s| - lastIndex
    {
      var emitted, after := EmitMatch(m, c, s, pieces, lastIndex, next.value);
      PiecesStep(m, c, s, pieces, lastIndex, next.value, Pieces(m, c, s, 0), emitted, after);
      pieces, lastIndex := emitted, after;
      next := NextMatch(m, s, lastIndex);
    }
    if lastIndex < |s| {
      pieces := pieces + [Plain(s[lastIndex..|s|])];
    } else {
      assert pieces + [] == pieces;
    }
  }

  /** One round of the loop: the text between `lastIndex` and the match
      (when there is some), then the match as a coloured span; `lastIndex`
      moves past the match. */
  method EmitMatch(m: Matcher, c: Classifier, s: string, pieces: seq<Piece>, lastIndex: nat, index: nat)
    returns (emitted: seq<Piece>, next: nat)
    requires WellFormed(m, s) && lastIndex <= index && m(s, index).Some?
    ensures emitted == pieces + Before(s, lastIndex, index) + [TokenAt(m, c, s, index)]
    ensures next == index + m(s, index).value && lastIndex < next <= |s|
  {
    emitted := pieces;
    if index > lastIndex {
      emitted := emitted + [Plain(s[lastIndex..index])];
    } else {
      assert emitted + [] == emitted;
    }
    var n := m(s, index).value;
    var text := s[index..index + n];
    emitted := emitted + [Token(c(text), text, index)];
    next := index + n;
  }

  /** `highlight`: the scan with the JSON regular expression. */
  method Highlight(s: string) returns (pieces: seq<Piece>)
    ensures WellFormed(MatchAt, s) && pieces == Pieces(MatchAt, Classify, s, 0)
  {
    MatchAtWellFormed(s);
    pieces := Scan(MatchAt, Classify, s);
  }

  /** The pieces `highlight` emits spell out its input, every token is the
      match at its index with the class of its text, no match starts inside
      plain text, and an empty input gives no pieces. */
  lemma HighlightTokenizes(s: string)
    ensures WellFormed(MatchAt, s)
    ensures Tokenized(MatchAt, s, Pieces(MatchAt, Classify, s, 0), 0) && Classified(Classify, Pieces(MatchAt, Classify, s, 0))
    ensures Concat(Pieces(MatchAt, Classify, s, 0)) == s
    ensures s == [] ==> Pieces(MatchAt, Classify, s, 0) == []
  {
    MatchAtWellFormed(s);
    PiecesTokenized(MatchAt, Classify, s, 0);
    PiecesClassified(MatchAt, Classify, s, 0);
    TokenizedConcat(MatchAt, s, Pieces(MatchAt, Classify, s, 0), 0);
  }
}

=== FILE: options.dfy ===
/** `undefined`-or-value, as the source's optional fields and `??` defaults use it. */
module Options {

  datatype Option<+T> = None | Some(value: T) {

    /** The value, or `default` when absent: the source's `x ?? default`. */
    function GetOr(default: T): T {
      match this
      case Some(v) => v
      case None => default
    }
  }
}

=== FILE: placeholders.dfy ===
/**
 * The `{{name}}` substitution both copies of `resolveVariables` perform with
 * `text.replace(/\{\{([^}]+)\}\}/g, ...)`: one left-to-right pass; at each
 * position the pattern matches `{{`, the longest run of characters other than
 * `}` (at least one), then `}}`. A match is replaced by the variable's value
 * when the name is a key, and kept verbatim otherwise; scanning resumes after
 * the match, so inserted text is never scanned again. The server copy looks the
 * name up as written, the client copy trims it first.
 */
module Placeholders {
  import opened Options
  import opened Strings
  import opened Dicts

  /** The end of the run of characters other than `}` that starts at `i`. */
  function RunEnd(s: string, i: nat): (e: nat)
    requires i <= |s|
    ensures i <= e <= |s|
    ensures forall j :: i <= j < e ==> s[j] != '}'
    ensures e < |s| ==> s[e] == '}'
    decreases |s| - i
  {
    if i == |s| || s[i] == '}' then i else RunEnd(s, i + 1)
  }

  /** The length of the pattern's match at the very start of `s`, if it
      matches there. */
  function MatchLen(s: string): (n: Option<nat>)
    ensures n.Some? ==> 5 <= n.value <= |s|
    ensures n.Some? ==> s[..2] == "{{" && s[n.value - 2..n.value] == "}}"
    ensures n.Some? ==> forall j :: 2 <= j < n.value - 2 ==> s[j] != '}'
  {
    if |s| >= 2 && s[0] == '{' && s[1] == '{' then
      var e := RunEnd(s, 2);
      if e > 2 && e + 2 <= |s| && s[e + 1] == '}' then Some(e + 2) else None
    else None
  }

  /** Conversely, `{{name}}` with a non-empty name free of `}` is matched, and
      exactly that far, whatever follows it. */
  lemma MatchLenOf(name: string, rest: string)
    requires name != [] && forall j :: 0 <= j < |name| ==> name[j] != '}'
    ensures MatchLen("{{" + name + "}}" + rest) == Some(|name| + 4)
  {
    var s := "{{" + name + "}}" + rest;
    assert forall j :: 2 <= j < |name| + 2 ==> s[j] == name[j - 2];
    assert s[|name| + 2] == '}' && s[|name| + 3] == '}';
  }

  /** The leftmost position at or after `i` where the pattern matches. */
  function FirstMatchFrom(s: string, i: nat): (r: Option<nat>)
    requires i <= |s|
    ensures r.Some? ==> i <= r.value < |s| && MatchLen(s[r.value..]).Some?
    ensures r.Some? ==> forall p :: i <= p < r.value ==> MatchLen(s[p..]).None?
    ensures r.None? ==> forall p :: i <= p < |s| ==> MatchLen(s[p..]).None?
    decreases |s| - i
  {
    if i == |s| then None
    else if MatchLen(s[i..]).Some? then Some(i)
    else FirstMatchFrom(s, i + 1)
  }

  /** Where the replace first calls its callback: the leftmost match. */
  function FirstMatch(s: string): Option<nat> {
    FirstMatchFrom(s, 0)
  }

  /** The name captured by the match at position `p`. */
  function NameAt(s: string, p: nat): string
    requires p < |s| && MatchLen(s[p..]).Some?
  {
    s[p..][2..MatchLen(s[p..]).value - 2]
  }

  /** The key a matched name is looked up under. */
  function Key(name: string, trimNames: bool): string {
    if trimNames then Trim(name) else name
  }

  /** `s.replace(pattern, (match, name) => variables[key(name)] ?? match)`. */
  function Resolve(s: string, variables: Dict<string>, trimNames: bool): string
    decreases |s|
  {
    if s == [] then []
    else
      match MatchLen(s)
      case Some(n) =>
        Get(variables, Key(s[2..n - 2], trimNames)).GetOr(s[..n]) + Resolve(s[n..], variables, trimNames)
      case None =>
        [s[0]] + Resolve(s[1..], variables, trimNames)
  }

  /** The name of the placeholder starting at index `p` is not a key. */
  predicate AbsentAt(s: string, p: nat, variables: Dict<string>, trimNames: bool)
    requires p < |s|
  {
    match MatchLen(s[p..])
    case Some(n) => Get(variables, Key(s[p..][2..n - 2], trimNames)).None?
    case None => true
  }

  /** Absence at every position carries over to a suffix. */
  lemma AbsentSuffix(s: string, k: nat, variables: Dict<string>, trimNames: bool)
    requires k <= |s|
    requires forall p :: 0 <= p < |s| ==> AbsentAt(s, p, variables, trimNames)
    ensures forall p :: 0 <= p < |s[k..]| ==> AbsentAt(s[k..], p, variables, trimNames)
  {
    forall p | 0 <= p < |s[k..]| ensures AbsentAt(s[k..], p, variables, trimNames) {
      assert s[k..][p..] == s[k + p..];
      assert AbsentAt(s, k + p, variables, trimNames);
    }
  }

  /** When no matched name is a key, every placeholder stays verbatim and the
      text comes back unchanged. */
  lemma {:induction false} AbsentNamesUnchanged(s: string, variables: Dict<string>, trimNames: bool)
    requires forall p :: 0 <= p < |s| ==> AbsentAt(s, p, variables, trimNames)
    ensures Resolve(s, variables, trimNames) == s
    decreases |s|
  {
    if s != [] {
      var k := StepLen(s, variables, trimNames);
      AbsentSuffix(s, k, variables, trimNames);
      AbsentNamesUnchanged(s[k..], variables, trimNames);
      PrefixSuffix(s, k);
    }
  }

  /** One step of the scan over a text whose first position holds no known name:
      the first `k` characters are copied as they are. */
  lemma StepLen(s: string, variables: Dict<string>, trimNames: bool) returns (k: nat)
    requires s != [] && AbsentAt(s, 0, variables, trimNames)
    ensures 0 < k <= |s|
    ensures Resolve(s, variables, trimNames) == s[..k] + Resolve(s[k..], variables, trimNames)
  {
    assert s[0..] == s;
    match MatchLen(s)
    case Some(n) =>
      k := n;
    case None =>
      k := 1;
  }

  /** A text in which the pattern matches nowhere is returned unchanged. */
  lemma NoMatchUnchanged(s: string, variables: Dict<string>, trimNames: bool)
    requires forall p :: 0 <= p < |s| ==> MatchLen(s[p..]).None?
    ensures Resolve(s, variables, trimNames) == s
  {
    forall p | 0 <= p < |s| ensures AbsentAt(s, p, variables, trimNames) {
      assert MatchLen(s[p..]).None?;
    }
    AbsentNamesUnchanged(s, variables, trimNames);
  }

  /** In particular a text without `{{` is returned unchanged. */
  lemma NoOpenBracesUnchanged(s: string, variables: Dict<string>, trimNames: bool)
    requires !Contains(s, "{{")
    ensures Resolve(s, variables, trimNames) == s
  {
    forall p | 0 <= p < |s| ensures MatchLen(s[p..]).None? {
      if MatchLen(s[p..]).Some? {
        assert s[p..][..2] == s[p..p + 2];
        assert OccursAt(s, "{{", p);
      }
    }
    NoMatchUnchanged(s, variables, trimNames);
  }

  /** With no variables at all, every text is returned unchanged. */
  lemma EmptyVariablesUnchanged(s: string, trimNames: bool)
    ensures Resolve(s, [], trimNames) == s
  {
    forall p | 0 <= p < |s| ensures AbsentAt(s, p, [], trimNames) {
    }
    AbsentNamesUnchanged(s, [], trimNames);
  }

  /** A leading `{{name}}` becomes the variable's value when the (possibly
      trimmed) name is a key, even when the value is empty, and stays verbatim
      otherwise; the rest of the text is resolved on its own, so the inserted
      value is never scanned again. */
  lemma ResolveLeading(name: string, rest: string, variables: Dict<string>, trimNames: bool)
    requires name != [] && forall j :: 0 <= j < |name| ==> name[j] != '}'
    ensures Resolve("{{" + name + "}}" + rest, variables, trimNames) ==
            (match Get(variables, Key(name, trimNames))
             case Some(v) => v
             case None => "{{" + name + "}}")
            + Resolve(rest, variables, trimNames)
  {
    var s := "{{" + name + "}}" + rest;
    MatchLenOf(name, rest);
    var n := |name| + 4;
    assert s[2..n - 2] == name;
    assert s[..n] == "{{" + name + "}}";
    assert s[n..] == rest;
  }

  /** A substituted value that itself looks like a placeholder is left as
      it is, even when its name is a key too. */
  lemma NotRescanned(name: string, inner: string, value: string, trimNames: bool)
    requires name != [] && forall j :: 0 <= j < |name| ==> name[j] != '}'
    requires !IsWhitespace(name[0]) && !IsWhitespace(name[|name| - 1])
    requires inner != name
    ensures Resolve("{{" + name + "}}", [(name, "{{" + inner + "}}"), (inner, value)], trimNames)
            == "{{" + inner + "}}"
  {
    var vars: Dict<string> := [(name, "{{" + inner + "}}"), (inner, value)];
    assert "{{" + name + "}}" + "" == "{{" + name + "}}";
    ResolveLeading(name, "", vars, trimNames);
    TrimmedUnchanged(name);
    GetEntry(vars, 0);
  }

  lemma PaddedPlaceholder(name: string)
    ensures "{{ " + name + " }}" == "{{" + (" " + name + " ") + "}}" + ""
  {
    var lhs := "{{ " + name + " }}";
    var rhs := "{{" + (" " + name + " ") + "}}" + "";
    assert |lhs| == |rhs|;
    forall j | 0 <= j < |lhs| ensures lhs[j] == rhs[j] {
      if 3 <= j < |name| + 3 {
        assert lhs[j] == name[j - 3] == rhs[j];
      }
    }
  }

  /** The two copies disagree on padded names: the client trims `{{ a }}` to
      `a` and substitutes, the server looks up ` a ` and keeps the text. */
  lemma TrimDifference(name: string, value: string)
    requires name != [] && forall j :: 0 <= j < |name| ==> name[j] != '}'
    requires !IsWhitespace(name[0]) && !IsWhitespace(name[|name| - 1])
    ensures Resolve("{{ " + name + " }}", [(name, value)], true) == value
    ensures Resolve("{{ " + name + " }}", [(name, value)], false) == "{{ " + name + " }}"
  {
    PaddedPlaceholder(name);
    PaddedName(name);
    ClientTrimsPadded(name, value);
    ServerKeepsPadded(name, value);
  }

  lemma PaddedName(name: string)
    requires forall j :: 0 <= j < |name| ==> name[j] != '}'
    ensures forall j :: 0 <= j < |" " + name + " "| ==> (" " + name + " ")[j] != '}'
  {
    var padded := " " + name + " ";
    forall j | 0 <= j < |padded| ensures padded[j] != '}' {
      if 0 < j < |padded| - 1 {
        assert padded[j] == name[j - 1];
      }
    }
  }

  lemma ClientTrimsPadded(name: string, value: string)
    requires name != [] && !IsWhitespace(name[0]) && !IsWhitespace(name[|name| - 1])
    requires forall j :: 0 <= j < |" " + name + " "| ==> (" " + name + " ")[j] != '}'
    ensures Resolve("{{" + (" " + name + " ") + "}}" + "", [(name, value)], true) == value
  {
    var vars: Dict<string> := [(name, value)];
    ResolveLeading(" " + name + " ", "", vars, true);
    TrimPadded(name);
    GetEntry(vars, 0);
  }

  lemma ServerKeepsPadded(name: string, value: string)
    requires forall j :: 0 <= j < |" " + name + " "| ==> (" " + name + " ")[j] != '}'
    ensures Resolve("{{" + (" " + name + " ") + "}}" + "", [(name, value)], false) == "{{" + (" " + name + " ") + "}}"
  {
    var vars: Dict<string> := [(name, value)];
    var padded := " " + name + " ";
    ResolveLeading(padded, "", vars, false);
    assert |padded| != |name|;
  }
}

=== FILE: project_name.dfy ===
/**
 * The project name shown for auto-captured requests (src/index.ts,
 * `getProjectName`): the `name` of the working directory's package.json with
 * its npm scope removed, dashes and underscores turned into spaces and every
 * space-separated word capitalised. Reading and parsing the file are I/O: the
 * caller passes the name found, `None` when there is none or reading failed.
 */
module ProjectName {
  import opened Options
  import opened Strings

  const DefaultName := "Auto-Captured"

  /** `.replace(/^@[^/]+\//, '')`: drops a leading `@scope/` whose scope is
      not empty, up to the first `/`; any other name is kept. */
  function StripScope(name: string): (r: string)
    ensures |r| <= |name| && r == name[|name| - |r|..]
    ensures r != name ==> name[0] == '@' && name[|name| - |r| - 1] == '/'
    ensures r != name ==> |name| - |r| >= 3 && !Contains(name[..|name| - |r| - 1], "/")
    ensures (name == [] || name[0] != '@') ==> r == name
    ensures name != [] && name[0] == '@' && Contains(name, "/") && IndexOf(name, "/").value >= 2 ==>
              r == name[IndexOf(name, "/").value + 1..]
    ensures name != [] && name[0] == '@' && (!Contains(name, "/") || IndexOf(name, "/").value < 2) ==> r == name
  {
    if |name| >= 1 && name[0] == '@' then
      match IndexOf(name, "/")
      case Some(i) =>
        if i >= 2 then
          PrefixBeforeFirst(name, "/", i);
          assert name[..|name| - |name[i + 1..]| - 1] == name[..i];
          name[i + 1..]
        else name
      case None => name
    else name
  }

  /** `.replace(/[-_]/g, ' ')` */
  function Spaced(s: string): (r: string)
    ensures |r| == |s|
    ensures forall i :: 0 <= i < |s| ==> r[i] == if s[i] == '-' || s[i] == '_' then ' ' else s[i]
  {
    seq(|s|, i requires 0 <= i < |s| => if s[i] == '-' || s[i] == '_' then ' ' else s[i])
  }

  /** `s.charAt(0).toUpperCase() + s.slice(1)` */
  function Capitalize(w: string): string {
    if w == [] then [] else [UpperChar(w[0])] + w[1..]
  }

  /** `words.map(capitalize)` */
  function CapitalizeAll(words: seq<string>): (r: seq<string>)
    ensures |r| == |words|
  {
    seq(|words|, k requires 0 <= k < |words| => Capitalize(words[k]))
  }

  lemma CapitalizeAllCons(w: string, rest: seq<string>)
    ensures CapitalizeAll([w] + rest) == [Capitalize(w)] + CapitalizeAll(rest)
  {
    assert forall k :: 0 < k <= |rest| ==> ([w] + rest)[k] == rest[k - 1];
  }

  /** `.split(' ').map(capitalize).join(' ')` */
  function CapitalizeWords(s: string): string {
    Join(CapitalizeAll(Split(s, " ")), " ")
  }

  /** What capitalising the words does to each character: the first
      character, and every character that follows a space, is upper-cased;
      nothing else changes, and the length is kept. */
  predicate CapitalizedFrom(s: string, r: string) {
    |r| == |s| &&
    (|s| > 0 ==> r[0] == UpperChar(s[0])) &&
    forall i :: 0 <= i < |s| - 1 ==> r[i + 1] == if s[i] == ' ' then UpperChar(s[i + 1]) else s[i + 1]
  }

  predicate NoSpace(w: string) {
    forall k :: 0 <= k < |w| ==> w[k] != ' '
  }

  /** Text before the first space holds none. */
  lemma BeforeFirstSpace(s: string, n: nat)
    requires n <= |s|
    requires forall j :: 0 <= j < n ==> !OccursAt(s, " ", j)
    ensures NoSpace(s[..n])
  {
    forall k | 0 <= k < n ensures s[k] != ' ' {
      assert !OccursAt(s, " ", k);
      assert s[k..k + 1] == [s[k]];
    }
  }

  /** A single word is capitalised by its first letter. */
  lemma CapitalizeAt(w: string)
    requires NoSpace(w)
    ensures CapitalizedFrom(w, Capitalize(w))
  {
  }

  /** Capitalising the words of a text with a space: the first word, the
      space, then the words of the rest. */
  lemma CapitalizeWordsCons(s: string, j: nat)
    requires IndexOf(s, " ") == Some(j)
    ensures CapitalizeWords(s) == Capitalize(s[..j]) + " " + CapitalizeWords(s[j + 1..])
  {
    var restWords := Split(s[j + 1..], " ");
    SplitUnfold(s, " ", j);
    CapitalizeAllCons(s[..j], restWords);
    JoinCons(Capitalize(s[..j]), CapitalizeAll(restWords), " ");
  }

  /** A text without a space is one word. */
  lemma CapitalizeWordsSingle(s: string)
    requires IndexOf(s, " ").None?
    ensures CapitalizeWords(s) == Capitalize(s)
  {
    SplitAbsent(s, " ");
    assert CapitalizeAll([s]) == [Capitalize(s)];
  }

  /** The text around the first space. */
  lemma AroundSpace(s: string, j: nat)
    requires IndexOf(s, " ") == Some(j)
    ensures s[j] == ' ' && s == s[..j] + " " + s[j + 1..]
  {
    assert s[j..j + 1] == " ";
    Reassemble(s, j, j + 1);
  }

  lemma CapitalizedConcat(a: string, ra: string, b: string, rb: string)
    requires NoSpace(a) && CapitalizedFrom(a, ra) && CapitalizedFrom(b, rb)
    ensures CapitalizedFrom(a + " " + b, ra + " " + rb)
  {
    var s := a + " " + b;
    var r := ra + " " + rb;
    forall i | 0 <= i < |s| - 1
      ensures r[i + 1] == if s[i] == ' ' then UpperChar(s[i + 1]) else s[i + 1]
    {
      if i + 1 < |a| {
      } else if i + 1 == |a| {
        assert s[i + 1] == ' ' && r[i + 1] == ' ';
      } else if i == |a| {
        assert s[i + 1] == b[0] && r[i + 1] == rb[0];
      } else {
        assert s[i] == b[i - |a| - 1] && s[i + 1] == b[i - |a|] && r[i + 1] == rb[i - |a|];
      }
    }
  }

  /** Splitting at spaces, capitalising each word and joining again is the
      character-wise description above. */
  lemma {:induction false} CapitalizeWordsAt(s: string)
    ensures CapitalizedFrom(s, CapitalizeWords(s))
    decreases |s|
  {
    match IndexOf(s, " ")
    case None =>
      BeforeFirstSpace(s, |s|);
      assert s[..|s|] == s;
      CapitalizeWordsSingle(s);
      CapitalizeAt(s);
    case Some(j) =>
      CapitalizeWordsAt(s[j + 1..]);
      CapitalizeWordsCons(s, j);
      BeforeFirstSpace(s, j);
      CapitalizeAt(s[..j]);
      AroundSpace(s, j);
      CapitalizedConcat(s[..j], Capitalize(s[..j]), s[j + 1..], CapitalizeWords(s[j + 1..]));
  }

  /** `getProjectName`: the prettified package name, or `Auto-Captured` when
      there is none or it is empty. */
  function GetProjectName(packageName: Option<string>): (r: string)
    ensures packageName.None? || packageName.value == [] ==> r == DefaultName
    ensures packageName.Some? && packageName.value != [] ==>
              CapitalizedFrom(Spaced(StripScope(packageName.value)), r)
  {
    if packageName.Some? && packageName.value != [] then
      var spaced := Spaced(StripScope(packageName.value));
      CapitalizeWordsAt(spaced);
      CapitalizeWords(spaced)
    else DefaultName
  }

  /** Capitalising capitalised text changes nothing. */
  lemma CapitalizedTwice(s: string, r: string, rr: string)
    requires CapitalizedFrom(s, r) && CapitalizedFrom(r, rr)
    ensures rr == r
  {
    forall i | 1 <= i < |r| ensures rr[i] == r[i] {
      var j := i - 1;
      assert rr[j + 1] == if r[j] == ' ' then UpperChar(r[j + 1]) else r[j + 1];
      assert r[j + 1] == if s[j] == ' ' then UpperChar(s[j + 1]) else s[j + 1];
      if j > 0 {
        var h := j - 1;
        assert r[h + 1] == if s[h] == ' ' then UpperChar(s[h + 1]) else s[h + 1];
      }
    }
  }

  /** Prettifying a name twice changes nothing more: every word already
      starts with an upper-case letter. */
  lemma CapitalizeWordsIdempotent(s: string)
    ensures CapitalizeWords(CapitalizeWords(s)) == CapitalizeWords(s)
  {
    CapitalizeWordsAt(s);
    CapitalizeWordsAt(CapitalizeWords(s));
    CapitalizedTwice(s, CapitalizeWords(s), CapitalizeWords(CapitalizeWords(s)));
  }
}

=== FILE: request_crud.dfy ===
/**
 * Saving and updating stored requests from the browser client
 * (ui-src/src/app/_scripts/requestCrudHandlers.ts): the input check before a
 * save, the classification of the server's reply to an update (a 409 reply
 * flagged as a conflict carries the server's version), and the header rows
 * an editor shows for a stored header object. The `fetch` round trip is a
 * function parameter: it receives what would be sent and answers the reply.
 */
module RequestCrud {
  import opened Options
  import opened Strings
  import opened Dicts
  import opened Json
  import opened ClientTypes
  import opened RequestHandlers

  /** What `res.json()` gives: it throws on a body that is not JSON; a JSON
      `null` makes every property read throw; any other value is read for
      `conflict` (its truthiness), `serverVersion` and `error`, which are
      missing on numbers, strings and booleans. */
  datatype ReplyBody =
    | Unparsable
    | NullReply
    | ReplyObject(conflict: bool, serverVersion: Option<RequestItem>, error: Option<string>)

  /** The outcome of `fetch`: a network failure, or a reply with its status. */
  datatype Reply = NetworkError | HttpReply(status: int, body: ReplyBody)

  /** `res.ok` */
  predicate Ok(status: int) {
    200 <= status <= 299
  }

  /** `{ success, error?, conflict?, serverVersion? }`; an absent `conflict`
      is `false`. */
  datatype CrudResult = CrudResult(success: bool, error: Option<string>, conflict: bool, serverVersion: Option<RequestItem>)

  function Succeeded(): CrudResult {
    CrudResult(true, None, false, None)
  }

  function Failed(error: string): CrudResult {
    CrudResult(false, Some(error), false, None)
  }

  const MissingInput := "Collection and request name are required"
  const SaveFailed := "Failed to save request"
  const UpdateFailed := "Update failed"
  const UpdateThrew := "Failed to update request"

  /** The body of the POST that saves a request. */
  datatype SavePayload = SavePayload(
    name: string,
    httpMethod: string,
    url: string,
    headers: Dict<string>,
    body: Option<string>,
    collectionId: string,
    preRequestScript: Option<string>,
    postRequestScript: Option<string>)

  /** `saveRequest`'s check: a collection id, and a name that is not blank. */
  predicate SaveInputValid(name: string, collectionId: string) {
    collectionId != [] && !IsBlank(name)
  }

  /** `saveRequest`: refuses a missing collection or a blank name without
      sending anything; otherwise succeeds on an ok reply and reports the
      reply's `error`, or a fixed message, on any other outcome. */
  function SaveRequest(name: string, httpMethod: string, url: string, headers: Dict<string>,
                       body: Option<string>, collectionId: string,
                       preRequestScript: Option<string>, postRequestScript: Option<string>,
                       send: SavePayload -> Reply): (r: CrudResult)
    ensures !SaveInputValid(name, collectionId) ==> r == Failed(MissingInput)
    ensures r.success <==> (SaveInputValid(name, collectionId) &&
              var reply := send(SavePayload(name, httpMethod, url, headers, body, collectionId,
                                            preRequestScript, postRequestScript));
              reply.HttpReply? && Ok(reply.status))
    ensures !r.success ==> r.error.Some? && !r.conflict
    ensures SaveInputValid(name, collectionId) ==>
              var reply := send(SavePayload(name, httpMethod, url, headers, body, collectionId,
                                            preRequestScript, postRequestScript));
              && (reply.HttpReply? && !Ok(reply.status) && reply.body.ReplyObject? ==>
                    r == Failed(if reply.body.error.Some? then reply.body.error.value else SaveFailed))
              && (reply.NetworkError? || (!Ok(reply.status) && !reply.body.ReplyObject?) ==> r == Failed(SaveFailed))
  {
    if !SaveInputValid(name, collectionId) then Failed(MissingInput)
    else
      match send(SavePayload(name, httpMethod, url, headers, body, collectionId, preRequestScript, postRequestScript))
      case NetworkError => Failed(SaveFailed)
      case HttpReply(status, data) =>
        if Ok(status) then Succeeded()
        else match data
          case ReplyObject(_, _, error) => Failed(error.GetOr(SaveFailed))
          case _ => Failed(SaveFailed)
  }

  /** The body of the PUT that updates a request. */
  datatype UpdatePayload = UpdatePayload(
    name: string,
    httpMethod: string,
    url: string,
    headers: Dict<string>,
    body: Option<string>,
    expectedUpdatedAt: Option<string>,
    forceOverwrite: bool,
    preRequestScript: Option<string>,
    postRequestScript: Option<string>)

  /** The PUT body; `forceOverwrite` is `false` when the caller leaves it out. */
  function UpdatePayloadOf(name: string, httpMethod: string, url: string, headers: Dict<string>,
                           body: Option<string>, expectedUpdatedAt: Option<string>,
                           forceOverwrite: Option<bool>,
                           preRequestScript: Option<string>, postRequestScript: Option<string>): (p: UpdatePayload)
    ensures p.forceOverwrite <==> forceOverwrite == Some(true)
    ensures p.expectedUpdatedAt == expectedUpdatedAt && p.body == body && p.headers == headers
    ensures p.name == name && p.httpMethod == httpMethod && p.url == url
    ensures p.preRequestScript == preRequestScript && p.postRequestScript == postRequestScript
  {
    UpdatePayload(name, httpMethod, url, headers, body, expectedUpdatedAt, forceOverwrite.GetOr(false),
                  preRequestScript, postRequestScript)
  }

  /** How `updateRequest` reads the reply. The body is parsed before the
      status is looked at, so an unparsable body fails even an ok reply;
      `conflict` is read only on a 409, `error` only on a reply that is
      neither a conflict nor ok. */
  function ClassifyUpdateReply(reply: Reply): (r: CrudResult)
    ensures r.conflict <==> reply.HttpReply? && reply.status == 409 && reply.body.ReplyObject? && reply.body.conflict
    ensures r.conflict ==> !r.success && r.error.None? && r.serverVersion == reply.body.serverVersion
    ensures r.success <==> reply.HttpReply? && Ok(reply.status) && !reply.body.Unparsable?
    ensures !r.success && !r.conflict ==> r.error.Some? && r.serverVersion.None?
    ensures reply.NetworkError? || (reply.HttpReply? && reply.body.Unparsable?) ==> r == Failed(UpdateThrew)
    ensures reply.HttpReply? && !Ok(reply.status) && reply.body.ReplyObject? && !r.conflict ==>
              r == Failed(reply.body.error.GetOr(UpdateFailed))
  {
    match reply
    case NetworkError => Failed(UpdateThrew)
    case HttpReply(status, data) =>
      if data.Unparsable? then Failed(UpdateThrew)
      else if status == 409 && data.NullReply? then Failed(UpdateThrew)
      else if status == 409 && data.conflict then CrudResult(false, None, true, data.serverVersion)
      else if Ok(status) then Succeeded()
      else if data.NullReply? then Failed(UpdateThrew)
      else Failed(data.error.GetOr(UpdateFailed))
  }

  /** `updateRequest`: sends the PUT and classifies the reply. */
  function UpdateRequest(requestId: string, name: string, httpMethod: string, url: string,
                         headers: Dict<string>, body: Option<string>, expectedUpdatedAt: Option<string>,
                         forceOverwrite: Option<bool>,
                         preRequestScript: Option<string>, postRequestScript: Option<string>,
                         send: (string, UpdatePayload) -> Reply): (r: CrudResult)
    ensures var reply := send(requestId, UpdatePayload(name, httpMethod, url, headers, body, expectedUpdatedAt,
                                                       forceOverwrite == Some(true), preRequestScript, postRequestScript));
            && r == ClassifyUpdateReply(reply)
            && (r.success <==> reply.HttpReply? && Ok(reply.status) && !reply.body.Unparsable?)
            && (r.conflict <==> reply.HttpReply? && reply.status == 409 && reply.body.ReplyObject? && reply.body.conflict)
  {
    ClassifyUpdateReply(send(requestId, UpdatePayloadOf(name, httpMethod, url, headers, body,
                                                        expectedUpdatedAt, forceOverwrite,
                                                        preRequestScript, postRequestScript)))
  }

  /** A 409 is never ok, so checking for a conflict first decides nothing the
      ok check would have decided otherwise: a reply is a conflict, a
      success, or an error, and never two of them. */
  lemma UpdateOutcomesExclusive(reply: Reply)
    ensures !Ok(409)
    ensures var r := ClassifyUpdateReply(reply);
            (r.conflict && !r.success && r.error.None?) ||
            (r.success && !r.conflict && r.error.None?) ||
            (!r.success && !r.conflict && r.error.Some?)
  {
  }

  /** `parseHeadersToArray`: one row per entry of the parsed value, in entry
      order, values in their string form; a single blank row when parsing
      fails, when the value is `null` (where `Object.entries` throws) or when
      it has no entries. */
  function ParseHeadersToArray(headersJson: string, parse: string -> Parsed): (rows: seq<HeaderRow>)
    ensures |rows| >= 1
    ensures parse(headersJson).Failed? || parse(headersJson).Null? ==> rows == [BlankHeader]
    ensures parse(headersJson).Obj? && parse(headersJson).entries == [] ==> rows == [BlankHeader]
    ensures parse(headersJson).Obj? && parse(headersJson).entries != [] ==>
              |rows| == |parse(headersJson).entries| &&
              forall i :: 0 <= i < |rows| ==>
                rows[i] == HeaderRow(parse(headersJson).entries[i].0, parse(headersJson).entries[i].1)
    ensures !parse(headersJson).Failed? && !parse(headersJson).Null? ==>
              var entries := Entries(parse(headersJson)).value;
              && (entries == [] ==> rows == [BlankHeader])
              && (entries != [] ==> |rows| == |entries|)
              && (entries != [] ==> forall i :: 0 <= i < |rows| ==> rows[i] == HeaderRow(entries[i].0, entries[i].1))
  {
    var parsed := parse(headersJson);
    if parsed.Failed? then [BlankHeader]
    else match Entries(parsed)
      case None => [BlankHeader]
      case Some(entries) =>
        if entries == [] then [BlankHeader]
        else seq(|entries|, i requires 0 <= i < |entries| => HeaderRow(entries[i].0, entries[i].1))
  }

  /** Pairs with distinct, non-empty keys are assigned as they are. */
  lemma {:induction false} AssignedDistinct(pairs: seq<(string, string)>)
    requires DistinctKeys(pairs)
    requires forall j :: 0 <= j < |pairs| ==> pairs[j].0 != []
    ensures Assigned(pairs) == pairs
    decreases |pairs|
  {
    if pairs != [] {
      var n := |pairs| - 1;
      var init := pairs[..n];
      AssignedDistinct(init);
      AssignedKeys(init);
      assert pairs[n].0 !in NonEmptyKeys(init);
      assert init + [pairs[n]] == pairs;
    }
  }

  /** A lone pair with an empty key is skipped. */
  lemma AssignedEmptyKey(p: (string, string))
    requires p.0 == []
    ensures Assigned([p]) == []
  {
    assert [p][..0] == [];
  }

  /** The blank row reads as one pair with an empty key. */
  lemma KeyedBlankRow()
    ensures KeyedRows([BlankHeader]) == [("", "")]
  {
    var ps := KeyedRows([BlankHeader]);
    assert BlankHeader.key == [] && BlankHeader.value == [];
    assert ps[0] == (Trim(BlankHeader.key), BlankHeader.value);
    assert Trim([]) == [];
    assert ps[0] == ([], []);
    assert ps == [ps[0]];
  }

  /** The single blank row stands for no header at all. */
  lemma BlankRowIsEmpty()
    ensures HeaderObject([BlankHeader]) == []
  {
    KeyedBlankRow();
    AssignedEmptyKey(("", ""));
  }

  /** Rows copied from entries with trimmed keys read back as those entries. */
  lemma KeyedRowsOfEntries(entries: Dict<string>, rows: seq<HeaderRow>)
    requires |rows| == |entries|
    requires forall i :: 0 <= i < |rows| ==> rows[i] == HeaderRow(entries[i].0, entries[i].1)
    requires forall j :: 0 <= j < |entries| ==> Trim(entries[j].0) == entries[j].0
    ensures KeyedRows(rows) == entries
  {
    forall i | 0 <= i < |rows| ensures KeyedRows(rows)[i] == entries[i] {
      assert Trim(rows[i].key) == entries[i].0;
    }
  }

  /** Loading a stored header object into rows and turning the rows back into
      an object gives the stored object again, when its keys are non-empty
      and trimmed (as objects `parseHeaders` built are). */
  lemma HeaderRowsRoundTrip(headersJson: string, parse: string -> Parsed)
    requires parse(headersJson).Obj?
    requires forall j :: 0 <= j < |parse(headersJson).entries| ==>
               parse(headersJson).entries[j].0 != [] && Trim(parse(headersJson).entries[j].0) == parse(headersJson).entries[j].0
    ensures HeaderObject(ParseHeadersToArray(headersJson, parse)) == parse(headersJson).entries
  {
    var entries := parse(headersJson).entries;
    var rows := ParseHeadersToArray(headersJson, parse);
    if entries == [] {
      BlankRowIsEmpty();
    } else {
      KeyedRowsOfEntries(entries, rows);
      AssignedDistinct(entries);
    }
  }
}

=== FILE: request_editor.dfy ===
/**
 * The header and form-data editors of the request editor
 * (ui-src/src/components/RequestEditor.tsx). Each handler copies the row
 * list, edits the copy and hands the new list to the active tab; the lists
 * are never left empty, a removal of the last row leaving one blank row.
 */
module RequestEditor {
  import opened Options
  import opened ClientTypes

  /** `[...rows, blank]`: one row appended, the others untouched. */
  function AddRow<T>(rows: seq<T>, blank: T): (r: seq<T>)
    ensures |r| == |rows| + 1 && r[..|rows|] == rows && r[|rows|] == blank
  {
    rows + [blank]
  }

  /** Where `splice(index, 1)` starts: a negative index counts from the end,
      and the start is clamped to the list. */
  function SpliceStart(len: nat, index: int): (s: nat)
    ensures s <= len
    ensures 0 <= index <= len ==> s == index
    ensures -(len as int) <= index < 0 ==> s == len + index
    ensures index < -(len as int) ==> s == 0
    ensures index > len ==> s == len
  {
    if index < 0 then (if len + index < 0 then 0 else len + index)
    else if index > len then len
    else index
  }

  /** `copy.splice(index, 1)`, then one blank row when nothing is left. */
  function RemoveRow<T>(rows: seq<T>, index: int, blank: T): (r: seq<T>)
    ensures |r| >= 1
    ensures 0 <= index < |rows| && |rows| > 1 ==>
              |r| == |rows| - 1 &&
              forall j :: 0 <= j < |r| ==> r[j] == if j < index then rows[j] else rows[j + 1]
    ensures 0 <= index < |rows| && |rows| == 1 ==> r == [blank]
    ensures rows != [] && index >= |rows| ==> r == rows
    ensures rows == [] ==> r == [blank]
  {
    var s := SpliceStart(|rows|, index);
    var spliced := if s < |rows| then rows[..s] + rows[s + 1..] else rows;
    if |spliced| > 0 then spliced else [blank]
  }

  /** `copy[index] = row`: only that row changes. */
  function UpdateRow<T>(rows: seq<T>, index: nat, row: T): (r: seq<T>)
    requires index < |rows|
    ensures |r| == |rows| && r[index] == row
    ensures forall j :: 0 <= j < |rows| && j != index ==> r[j] == rows[j]
  {
    rows[index := row]
  }

  /** Removing the row just added gives the list back; an empty list comes
      back as the single blank row. */
  lemma RemoveAddedRow<T>(rows: seq<T>, blank: T)
    ensures RemoveRow(AddRow(rows, blank), |rows|, blank) == if rows == [] then [blank] else rows
  {
    var added := AddRow(rows, blank);
    assert added[..|rows|] + added[|rows| + 1..] == rows;
  }

  /** `addHeader` */
  function AddHeader(headers: seq<HeaderRow>): seq<HeaderRow> {
    AddRow(headers, BlankHeader)
  }

  /** `removeHeader` */
  function RemoveHeader(headers: seq<HeaderRow>, index: int): seq<HeaderRow> {
    RemoveRow(headers, index, BlankHeader)
  }

  /** `updateHeader`: the row at `index` becomes `{ key, value }`. */
  function UpdateHeader(headers: seq<HeaderRow>, index: nat, key: string, value: string): seq<HeaderRow>
    requires index < |headers|
  {
    UpdateRow(headers, index, HeaderRow(key, value))
  }

  /** `addFormData` */
  function AddFormData(formData: seq<FormRow>): seq<FormRow> {
    AddRow(formData, BlankFormRow)
  }

  /** `removeFormData` */
  function RemoveFormData(formData: seq<FormRow>, index: int): seq<FormRow> {
    RemoveRow(formData, index, BlankFormRow)
  }

  /** A `Partial` form row: the fields present replace the row's. */
  datatype FormUpdate = FormUpdate(key: Option<string>, value: Option<string>,
                                   kind: Option<FieldKind>, file: Option<Option<FileHandle>>)

  /** `{ ...row, ...updates }` */
  function MergeRow(row: FormRow, u: FormUpdate): (r: FormRow)
    ensures r.key == (if u.key.Some? then u.key.value else row.key)
    ensures r.value == (if u.value.Some? then u.value.value else row.value)
    ensures r.kind == (if u.kind.Some? then u.kind.value else row.kind)
    ensures r.file == (if u.file.Some? then u.file.value else row.file)
  {
    FormRow(u.key.GetOr(row.key), u.value.GetOr(row.value), u.kind.GetOr(row.kind), u.file.GetOr(row.file))
  }

  /** `updateFormDataItem`: merges the update into the row at `index` only. */
  function UpdateFormDataItem(formData: seq<FormRow>, index: nat, u: FormUpdate): (r: seq<FormRow>)
    requires index < |formData|
    ensures |r| == |formData| && r[index] == MergeRow(formData[index], u)
    ensures forall j :: 0 <= j < |formData| && j != index ==> r[j] == formData[j]
  {
    UpdateRow(formData, index, MergeRow(formData[index], u))
  }

  /** The edits the form editor makes. */
  function KeyEdit(key: string): FormUpdate { FormUpdate(Some(key), None, None, None) }
  function ValueEdit(value: string): FormUpdate { FormUpdate(None, Some(value), None, None) }
  function FileChosen(file: Option<FileHandle>): FormUpdate { FormUpdate(None, None, None, Some(file)) }
  /** Choosing a field type also clears the value and the file. */
  function KindChange(kind: FieldKind): FormUpdate { FormUpdate(None, Some(""), Some(kind), Some(None)) }

  /** Changing a row's type keeps its key and leaves it with an empty value
      and no file; the other rows are untouched. */
  lemma KindChangeResets(formData: seq<FormRow>, index: nat, kind: FieldKind)
    requires index < |formData|
    ensures UpdateFormDataItem(formData, index, KindChange(kind))[index] ==
              FormRow(formData[index].key, "", kind, None)
    ensures forall j :: 0 <= j < |formData| && j != index ==>
              UpdateFormDataItem(formData, index, KindChange(kind))[j] == formData[j]
  {
  }

  /** Typing a key, a value or choosing a file changes that field of that
      row and nothing else. */
  lemma SingleFieldEdits(row: FormRow, key: string, value: string, file: Option<FileHandle>)
    ensures MergeRow(row, KeyEdit(key)) == row.(key := key)
    ensures MergeRow(row, ValueEdit(value)) == row.(value := value)
    ensures MergeRow(row, FileChosen(file)) == row.(file := file)
  {
  }

  /** The count on the Headers tab: the rows with a non-empty key, blank
      rows and whitespace keys alike counted by whether the key is empty. */
  function HeaderBadge(headers: seq<HeaderRow>): (n: nat)
    ensures n <= |headers|
    decreases |headers|
  {
    if headers == [] then 0
    else
      var n := |headers| - 1;
      HeaderBadge(headers[..n]) + (if headers[n].key != [] then 1 else 0)
  }

  /** The count is zero exactly when no row has a key, and the number of
      rows exactly when every row has one. */
  lemma {:induction false} HeaderBadgeExtremes(headers: seq<HeaderRow>)
    ensures HeaderBadge(headers) == 0 <==> forall i :: 0 <= i < |headers| ==> headers[i].key == []
    ensures HeaderBadge(headers) == |headers| <==> forall i :: 0 <= i < |headers| ==> headers[i].key != []
    decreases |headers|
  {
    if headers != [] {
      var n := |headers| - 1;
      HeaderBadgeExtremes(headers[..n]);
      assert forall i :: 0 <= i < n ==> headers[..n][i] == headers[i];
    }
  }

  lemma {:induction false} HeaderBadgeAppend(a: seq<HeaderRow>, b: seq<HeaderRow>)
    ensures HeaderBadge(a + b) == HeaderBadge(a) + HeaderBadge(b)
    decreases |b|
  {
    if b == [] {
      assert a + b == a;
    } else {
      var n := |b| - 1;
      HeaderBadgeAppend(a, b[..n]);
      assert (a + b)[..|a| + n] == a + b[..n];
    }
  }

  lemma HeaderBadgeSingle(row: HeaderRow)
    ensures HeaderBadge([row]) == if row.key != [] then 1 else 0
  {
    assert [row][..0] == [];
  }

  lemma RemoveRowInRange<T>(rows: seq<T>, index: nat, blank: T)
    requires index < |rows|
    ensures RemoveRow(rows, index, blank) ==
              if |rows| == 1 then [blank] else rows[..index] + rows[index + 1..]
  {
  }

  lemma AroundIndex<T>(rows: seq<T>, index: nat)
    requires index < |rows|
    ensures rows == rows[..index] + [rows[index]] + rows[index + 1..]
  {
  }

  /** Adding a header leaves the count alone. */
  lemma HeaderBadgeAdd(headers: seq<HeaderRow>)
    ensures HeaderBadge(AddHeader(headers)) == HeaderBadge(headers)
  {
    HeaderBadgeAppend(headers, [BlankHeader]);
    HeaderBadgeSingle(BlankHeader);
  }

  /** Removing row `index` takes one off the count exactly when that row had
      a key; a removed last row is replaced by a blank one, which counts
      nothing. */
  lemma HeaderBadgeRemove(headers: seq<HeaderRow>, index: nat)
    requires index < |headers|
    ensures HeaderBadge(RemoveHeader(headers, index)) ==
              HeaderBadge(headers) - (if headers[index].key != [] then 1 else 0)
  {
    var before := headers[..index];
    var after := headers[index + 1..];
    AroundIndex(headers, index);
    HeaderBadgeAppend(before + [headers[index]], after);
    HeaderBadgeAppend(before, [headers[index]]);
    HeaderBadgeAppend(before, after);
    HeaderBadgeSingle(headers[index]);
    RemoveRowInRange(headers, index, BlankHeader);
    if |headers| == 1 {
      assert before == [] && after == [];
      HeaderBadgeSingle(BlankHeader);
    }
  }
}

=== FILE: request_handlers.dfy ===
/**
 * The browser client's request helpers (ui-src/src/app/_scripts/requestHandlers.ts):
 * url normalisation, the header rows turned into an object, the JSON payload
 * sent to the execute route, and the tests the response panel makes on a
 * response. The `fetch` calls themselves are I/O and not part of this model.
 */
module RequestHandlers {
  import opened Options
  import opened Strings
  import opened Dicts
  import opened Json
  import opened ClientTypes

  predicate IsAlpha(c: char) {
    'a' <= c <= 'z' || 'A' <= c <= 'Z'
  }

  /** The characters a scheme may hold after its first letter, as section 3.1
      of RFC 3986 lists them: letters, digits, `+`, `-` and `.`. */
  predicate IsSchemeChar(c: char) {
    IsAlpha(c) || '0' <= c <= '9' || c == '+' || c == '-' || c == '.'
  }

  /** The end of the run of scheme characters that starts at `i`. */
  function SchemeRun(s: string, i: nat): (e: nat)
    requires i <= |s|
    ensures i <= e <= |s|
    ensures forall k :: i <= k < e ==> IsSchemeChar(s[k])
    ensures e < |s| ==> !IsSchemeChar(s[e])
    decreases |s| - i
  {
    if i < |s| && IsSchemeChar(s[i]) then SchemeRun(s, i + 1) else i
  }

  /** `/^[a-z][a-z0-9+.-]*:\/\//i`: the text starts with a scheme and `://`.
      A colon is no scheme character, so the scheme is the whole run of
      scheme characters after the first letter. */
  predicate HasScheme(s: string) {
    |s| >= 1 && IsAlpha(s[0]) &&
    var e := SchemeRun(s, 1);
    e + 3 <= |s| && s[e] == ':' && s[e + 1] == '/' && s[e + 2] == '/'
  }

  /** The regular expression read literally: some prefix `s[..k]` is a scheme
      and `://` follows it. */
  predicate SchemeEndsAt(s: string, k: nat) {
    1 <= k && k + 3 <= |s| && IsAlpha(s[0]) &&
    (forall j :: 1 <= j < k ==> IsSchemeChar(s[j])) &&
    s[k] == ':' && s[k + 1] == '/' && s[k + 2] == '/'
  }

  /** The greedy reading agrees with the regular expression. */
  lemma HasSchemeMatchesRegex(s: string)
    ensures HasScheme(s) <==> exists k: nat :: SchemeEndsAt(s, k)
  {
    if HasScheme(s) {
      assert SchemeEndsAt(s, SchemeRun(s, 1));
    }
    if exists k: nat :: SchemeEndsAt(s, k) {
      var k: nat :| SchemeEndsAt(s, k);
      var e := SchemeRun(s, 1);
      assert s[k] == ':' && (e < |s| ==> !IsSchemeChar(s[e]));
      assert k == e;
    }
  }

  /** `/^https?:\/\//i`: `http://` or `https://`, letters in either case. */
  predicate IsHttp(s: string) {
    |s| >= 7 && LowerChar(s[0]) == 'h' && LowerChar(s[1]) == 't' && LowerChar(s[2]) == 't' &&
    LowerChar(s[3]) == 'p' &&
    ((s[4] == ':' && s[5] == '/' && s[6] == '/') ||
     (|s| >= 8 && LowerChar(s[4]) == 's' && s[5] == ':' && s[6] == '/' && s[7] == '/'))
  }

  /** The `http(s)://` test is a special case of the scheme test that follows
      it, so it never decides anything on its own. */
  lemma HttpHasScheme(s: string)
    requires IsHttp(s)
    ensures HasScheme(s)
  {
    var k := if s[4] == ':' then 4 else 5;
    assert SchemeEndsAt(s, k);
    HasSchemeMatchesRegex(s);
  }

  /** The trimmed urls `normalizeUrl` leaves alone: a `{{variable}}` start, a
      relative path, or an explicit scheme. */
  predicate KeptAsIs(t: string) {
    (|t| >= 2 && t[0] == '{' && t[1] == '{') || (|t| >= 1 && t[0] == '/') || IsHttp(t) || HasScheme(t)
  }

  /** `normalizeUrl`: the trimmed url, with `http://` put in front when it has
      neither a scheme, nor a variable or `/` at its start. */
  function NormalizeUrl(inputUrl: string): (r: string)
    ensures r == [] <==> IsBlank(inputUrl)
    ensures KeptAsIs(Trim(inputUrl)) || Trim(inputUrl) == [] ==> r == Trim(inputUrl)
    ensures Trim(inputUrl) != [] && !KeptAsIs(Trim(inputUrl)) ==> r == "http://" + Trim(inputUrl)
  {
    var trimmed := Trim(inputUrl);
    if trimmed == [] then trimmed
    else if |trimmed| >= 2 && trimmed[0] == '{' && trimmed[1] == '{' then trimmed
    else if trimmed[0] == '/' then trimmed
    else if IsHttp(trimmed) then trimmed
    else if HasScheme(trimmed) then trimmed
    else "http://" + trimmed
  }

  /** A trimmed url with `http://` in front is still trimmed. */
  lemma HttpPrefixedTrimmed(t: string)
    requires t != [] && !IsWhitespace(t[|t| - 1])
    ensures Trim("http://" + t) == "http://" + t
  {
    var r := "http://" + t;
    assert r[|r| - 1] == t[|t| - 1];
    TrimmedUnchanged(r);
  }

  /** Every url `normalizeUrl` returns is trimmed. */
  lemma NormalizedIsTrimmed(inputUrl: string)
    ensures Trim(NormalizeUrl(inputUrl)) == NormalizeUrl(inputUrl)
  {
    var t := Trim(inputUrl);
    if NormalizeUrl(inputUrl) == t {
      TrimIdempotent(inputUrl);
    } else {
      HttpPrefixedTrimmed(t);
    }
  }

  /** A url with `http://` in front is left as it is. */
  lemma HttpPrefixedKept(t: string)
    ensures KeptAsIs("http://" + t)
  {
    assert IsHttp("http://" + t);
  }

  /** Every url `normalizeUrl` returns is empty or one it leaves as it is. */
  lemma NormalizedIsKept(inputUrl: string)
    ensures NormalizeUrl(inputUrl) == [] || KeptAsIs(NormalizeUrl(inputUrl))
  {
    var t := Trim(inputUrl);
    if NormalizeUrl(inputUrl) != t {
      HttpPrefixedKept(t);
    }
  }

  /** Normalising a normalised url changes nothing. */
  lemma NormalizeUrlIdempotent(inputUrl: string)
    ensures NormalizeUrl(NormalizeUrl(inputUrl)) == NormalizeUrl(inputUrl)
  {
    NormalizedIsTrimmed(inputUrl);
    NormalizedIsKept(inputUrl);
  }

  /** The rows as `parseHeaders` reads them: trimmed key, value as typed. */
  function KeyedRows(rows: seq<HeaderRow>): (ps: seq<(string, string)>)
    ensures |ps| == |rows|
    ensures forall j :: 0 <= j < |rows| ==> ps[j] == (Trim(rows[j].key), rows[j].value)
  {
    seq(|rows|, j requires 0 <= j < |rows| => (Trim(rows[j].key), rows[j].value))
  }

  /** The pairs assigned one after the other into `{}`, a pair with an empty
      key skipped. */
  function Assigned(pairs: seq<(string, string)>): Dict<string>
    decreases |pairs|
  {
    if pairs == [] then []
    else
      var d := Assigned(pairs[..|pairs| - 1]);
      var last := pairs[|pairs| - 1];
      if last.0 == [] then d else Put(d, last.0, last.1)
  }

  /** One more pair: assigned unless its key is empty. */
  lemma AssignedSnoc(pairs: seq<(string, string)>, i: nat)
    requires i < |pairs|
    ensures Assigned(pairs[..i + 1]) ==
            if pairs[i].0 == [] then Assigned(pairs[..i]) else Put(Assigned(pairs[..i]), pairs[i].0, pairs[i].1)
  {
    assert pairs[..i + 1][..i] == pairs[..i];
  }

  /** The object `parseHeaders` returns. */
  function HeaderObject(rows: seq<HeaderRow>): Dict<string> {
    Assigned(KeyedRows(rows))
  }

  /** `parseHeaders`: assigns `result[key.trim()] = value` for every row whose
      key is not blank. */
  method ParseHeaders(rows: seq<HeaderRow>) returns (result: Dict<string>)
    ensures result == HeaderObject(rows)
  {
    ghost var pairs := KeyedRows(rows);
    result := [];
    var i := 0;
    while i < |rows|
      invariant 0 <= i <= |rows|
      invariant result == Assigned(pairs[..i])
    {
      var key := Trim(rows[i].key);
      AssignedSnoc(pairs, i);
      if key != [] {
        result := Put(result, key, rows[i].value);
      }
      i := i + 1;
    }
    assert pairs[..|rows|] == pairs;
  }

  /** The value under a non-empty key is the value of the last pair with that key. */
  lemma {:induction false} AssignedLastWins(pairs: seq<(string, string)>, i: nat, k: string)
    requires i < |pairs| && k != [] && pairs[i].0 == k
    requires forall j :: i < j < |pairs| ==> pairs[j].0 != k
    ensures Get(Assigned(pairs), k) == Some(pairs[i].1)
    decreases |pairs|
  {
    var n := |pairs| - 1;
    if i < n {
      AssignedLastWins(pairs[..n], i, k);
    }
  }

  /** The value under a key is the value of the last row whose trimmed key it
      is, untrimmed. */
  lemma HeaderLastRowWins(rows: seq<HeaderRow>, i: nat, k: string)
    requires i < |rows| && k != [] && Trim(rows[i].key) == k
    requires forall j :: i < j < |rows| ==> Trim(rows[j].key) != k
    ensures Get(HeaderObject(rows), k) == Some(rows[i].value)
  {
    AssignedLastWins(KeyedRows(rows), i, k);
  }

  /** The non-empty keys of a list of pairs. */
  function NonEmptyKeys(pairs: seq<(string, string)>): set<string> {
    set j | 0 <= j < |pairs| && pairs[j].0 != [] :: pairs[j].0
  }

  lemma NonEmptyKeysSnoc(pairs: seq<(string, string)>)
    requires pairs != []
    ensures NonEmptyKeys(pairs) ==
            NonEmptyKeys(pairs[..|pairs| - 1]) + (if pairs[|pairs| - 1].0 == [] then {} else {pairs[|pairs| - 1].0})
  {
    var n := |pairs| - 1;
    var init := pairs[..n];
    forall x | x in NonEmptyKeys(pairs)
      ensures x in NonEmptyKeys(init) + (if pairs[n].0 == [] then {} else {pairs[n].0})
    {
      var j :| 0 <= j < |pairs| && pairs[j].0 != [] && pairs[j].0 == x;
      if j < n { assert init[j] == pairs[j]; }
    }
    forall x | x in NonEmptyKeys(init) ensures x in NonEmptyKeys(pairs) {
      var j :| 0 <= j < n && init[j].0 != [] && init[j].0 == x;
      assert init[j] == pairs[j];
    }
  }

  /** The keys assigned are exactly the non-empty ones. */
  lemma {:induction false} AssignedKeys(pairs: seq<(string, string)>)
    ensures Keys(Assigned(pairs)) == NonEmptyKeys(pairs)
    decreases |pairs|
  {
    if pairs != [] {
      AssignedKeys(pairs[..|pairs| - 1]);
      NonEmptyKeysSnoc(pairs);
    }
  }

  /** The keys of the object are the trimmed keys of the rows, blank ones left
      out: no key is empty, so no value is stored for a blank key. */
  lemma HeaderKeys(rows: seq<HeaderRow>)
    ensures Keys(HeaderObject(rows)) == set j | 0 <= j < |rows| && Trim(rows[j].key) != [] :: Trim(rows[j].key)
    ensures Get(HeaderObject(rows), "") == None
  {
    var pairs := KeyedRows(rows);
    AssignedKeys(pairs);
    assert NonEmptyKeys(pairs) == set j | 0 <= j < |rows| && Trim(rows[j].key) != [] :: Trim(rows[j].key);
  }

  /** The JSON body posted to the execute route (`JSON.stringify` drops the
      fields that are `undefined`, here `None`). */
  datatype ExecutePayload = ExecutePayload(
    httpMethod: string,
    url: string,
    headers: Dict<string>,
    body: Option<string>,
    environmentId: Option<string>,
    variables: Option<Dict<string>>,
    sslVerification: Option<bool>,
    followRedirects: Option<bool>,
    maxResponseSize: Option<int>,
    timeout: int)

  /** The payload of a request whose body type is JSON: the settings spread in,
      then `timeout` overridden by the timeout in milliseconds, 30 seconds when
      the settings have none; an empty body or environment id is left out. */
  function JsonPayload(httpMethod: string, url: string, rows: seq<HeaderRow>, body: string,
                       settings: RequestSettings, selectedEnvId: string,
                       variables: Option<Dict<string>>): (p: ExecutePayload)
    ensures p.httpMethod == httpMethod && p.url == NormalizeUrl(url) && p.headers == HeaderObject(rows)
    ensures p.body == if body == [] then None else Some(body)
    ensures p.environmentId == if selectedEnvId == [] then None else Some(selectedEnvId)
    ensures p.variables == variables
    ensures p.sslVerification == settings.sslVerification && p.followRedirects == settings.followRedirects
    ensures p.maxResponseSize == settings.maxResponseSize
    ensures settings.timeout.None? ==> p.timeout == 30000
    ensures settings.timeout.Some? ==> p.timeout == settings.timeout.value * 1000
  {
    ExecutePayload(httpMethod, NormalizeUrl(url), HeaderObject(rows),
      if body == [] then None else Some(body),
      if selectedEnvId == [] then None else Some(selectedEnvId),
      variables, settings.sslVerification, settings.followRedirects, settings.maxResponseSize,
      settings.timeout.GetOr(30) * 1000)
  }

  /** A response body as the client receives it. A JSON number, boolean, array
      or object carries the text `JSON.stringify(body, null, 2)` writes for it. */
  datatype BodyValue =
    | Undefined
    | NullBody
    | TextValue(text: string)
    | ScalarValue(pretty: string)     // a number or a boolean
    | ObjectValue(pretty: string)     // an array or an object

  /** `formatResponseBody`: nothing for a missing body, a string as it is, and
      any other value pretty-printed. */
  function FormatResponseBody(body: BodyValue): (r: string)
    ensures body.Undefined? || body.NullBody? ==> r == []
    ensures body.TextValue? ==> r == body.text
    ensures body.ScalarValue? || body.ObjectValue? ==> r == body.pretty
  {
    match body
    case Undefined => ""
    case NullBody => ""
    case TextValue(text) => text
    case ScalarValue(pretty) => pretty
    case ObjectValue(pretty) => pretty
  }

  /** `isJsonResponse`: an array or object is JSON; a string is when it parses;
      a missing body, a number or a boolean is not. */
  function IsJsonResponse(body: BodyValue, parse: string -> Parsed): (r: bool)
    ensures body.ObjectValue? ==> r
    ensures body.Undefined? || body.NullBody? || body.ScalarValue? ==> !r
    ensures body.TextValue? ==> (r <==> !parse(body.text).Failed?)
  {
    match body
    case ObjectValue(_) => true
    case TextValue(text) => !parse(text).Failed?
    case _ => false
  }

  /** The content type `isHtmlResponse` reads: `content-type`, else
      `Content-Type`, else empty. */
  function ContentType(headers: Dict<string>): string {
    match Get(headers, "content-type")
    case Some(v) => v
    case None => Get(headers, "Content-Type").GetOr("")
  }

  /** `isHtmlResponse` */
  function IsHtmlResponse(headers: Option<Dict<string>>): (r: bool)
    ensures headers.None? ==> !r
    ensures headers.Some? && Get(headers.value, "content-type").Some? ==>
              (r <==> Contains(Get(headers.value, "content-type").value, "text/html"))
    ensures headers.Some? && Get(headers.value, "content-type").None? ==>
              (r <==> Get(headers.value, "Content-Type").Some? &&
                      Contains(Get(headers.value, "Content-Type").value, "text/html"))
  {
    headers.Some? && Contains(ContentType(headers.value), "text/html")
  }
}

=== FILE: request_tabs.dfy ===
/**
 * The tab strip above the request editor
 * (ui-src/src/app/_components/RequestTabs.tsx): closing a tab, opening a new
 * one, and the label each tab shows. Both transitions build a new tab list
 * and a new active id from the old ones.
 */
module RequestTabs {
  import opened Options
  import opened Strings
  import opened Arrays
  import opened ClientTypes

  /** No two open tabs share an id. */
  predicate DistinctIds(tabs: seq<RequestTab>) {
    forall i, j :: 0 <= i < j < |tabs| ==> tabs[i].id != tabs[j].id
  }

  /** The active id names an open tab. */
  predicate ActiveOpen(s: TabsState) {
    exists i :: 0 <= i < |s.tabs| && s.tabs[i].id == s.activeTabId
  }

  /** What the tab strip keeps true: distinct ids and an open active tab
      (so at least one tab). */
  predicate Valid(s: TabsState) {
    DistinctIds(s.tabs) && ActiveOpen(s)
  }

  /** The close button is shown only while more than one tab is open. */
  predicate CanClose(s: TabsState) {
    |s.tabs| > 1
  }

  /** `tabs.filter(t => t.id !== id)`: the other tabs, in order. */
  function WithoutId(tabs: seq<RequestTab>, id: string): (r: seq<RequestTab>)
    ensures forall t :: t in r <==> t in tabs && t.id != id
    ensures |r| <= |tabs|
    decreases |tabs|
  {
    if tabs == [] then []
    else
      var rest := WithoutId(tabs[1..], id);
      assert forall t :: t in tabs <==> t == tabs[0] || t in tabs[1..];
      if tabs[0].id != id then [tabs[0]] + rest else rest
  }

  /** The filter keeps order: it works piecewise on a concatenation. */
  lemma {:induction false} WithoutIdAppend(a: seq<RequestTab>, b: seq<RequestTab>, id: string)
    ensures WithoutId(a + b, id) == WithoutId(a, id) + WithoutId(b, id)
    decreases |a|
  {
    if a == [] {
      assert a + b == b;
    } else {
      assert a + b == [a[0]] + (a[1..] + b);
      assert a == [a[0]] + a[1..];
      WithoutIdCons(a[0], a[1..] + b, id);
      WithoutIdCons(a[0], a[1..], id);
      WithoutIdAppend(a[1..], b, id);
      var c := if a[0].id != id then [a[0]] else [];
      var x, y := WithoutId(a[1..], id), WithoutId(b, id);
      Associative(c, x, y);
    }
  }

  /** Filtering a list is filtering its head, then its tail. */
  lemma WithoutIdCons(t: RequestTab, rest: seq<RequestTab>, id: string)
    ensures WithoutId([t] + rest, id) == (if t.id != id then [t] else []) + WithoutId(rest, id)
  {
    assert ([t] + rest)[1..] == rest;
  }

  /** A single tab stays exactly when its id differs. */
  lemma WithoutIdSingle(t: RequestTab, id: string)
    ensures WithoutId([t], id) == if t.id != id then [t] else []
  {
    assert [t][1..] == [];
  }

  /** A tab list without the id is left as it is. */
  lemma {:induction false} WithoutAbsentId(tabs: seq<RequestTab>, id: string)
    requires forall i :: 0 <= i < |tabs| ==> tabs[i].id != id
    ensures WithoutId(tabs, id) == tabs
    decreases |tabs|
  {
    if tabs != [] {
      WithoutAbsentId(tabs[1..], id);
      assert [tabs[0]] + tabs[1..] == tabs;
    }
  }

  /** Some open tab has the id. */
  predicate HasId(tabs: seq<RequestTab>, id: string) {
    exists i :: 0 <= i < |tabs| && tabs[i].id == id
  }

  lemma DistinctTail(tabs: seq<RequestTab>)
    requires tabs != [] && DistinctIds(tabs)
    ensures DistinctIds(tabs[1..])
    ensures forall t :: t in tabs[1..] ==> t.id != tabs[0].id
  {
    var rest := tabs[1..];
    assert forall i :: 0 <= i < |rest| ==> rest[i] == tabs[i + 1];
  }

  /** With distinct ids, the remaining tabs keep distinct ids. */
  lemma {:induction false} WithoutDistinct(tabs: seq<RequestTab>, id: string)
    requires DistinctIds(tabs)
    ensures DistinctIds(WithoutId(tabs, id))
    decreases |tabs|
  {
    if tabs != [] {
      DistinctTail(tabs);
      WithoutDistinct(tabs[1..], id);
      if tabs[0].id != id {
        var rest := WithoutId(tabs[1..], id);
        forall j | 0 <= j < |rest| ensures rest[j].id != tabs[0].id {
          assert rest[j] in rest;
        }
        DistinctCons(tabs[0], rest);
      }
    }
  }

  lemma DistinctCons(t: RequestTab, rest: seq<RequestTab>)
    requires DistinctIds(rest) && forall j :: 0 <= j < |rest| ==> rest[j].id != t.id
    ensures DistinctIds([t] + rest)
  {
    var r := [t] + rest;
    forall i, j | 0 <= i < j < |r| ensures r[i].id != r[j].id {
      assert r[j] == rest[j - 1];
      if i > 0 {
        assert r[i] == rest[i - 1];
      }
    }
  }

  /** With distinct ids, closing removes exactly one tab when the id is
      open and none otherwise. */
  lemma {:induction false} WithoutCount(tabs: seq<RequestTab>, id: string)
    requires DistinctIds(tabs)
    ensures |WithoutId(tabs, id)| == |tabs| - (if HasId(tabs, id) then 1 else 0)
    decreases |tabs|
  {
    if tabs != [] {
      var rest := tabs[1..];
      DistinctTail(tabs);
      WithoutCount(rest, id);
      if tabs[0].id == id {
        assert HasId(tabs, id);
        forall i | 0 <= i < |rest| ensures rest[i].id != id {
          assert rest[i] in rest;
        }
        WithoutAbsentId(rest, id);
        assert !HasId(rest, id);
      } else if HasId(tabs, id) {
        var i :| 0 <= i < |tabs| && tabs[i].id == id;
        assert rest[i - 1].id == id;
      } else {
        assert !HasId(rest, id) by {
          forall i | 0 <= i < |rest| ensures rest[i].id != id {
            assert rest[i] == tabs[i + 1];
          }
        }
      }
    }
  }

  /** The close button of tab `tabId`: the tabs with that id go, the others
      keep their order; if it was the active tab and tabs remain, the first
      remaining tab becomes active, otherwise the active id is kept. */
  function CloseTab(s: TabsState, tabId: string): (r: TabsState)
    ensures forall t :: t in r.tabs <==> t in s.tabs && t.id != tabId
    ensures r.tabs == WithoutId(s.tabs, tabId)
    ensures tabId == s.activeTabId && r.tabs != [] ==> r.activeTabId == r.tabs[0].id
    ensures tabId != s.activeTabId || r.tabs == [] ==> r.activeTabId == s.activeTabId
  {
    var newTabs := WithoutId(s.tabs, tabId);
    if tabId == s.activeTabId && |newTabs| > 0 then TabsState(newTabs, newTabs[0].id)
    else TabsState(newTabs, s.activeTabId)
  }

  /** Closing a tab while the button is shown never empties the strip,
      removes exactly the one tab and keeps the strip valid. */
  lemma CloseKeepsValid(s: TabsState, i: nat)
    requires Valid(s) && CanClose(s) && i < |s.tabs|
    ensures CloseTab(s, s.tabs[i].id).tabs != []
    ensures |CloseTab(s, s.tabs[i].id).tabs| == |s.tabs| - 1
    ensures Valid(CloseTab(s, s.tabs[i].id))
  {
    var tabId := s.tabs[i].id;
    WithoutDistinct(s.tabs, tabId);
    WithoutCount(s.tabs, tabId);
    assert HasId(s.tabs, tabId);
    var r := CloseTab(s, tabId);
    if tabId == s.activeTabId {
      assert r.tabs[0].id == r.activeTabId;
    } else {
      var a :| 0 <= a < |s.tabs| && s.tabs[a].id == s.activeTabId;
      assert s.tabs[a] in r.tabs;
      var b :| 0 <= b < |r.tabs| && r.tabs[b] == s.tabs[a];
      assert r.tabs[b].id == r.activeTabId;
    }
  }


  /** The new-tab button: the new tab is appended and becomes active. */
  function OpenTab(s: TabsState, newTab: RequestTab): (r: TabsState)
    ensures |r.tabs| == |s.tabs| + 1 && r.tabs[..|s.tabs|] == s.tabs && r.tabs[|s.tabs|] == newTab
    ensures ActiveOpen(r) && r.activeTabId == newTab.id
  {
    TabsState(s.tabs + [newTab], newTab.id)
  }

  /** A new tab whose id is not yet open keeps the strip valid. */
  lemma OpenKeepsValid(s: TabsState, newTab: RequestTab)
    requires DistinctIds(s.tabs)
    requires forall i :: 0 <= i < |s.tabs| ==> s.tabs[i].id != newTab.id
    ensures Valid(OpenTab(s, newTab))
  {
    var r := OpenTab(s, newTab);
    assert forall i :: 0 <= i < |s.tabs| ==> r.tabs[i] == s.tabs[i];
  }

  /** `url.replace(/^https?:\/\//, '')` */
  function StripScheme(url: string): (r: string)
    ensures StartsWith(url, "http://") ==> r == url[7..]
    ensures StartsWith(url, "https://") ==> r == url[8..]
    ensures !StartsWith(url, "http://") && !StartsWith(url, "https://") ==> r == url
  {
    SchemesExclusive(url);
    if StartsWith(url, "http://") then url[7..]
    else if StartsWith(url, "https://") then url[8..]
    else url
  }

  /** No url starts with both schemes: the fifth character is `:` in one and
      `s` in the other. */
  lemma SchemesExclusive(url: string)
    ensures !(StartsWith(url, "http://") && StartsWith(url, "https://"))
  {
    if StartsWith(url, "https://") {
      assert url[..7][4] == url[..8][4] == 's';
    }
  }

  /** At most the first twenty characters, as `substring(0, 20)` takes. */
  function First20(s: string): (r: string)
    ensures |r| <= 20 && |r| <= |s| && r == s[..|r|]
    ensures |s| <= 20 ==> r == s
    ensures |s| > 20 ==> |r| == 20
  {
    if |s| <= 20 then s else s[..20]
  }

  /** The text a tab shows: `New Request` while the url is empty, else
      the url without its http(s) scheme cut to twenty characters, or the
      whole url when nothing is left of it. */
  function TabLabel(url: string): (r: string)
    ensures r != []
    ensures url == [] ==> r == "New Request"
    ensures url != [] && StripScheme(url) != [] ==> r == First20(StripScheme(url))
    ensures url != [] && StripScheme(url) == [] ==> r == url
  {
    if url == [] then "New Request"
    else
      var cut := First20(StripScheme(url));
      if cut != [] then cut else url
  }

  /** The scheme does not show: a url with `http://` or `https://` is
      labelled like the rest of it. */
  lemma LabelIgnoresScheme(rest: string)
    requires rest != []
    ensures TabLabel("http://" + rest) == First20(rest)
    ensures TabLabel("https://" + rest) == First20(rest)
  {
    var a := "http://" + rest;
    var b := "https://" + rest;
    assert a[..7] == "http://";
    assert b[..8] == "https://";
    assert a[7..] == rest;
    assert b[8..] == rest;
    assert b[..7] != "http://" by {
      assert b[4] == 's';
    }
  }
}

=== FILE: script_executor.dfy ===
/**
 * The pre- and post-request script sandbox
 * (ui-src/src/app/_scripts/scriptExecutor.ts). A script is arbitrary
 * JavaScript; here it is its text (for the blank test) and the sequence of
 * `pm` calls it makes, ending where it throws. The sandbox objects are
 * classes whose fields are the local clones the `pm` closures write.
 */
module ScriptExecutor {
  import opened Options
  import opened Strings
  import opened Dicts
  import opened Json
  import opened Types
  import opened Seqs

  datatype ScriptRequest = ScriptRequest(url: string, httpMethod: string, headers: Dict<string>, body: string)

  datatype ScriptContext = ScriptContext(environment: Dict<string>, request: ScriptRequest)

  /** A script: its source text and the calls it makes when run. */
  datatype Script<C> = Script(text: string, calls: seq<C>)

  /** The calls a pre-request script can make that change something, and a
      throw (which also stands for a syntax error in the text). */
  datatype PreCall =
    | EnvironmentSet(key: string, value: string)      // pm.environment.set
    | EnvironmentUnset(key: string)                   // pm.environment.unset
    | VariablesSet(key: string, value: string)        // pm.variables.set
    | HeadersAdd(key: string, value: string)          // pm.request.headers.add
    | BodyUpdate(content: string)                     // pm.request.body.update
    | Throw(message: string)

  /** The message of the TypeError raised when a request header named `add`
      has replaced `pm.request.headers.add` (the headers are spread over the
      helper object after it). */
  const AddShadowedMessage := "pm.request.headers.add is not a function"

  /** Runs calls in order from `start`, each through `step`, and stops at
      the first state `stopped` holds of (a throw nothing catches). */
  function Run<S, C, E>(calls: seq<C>, start: S, inputs: E, step: (S, C, E) -> S, stopped: S -> bool): S
    decreases |calls|
  {
    if calls == [] then start
    else
      var s := Run(calls[..|calls| - 1], start, inputs, step, stopped);
      if stopped(s) then s else step(s, calls[|calls| - 1], inputs)
  }

  /** One more call: the run so far, then that call unless it stopped. */
  lemma RunSnoc<S, C, E>(calls: seq<C>, start: S, inputs: E, step: (S, C, E) -> S, stopped: S -> bool, i: nat)
    requires i < |calls|
    ensures Run(calls[..i + 1], start, inputs, step, stopped) ==
            var s := Run(calls[..i], start, inputs, step, stopped);
            if stopped(s) then s else step(s, calls[i], inputs)
  {
    TakeTake(calls, i + 1, i);
  }

  /** Once the run has stopped, later calls change nothing. */
  lemma {:induction false} RunStopFinal<S, C, E>(calls: seq<C>, start: S, inputs: E, step: (S, C, E) -> S,
                                                 stopped: S -> bool, i: nat)
    requires i <= |calls| && stopped(Run(calls[..i], start, inputs, step, stopped))
    ensures Run(calls, start, inputs, step, stopped) == Run(calls[..i], start, inputs, step, stopped)
    decreases |calls|
  {
    if i < |calls| {
      var n := |calls| - 1;
      TakeTake(calls, n, i);
      RunStopFinal(calls[..n], start, inputs, step, stopped, i);
    } else {
      TakeAll(calls);
    }
  }

  /** A run that gets to call `i` and stops there ends in the state that
      call left. */
  lemma RunStopsAt<S, C, E>(calls: seq<C>, start: S, inputs: E, step: (S, C, E) -> S, stopped: S -> bool, i: nat)
    requires i < |calls| && !stopped(Run(calls[..i], start, inputs, step, stopped))
    requires stopped(step(Run(calls[..i], start, inputs, step, stopped), calls[i], inputs))
    ensures Run(calls, start, inputs, step, stopped) ==
            step(Run(calls[..i], start, inputs, step, stopped), calls[i], inputs)
  {
    RunSnoc(calls, start, inputs, step, stopped, i);
    RunStopFinal(calls, start, inputs, step, stopped, i + 1);
  }

  /** A loop that ran out of calls, or saw the run stop, has the whole
      run's state. */
  lemma RunExit<S, C, E>(calls: seq<C>, start: S, inputs: E, step: (S, C, E) -> S, stopped: S -> bool, i: nat)
    requires i <= |calls|
    requires i == |calls| || stopped(Run(calls[..i], start, inputs, step, stopped))
    ensures Run(calls, start, inputs, step, stopped) == Run(calls[..i], start, inputs, step, stopped)
  {
    if i < |calls| {
      RunStopFinal(calls, start, inputs, step, stopped, i);
    } else {
      TakeAll(calls);
    }
  }

  /** A run that did not stop did not stop along the way either. */
  lemma RunNoStopPrefix<S, C, E>(calls: seq<C>, start: S, inputs: E, step: (S, C, E) -> S,
                                 stopped: S -> bool, i: nat)
    requires i <= |calls| && !stopped(Run(calls, start, inputs, step, stopped))
    ensures !stopped(Run(calls[..i], start, inputs, step, stopped))
  {
    if stopped(Run(calls[..i], start, inputs, step, stopped)) {
      RunStopFinal(calls, start, inputs, step, stopped, i);
    }
  }

  /** Last write wins: when the calls that do not write a part of the state
      leave it alone, and a write that does not stop the run leaves its
      value there, then after a run that got past call `i`, the last writer,
      that part holds what call `i` wrote. */
  lemma {:induction false} RunLastWrite<S, C, E, F>(calls: seq<C>, start: S, inputs: E, step: (S, C, E) -> S,
                                                    stopped: S -> bool, part: S -> F, writes: C -> bool,
                                                    written: C -> F, i: nat)
    requires i < |calls| && writes(calls[i]) && forall j :: i < j < |calls| ==> !writes(calls[j])
    requires !stopped(Run(calls[..i + 1], start, inputs, step, stopped))
    requires forall s, c :: !writes(c) ==> part(step(s, c, inputs)) == part(s)
    requires forall s, c :: writes(c) && !stopped(step(s, c, inputs)) ==> part(step(s, c, inputs)) == written(c)
    ensures part(Run(calls, start, inputs, step, stopped)) == written(calls[i])
    decreases |calls|
  {
    var n := |calls| - 1;
    if i < n {
      TakeTake(calls, n, i + 1);
      RunLastWrite(calls[..n], start, inputs, step, stopped, part, writes, written, i);
    } else {
      RunSnoc(calls, start, inputs, step, stopped, i);
      TakeAll(calls);
    }
  }

  /** A part of the state no call writes keeps its starting value. */
  lemma {:induction false} RunUntouched<S, C, E, F>(calls: seq<C>, start: S, inputs: E, step: (S, C, E) -> S,
                                                    stopped: S -> bool, part: S -> F, writes: C -> bool)
    requires forall j :: 0 <= j < |calls| ==> !writes(calls[j])
    requires forall s, c :: !writes(c) ==> part(step(s, c, inputs)) == part(s)
    ensures part(Run(calls, start, inputs, step, stopped)) == part(start)
    decreases |calls|
  {
    if calls != [] {
      RunUntouched(calls[..|calls| - 1], start, inputs, step, stopped, part, writes);
    }
  }

  /** The pre-request sandbox: the clones of the environment, the headers
      and the body. */
  class PreSandbox {
    var environment: Dict<string>
    var headers: Dict<string>
    var body: string

    constructor (context: ScriptContext)
      ensures environment == context.environment
      ensures headers == context.request.headers && body == context.request.body
    {
      environment := context.environment;
      headers := context.request.headers;
      body := context.request.body;
    }

    /** `localEnv[key] = value` */
    method Set(key: string, value: string)
      modifies this
      ensures environment == Put(old(environment), key, value)
      ensures headers == old(headers) && body == old(body)
    {
      environment := Put(environment, key, value);
    }

    /** `delete localEnv[key]` */
    method Unset(key: string)
      modifies this
      ensures environment == Remove(old(environment), key)
      ensures headers == old(headers) && body == old(body)
    {
      environment := Remove(environment, key);
    }

    /** `localReq.headers[key] = value` */
    method AddHeader(key: string, value: string)
      modifies this
      ensures headers == Put(old(headers), key, value)
      ensures environment == old(environment) && body == old(body)
    {
      headers := Put(headers, key, value);
    }

    /** `localReq.body = content` */
    method UpdateBody(content: string)
      modifies this
      ensures body == content
      ensures environment == old(environment) && headers == old(headers)
    {
      body := content;
    }

    /** One call of the script on the clones, with the message it throws. */
    method Apply(call: PreCall, addShadowed: bool) returns (thrown: Option<string>)
      modifies this
      ensures PreState(environment, headers, body, thrown) ==
              PreStep(PreState(old(environment), old(headers), old(body), None), call, addShadowed)
    {
      thrown := None;
      match call
      case EnvironmentSet(key, value) => Set(key, value);
      case VariablesSet(key, value) => Set(key, value);
      case EnvironmentUnset(key) => Unset(key);
      case HeadersAdd(key, value) =>
        if addShadowed {
          thrown := Some(AddShadowedMessage);
        } else {
          AddHeader(key, value);
        }
      case BodyUpdate(content) => UpdateBody(content);
      case Throw(message) => thrown := Some(message);
    }

    /** The calls in order on the clones, up to the first throw, whose
        message comes back. */
    method RunCalls(calls: seq<PreCall>, addShadowed: bool) returns (thrown: Option<string>)
      modifies this
      ensures PreState(environment, headers, body, thrown) ==
              PreRun(calls, PreState(old(environment), old(headers), old(body), None), addShadowed)
    {
      ghost var start := PreState(environment, headers, body, None);
      thrown := None;
      var i := 0;
      while i < |calls| && thrown.None?
        invariant 0 <= i <= |calls|
        invariant PreRun(calls[..i], start, addShadowed) == PreState(environment, headers, body, thrown)
      {
        ghost var before := PreState(environment, headers, body, thrown);
        RunSnoc(calls, start, addShadowed, PreStep, PreThrown, i);
        assert PreRun(calls[..i + 1], start, addShadowed) == PreStep(before, calls[i], addShadowed);
        thrown := Apply(calls[i], addShadowed);
        i := i + 1;
      }
      RunExit(calls, start, addShadowed, PreStep, PreThrown, i);
    }
  }

  /** The clones after some calls, with the message of the throw that ended
      the script, if one did. */
  datatype PreState = PreState(environment: Dict<string>, headers: Dict<string>, body: string, thrown: Option<string>)

  function PreStart(context: ScriptContext): PreState {
    PreState(context.environment, context.request.headers, context.request.body, None)
  }

  predicate PreThrown(s: PreState) {
    s.thrown.Some?
  }

  /** One call on the clones; `addShadowed` says whether a header named
      `add` hides the helper. */
  function PreStep(s: PreState, call: PreCall, addShadowed: bool): PreState {
    match call
    case EnvironmentSet(key, value) => s.(environment := Put(s.environment, key, value))
    case VariablesSet(key, value) => s.(environment := Put(s.environment, key, value))
    case EnvironmentUnset(key) => s.(environment := Remove(s.environment, key))
    case HeadersAdd(key, value) =>
      if addShadowed then s.(thrown := Some(AddShadowedMessage)) else s.(headers := Put(s.headers, key, value))
    case BodyUpdate(content) => s.(body := content)
    case Throw(message) => s.(thrown := Some(message))
  }

  /** The pre-request calls in order, stopping at the first throw. */
  function PreRun(calls: seq<PreCall>, start: PreState, addShadowed: bool): PreState {
    Run(calls, start, addShadowed, PreStep, PreThrown)
  }

  datatype PreResult = PreResult(success: bool, error: Option<string>, context: ScriptContext)

  /** `runPreRequestScript`: a blank script succeeds at once; a script that
      throws fails and gives back the caller's context; otherwise the clones
      become the new environment and the new request headers and body. */
  function PreOutcome(script: Script<PreCall>, context: ScriptContext): (r: PreResult)
    ensures IsBlank(script.text) ==> r == PreResult(true, None, context)
    ensures !r.success ==> r.context == context && r.error.Some?
    ensures r.success <==> r.error.None?
    ensures r.context.request.url == context.request.url
    ensures r.context.request.httpMethod == context.request.httpMethod
  {
    if IsBlank(script.text) then PreResult(true, None, context)
    else
      var s := PreRun(script.calls, PreStart(context), Get(context.request.headers, "add").Some?);
      if s.thrown.Some? then PreResult(false, s.thrown, context)
      else PreResult(true, None, ScriptContext(s.environment, context.request.(headers := s.headers, body := s.body)))
  }

  /** `runPreRequestScript`, with the calls made on a sandbox object. */
  method RunPreRequestScript(script: Script<PreCall>, context: ScriptContext) returns (result: PreResult)
    ensures result == PreOutcome(script, context)
  {
    if IsBlank(script.text) {
      return PreResult(true, None, context);
    }
    var sandbox := new PreSandbox(context);
    var addShadowed := Get(context.request.headers, "add").Some?;
    var calls := script.calls;
    var thrown := sandbox.RunCalls(calls, addShadowed);
    if thrown.Some? {
      return PreResult(false, thrown, context);
    }
    return PreResult(true, None, ScriptContext(sandbox.environment,
                                               context.request.(headers := sandbox.headers, body := sandbox.body)));
  }

  /** Whether a call writes environment key `k`, and what it leaves there. */
  predicate WritesVariable(call: PreCall, k: string) {
    (call.EnvironmentSet? && call.key == k) || (call.VariablesSet? && call.key == k) ||
    (call.EnvironmentUnset? && call.key == k)
  }

  function VariableWritten(call: PreCall): Option<string> {
    match call
    case EnvironmentSet(_, value) => Some(value)
    case VariablesSet(_, value) => Some(value)
    case _ => None
  }

  /** One call on environment key `k`: it holds what a write of it left,
      and is untouched by every other call. */
  lemma PreStepVariable(s: PreState, call: PreCall, addShadowed: bool, k: string)
    ensures Get(PreStep(s, call, addShadowed).environment, k) ==
            if WritesVariable(call, k) then VariableWritten(call) else Get(s.environment, k)
  {
  }

  /** One call on header `k`: an `add` of it that does not throw leaves its
      value, and every other call leaves the header alone. */
  lemma PreStepHeader(s: PreState, call: PreCall, addShadowed: bool, k: string)
    ensures !AddsHeader(call, k) ==> Get(PreStep(s, call, addShadowed).headers, k) == Get(s.headers, k)
    ensures AddsHeader(call, k) && !PreThrown(PreStep(s, call, addShadowed)) ==>
              Get(PreStep(s, call, addShadowed).headers, k) == HeaderAdded(call)
  {
  }

  /** After a script that does not throw, an environment key holds what the
      last `set` or `unset` of it left, `environment.set` and `variables.set`
      alike. */
  lemma PreLastVariableWrite(calls: seq<PreCall>, start: PreState, addShadowed: bool, i: nat, k: string)
    requires !PreThrown(PreRun(calls, start, addShadowed))
    requires i < |calls| && WritesVariable(calls[i], k)
    requires forall j :: i < j < |calls| ==> !WritesVariable(calls[j], k)
    ensures Get(PreRun(calls, start, addShadowed).environment, k) == VariableWritten(calls[i])
  {
    RunNoStopPrefix(calls, start, addShadowed, PreStep, PreThrown, i + 1);
    forall s, c ensures Get(PreStep(s, c, addShadowed).environment, k) ==
                        if WritesVariable(c, k) then VariableWritten(c) else Get(s.environment, k) {
      PreStepVariable(s, c, addShadowed, k);
    }
    RunLastWrite(calls, start, addShadowed, PreStep, PreThrown, (s: PreState) => Get(s.environment, k),
                 (c: PreCall) => WritesVariable(c, k), VariableWritten, i);
  }

  /** A key no call writes keeps its value. */
  lemma PreVariableUntouched(calls: seq<PreCall>, start: PreState, addShadowed: bool, k: string)
    requires forall j :: 0 <= j < |calls| ==> !WritesVariable(calls[j], k)
    ensures Get(PreRun(calls, start, addShadowed).environment, k) == Get(start.environment, k)
  {
    forall s, c ensures Get(PreStep(s, c, addShadowed).environment, k) ==
                        if WritesVariable(c, k) then VariableWritten(c) else Get(s.environment, k) {
      PreStepVariable(s, c, addShadowed, k);
    }
    RunUntouched(calls, start, addShadowed, PreStep, PreThrown, (s: PreState) => Get(s.environment, k),
                 (c: PreCall) => WritesVariable(c, k));
  }

  /** Whether a call adds header `k`. */
  predicate AddsHeader(call: PreCall, k: string) {
    call.HeadersAdd? && call.key == k
  }

  function HeaderAdded(call: PreCall): Option<string> {
    if call.HeadersAdd? then Some(call.value) else None
  }

  /** After a script that does not throw, a header holds the value of the
      last `headers.add` for it, overwriting any earlier one. */
  lemma PreLastHeaderAdd(calls: seq<PreCall>, start: PreState, addShadowed: bool, i: nat, k: string)
    requires !PreThrown(PreRun(calls, start, addShadowed))
    requires i < |calls| && calls[i].HeadersAdd? && calls[i].key == k
    requires forall j :: i < j < |calls| ==> !(calls[j].HeadersAdd? && calls[j].key == k)
    ensures Get(PreRun(calls, start, addShadowed).headers, k) == Some(calls[i].value)
  {
    RunNoStopPrefix(calls, start, addShadowed, PreStep, PreThrown, i + 1);
    forall s, c ensures !AddsHeader(c, k) ==> Get(PreStep(s, c, addShadowed).headers, k) == Get(s.headers, k)
                ensures AddsHeader(c, k) && !PreThrown(PreStep(s, c, addShadowed)) ==>
                          Get(PreStep(s, c, addShadowed).headers, k) == HeaderAdded(c) {
      PreStepHeader(s, c, addShadowed, k);
    }
    RunLastWrite(calls, start, addShadowed, PreStep, PreThrown, (s: PreState) => Get(s.headers, k),
                 (c: PreCall) => AddsHeader(c, k), HeaderAdded, i);
  }

  function BodyWritten(call: PreCall): string {
    if call.BodyUpdate? then call.content else ""
  }

  /** After a script that does not throw, the body is that of the last
      `body.update`. */
  lemma PreLastBodyUpdate(calls: seq<PreCall>, start: PreState, addShadowed: bool, i: nat)
    requires !PreThrown(PreRun(calls, start, addShadowed))
    requires i < |calls| && calls[i].BodyUpdate?
    requires forall j :: i < j < |calls| ==> !calls[j].BodyUpdate?
    ensures PreRun(calls, start, addShadowed).body == calls[i].content
  {
    RunNoStopPrefix(calls, start, addShadowed, PreStep, PreThrown, i + 1);
    RunLastWrite(calls, start, addShadowed, PreStep, PreThrown, (s: PreState) => s.body,
                 (c: PreCall) => c.BodyUpdate?, BodyWritten, i);
  }

  /** `headers.add` throws while a header named `add` hides the helper. */
  lemma ShadowedAddStops(s: PreState, call: PreCall)
    requires call.HeadersAdd?
    ensures PreStep(s, call, true) == s.(thrown := Some(AddShadowedMessage))
    ensures PreThrown(PreStep(s, call, true))
  {
  }

  /** A script that calls `headers.add` while a request header named `add`
      exists fails there, and the caller's context comes back. */
  lemma AddShadowedFails(script: Script<PreCall>, context: ScriptContext, i: nat)
    requires !IsBlank(script.text) && Get(context.request.headers, "add").Some?
    requires i < |script.calls| && script.calls[i].HeadersAdd?
    ensures !PreOutcome(script, context).success
    ensures PreOutcome(script, context).context == context
  {
    var start := PreStart(context);
    var before := PreRun(script.calls[..i], start, true);
    if PreThrown(before) {
      RunStopFinal(script.calls, start, true, PreStep, PreThrown, i);
    } else {
      ShadowedAddStops(before, script.calls[i]);
      RunStopsAt(script.calls, start, true, PreStep, PreThrown, i);
    }
  }

  // ---------------------------------------------------------------- post

  /** An assertion a post-request script can make. */
  datatype Check =
    | HaveStatus(code: int)        // pm.response.to.have.status(code)
    | HaveJsonBody                 // pm.response.to.have.jsonBody(key)
    | CheckThrow(message: string)  // any other throw inside a test body

  /** What a test body does: an assertion, or a write to the environment. */
  datatype TestStep =
    | Asserts(check: Check)
    | TestSet(key: string, value: string)          // pm.environment.set inside the body
    | TestUnset(key: string)                       // pm.environment.unset inside the body

  /** The calls a post-request script can make. */
  datatype PostCall =
    | PostSet(key: string, value: string)          // pm.environment.set
    | PostUnset(key: string)                       // pm.environment.unset
    | Test(name: string, body: seq<TestStep>)      // pm.test(name, fn)
    | Assert(check: Check)                         // an assertion outside any test
    | PostThrow(message: string)

  /** What the post-request calls can observe: the response, and `JSON.parse`. */
  datatype Observed = Observed(response: ExecuteResponse, parse: string -> Parsed)

  /** The text `JSON.parse(String(response.body))` reads. */
  function BodyText(body: Option<ResponseBody>): string {
    match body
    case None => "undefined"
    case Some(TextBody(text)) => text
    case Some(JsonBody(serialized)) => serialized
  }

  /** The message an assertion throws, `None` when it holds. */
  function CheckFailure(check: Check, observed: Observed): (r: Option<string>)
    ensures check.HaveStatus? ==> (r.None? <==> observed.response.status == Some(check.code))
    ensures check.HaveJsonBody? ==>
              (r.None? <==> observed.parse(BodyText(observed.response.body)).Obj? ||
                            observed.parse(BodyText(observed.response.body)).Arr?)
    ensures check.CheckThrow? ==> r == Some(check.message)
  {
    var response := observed.response;
    match check
    case HaveStatus(code) =>
      if response.status == Some(code) then None
      else Some("Expected status " + IntToString(code) + " but got " +
                (if response.status.Some? then IntToString(response.status.value) else "undefined"))
    case HaveJsonBody =>
      var parsed := observed.parse(BodyText(response.body));
      if parsed.Failed? then Some(parsed.message)
      else if parsed.Obj? || parsed.Arr? then None
      else Some("Body is not JSON")
    case CheckThrow(message) => Some(message)
  }

  /** Whether a test step is an assertion that throws. */
  predicate Fails(step: TestStep, observed: Observed) {
    step.Asserts? && CheckFailure(step.check, observed).Some?
  }

  /** Whether a test body runs to its end: none of its assertions throws. */
  predicate Passes(body: seq<TestStep>, observed: Observed)
    decreases |body|
  {
    body == [] || (!Fails(body[0], observed) && Passes(body[1..], observed))
  }

  /** A body passes exactly when none of its steps is a throwing assertion. */
  lemma {:induction false} PassesAll(body: seq<TestStep>, observed: Observed)
    ensures Passes(body, observed) <==> forall j :: 0 <= j < |body| ==> !Fails(body[j], observed)
    decreases |body|
  {
    if body != [] {
      PassesAll(body[1..], observed);
      assert forall j :: 1 <= j < |body| ==> body[j] == body[1..][j - 1];
    }
  }

  /** One test step's write to the environment; an assertion writes nothing. */
  function StepWrite(step: TestStep, environment: Dict<string>): Dict<string> {
    match step
    case Asserts(_) => environment
    case TestSet(key, value) => Put(environment, key, value)
    case TestUnset(key) => Remove(environment, key)
  }

  /** The environment after a test body: its writes are applied in order up
      to the first assertion that throws; the writes before it stay. */
  function TestEnvironment(body: seq<TestStep>, environment: Dict<string>, observed: Observed): Dict<string>
    decreases |body|
  {
    if body == [] || Fails(body[0], observed) then environment
    else TestEnvironment(body[1..], StepWrite(body[0], environment), observed)
  }

  /** The run from step `j` on, one step unfolded. */
  lemma TestEnvironmentAt(body: seq<TestStep>, j: nat, environment: Dict<string>, observed: Observed)
    requires j < |body|
    ensures TestEnvironment(body[j..], environment, observed) ==
            if Fails(body[j], observed) then environment
            else TestEnvironment(body[j + 1..], StepWrite(body[j], environment), observed)
    ensures Passes(body[j..], observed) <==> !Fails(body[j], observed) && Passes(body[j + 1..], observed)
  {
    assert body[j..][1..] == body[j + 1..];
  }

  /** A body that stops at step `i` keeps exactly the writes before `i`. */
  lemma {:induction false} TestStopsAt(body: seq<TestStep>, environment: Dict<string>, observed: Observed, i: nat)
    requires i < |body| && Fails(body[i], observed)
    ensures TestEnvironment(body, environment, observed) == TestEnvironment(body[..i], environment, observed)
    decreases i
  {
    if i > 0 && !Fails(body[0], observed) {
      assert body[1..][..i - 1] == body[..i][1..];
      TestStopsAt(body[1..], StepWrite(body[0], environment), observed, i - 1);
    }
  }

  /** `pm.test('save token', () => pm.environment.set(key, value))`: the
      variable is written and the test passes. */
  lemma SavedInTest(s: PostState, name: string, key: string, value: string, observed: Observed)
    ensures PostStep(s, Test(name, [TestSet(key, value)]), observed) ==
            s.(environment := Put(s.environment, key, value), tests := Put(s.tests, name, true))
  {
    var body := [TestSet(key, value)];
    assert body[1..] == [];
    assert TestEnvironment(body, s.environment, observed) == TestEnvironment([], Put(s.environment, key, value), observed);
    assert Passes(body, observed);
  }

  /** A write after a failing assertion of the same test is lost, while the
      test is recorded as failed. */
  lemma WriteAfterFailureLost(s: PostState, name: string, check: Check, key: string, value: string, observed: Observed)
    requires CheckFailure(check, observed).Some?
    ensures PostStep(s, Test(name, [Asserts(check), TestSet(key, value)]), observed) ==
            s.(tests := Put(s.tests, name, false))
  {
    assert Fails([Asserts(check), TestSet(key, value)][0], observed);
  }

  /** The post-request sandbox: the environment clone and the test results. */
  class PostSandbox {
    var environment: Dict<string>
    var tests: Dict<bool>

    constructor (env: Dict<string>)
      ensures environment == env && tests == []
    {
      environment := env;
      tests := [];
    }

    method Set(key: string, value: string)
      modifies this
      ensures environment == Put(old(environment), key, value) && tests == old(tests)
    {
      environment := Put(environment, key, value);
    }

    method Unset(key: string)
      modifies this
      ensures environment == Remove(old(environment), key) && tests == old(tests)
    {
      environment := Remove(environment, key);
    }

    /** The environment write a test step makes. */
    method Write(step: TestStep)
      modifies this
      ensures environment == StepWrite(step, old(environment)) && tests == old(tests)
    {
      match step
      case Asserts(_) =>
      case TestSet(key, value) => Set(key, value);
      case TestUnset(key) => Unset(key);
    }

    /** `pm.test(name, fn)`: runs the body until an assertion throws, keeping
        the environment writes made before it, and records whether none
        did; the failure goes no further. */
    method Test(name: string, body: seq<TestStep>, observed: Observed)
      modifies this
      ensures tests == Put(old(tests), name, Passes(body, observed))
      ensures environment == TestEnvironment(body, old(environment), observed)
    {
      var passed := RunBody(body, observed);
      tests := Put(tests, name, passed);
    }

    /** `fn()` inside the test's `try`: the steps in order until an
        assertion throws. */
    method RunBody(body: seq<TestStep>, observed: Observed) returns (passed: bool)
      modifies this
      ensures passed == Passes(body, observed)
      ensures environment == TestEnvironment(body, old(environment), observed)
      ensures tests == old(tests)
    {
      ghost var start := environment;
      passed := true;
      var j := 0;
      while j < |body| && passed
        invariant 0 <= j <= |body|
        invariant passed ==> (Passes(body, observed) <==> Passes(body[j..], observed))
        invariant !passed ==> !Passes(body, observed)
        invariant passed ==> TestEnvironment(body, start, observed) == TestEnvironment(body[j..], environment, observed)
        invariant !passed ==> TestEnvironment(body, start, observed) == environment
        invariant tests == old(tests)
      {
        TestEnvironmentAt(body, j, environment, observed);
        if Fails(body[j], observed) {
          passed := false;
        } else {
          Write(body[j]);
        }
        j := j + 1;
      }
      assert passed ==> body[j..] == [];
    }

    /** One call of the script, with the message it throws. */
    method Apply(call: PostCall, observed: Observed) returns (thrown: Option<string>)
      modifies this
      ensures PostState(environment, tests, thrown) ==
              PostStep(PostState(old(environment), old(tests), None), call, observed)
    {
      thrown := None;
      match call
      case PostSet(key, value) => Set(key, value);
      case PostUnset(key) => Unset(key);
      case Test(name, body) => Test(name, body, observed);
      case Assert(check) => thrown := CheckFailure(check, observed);
      case PostThrow(message) => thrown := Some(message);
    }
  }

  datatype PostState = PostState(environment: Dict<string>, tests: Dict<bool>, thrown: Option<string>)

  predicate PostThrown(s: PostState) {
    s.thrown.Some?
  }

  function PostStep(s: PostState, call: PostCall, observed: Observed): PostState {
    match call
    case PostSet(key, value) => s.(environment := Put(s.environment, key, value))
    case PostUnset(key) => s.(environment := Remove(s.environment, key))
    case Test(name, body) =>
      s.(environment := TestEnvironment(body, s.environment, observed), tests := Put(s.tests, name, Passes(body, observed)))
    case Assert(check) => s.(thrown := CheckFailure(check, observed))
    case PostThrow(message) => s.(thrown := Some(message))
  }

  /** The post-request calls in order, stopping at the first uncaught throw. */
  function PostRun(calls: seq<PostCall>, start: PostState, observed: Observed): PostState {
    Run(calls, start, observed, PostStep, PostThrown)
  }

  datatype PostResult = PostResult(success: bool, error: Option<string>, environment: Dict<string>, tests: Dict<bool>)

  /** `runPostRequestScript`: a blank script succeeds with no tests; a script
      that throws fails with the caller's environment and the tests recorded
      before the throw; otherwise the clone is the new environment. */
  function PostOutcome(script: Script<PostCall>, environment: Dict<string>, observed: Observed): (r: PostResult)
    ensures IsBlank(script.text) ==> r == PostResult(true, None, environment, [])
    ensures !r.success ==> r.environment == environment && r.error.Some?
    ensures r.success <==> r.error.None?
  {
    if IsBlank(script.text) then PostResult(true, None, environment, [])
    else
      var s := PostRun(script.calls, PostState(environment, [], None), observed);
      if s.thrown.Some? then PostResult(false, s.thrown, environment, s.tests)
      else PostResult(true, None, s.environment, s.tests)
  }

  /** `runPostRequestScript`, with the calls made on a sandbox object. */
  method RunPostRequestScript(script: Script<PostCall>, environment: Dict<string>, observed: Observed)
    returns (result: PostResult)
    ensures result == PostOutcome(script, environment, observed)
  {
    if IsBlank(script.text) {
      return PostResult(true, None, environment, []);
    }
    var sandbox := new PostSandbox(environment);
    var calls := script.calls;
    var thrown: Option<string> := None;
    var i := 0;
    while i < |calls| && thrown.None?
      invariant 0 <= i <= |calls|
      invariant PostRun(calls[..i], PostState(environment, [], None), observed) ==
                PostState(sandbox.environment, sandbox.tests, thrown)
    {
      RunSnoc(calls, PostState(environment, [], None), observed, PostStep, PostThrown, i);
      thrown := sandbox.Apply(calls[i], observed);
      i := i + 1;
    }
    if thrown.Some? {
      RunStopFinal(calls, PostState(environment, [], None), observed, PostStep, PostThrown, i);
      return PostResult(false, thrown, environment, sandbox.tests);
    }
    TakeAll(calls);
    return PostResult(true, None, sandbox.environment, sandbox.tests);
  }

  /** One call on test `name`: running it records its result, and every
      other call leaves the record alone. */
  lemma PostStepTest(s: PostState, call: PostCall, observed: Observed, name: string)
    ensures Get(PostStep(s, call, observed).tests, name) ==
            if call.Test? && call.name == name then Some(Passes(call.body, observed)) else Get(s.tests, name)
  {
  }

  /** A test's result is recorded whatever happens inside it: up to the
      first uncaught throw, the test with a given name holds `true` exactly
      when every assertion of its last run held. */
  lemma PostLastTest(calls: seq<PostCall>, start: PostState, observed: Observed, i: nat, name: string)
    requires i < |calls| && calls[i].Test? && calls[i].name == name
    requires !PostThrown(PostRun(calls[..i], start, observed))
    requires forall j :: i < j < |calls| ==> !(calls[j].Test? && calls[j].name == name)
    ensures Get(PostRun(calls, start, observed).tests, name) == Some(Passes(calls[i].body, observed))
  {
    RunSnoc(calls, start, observed, PostStep, PostThrown, i);
    forall s, c ensures Get(PostStep(s, c, observed).tests, name) ==
                        if c.Test? && c.name == name then Some(Passes(c.body, observed)) else Get(s.tests, name) {
      PostStepTest(s, c, observed, name);
    }
    RunLastWrite(calls, start, observed, PostStep, PostThrown, (s: PostState) => Get(s.tests, name),
                 (c: PostCall) => c.Test? && c.name == name,
                 (c: PostCall) => if c.Test? then Some(Passes(c.body, observed)) else None, i);
  }

  /** A failing assertion outside a test throws its message and changes
      nothing else. */
  lemma PostAssertStops(s: PostState, call: PostCall, observed: Observed)
    requires call.Assert? && CheckFailure(call.check, observed).Some?
    ensures PostStep(s, call, observed) == s.(thrown := CheckFailure(call.check, observed))
    ensures PostThrown(PostStep(s, call, observed))
  {
  }

  /** An assertion outside any test that fails ends the script: it fails,
      the caller's environment comes back, and so do the tests recorded
      before it. */
  lemma FailedAssertEnds(script: Script<PostCall>, environment: Dict<string>, observed: Observed, i: nat)
    requires !IsBlank(script.text) && i < |script.calls|
    requires script.calls[i].Assert? && CheckFailure(script.calls[i].check, observed).Some?
    requires !PostThrown(PostRun(script.calls[..i], PostState(environment, [], None), observed))
    ensures PostOutcome(script, environment, observed) ==
            PostResult(false, CheckFailure(script.calls[i].check, observed), environment,
                       PostRun(script.calls[..i], PostState(environment, [], None), observed).tests)
  {
    var start := PostState(environment, [], None);
    var before := PostRun(script.calls[..i], start, observed);
    PostAssertStops(before, script.calls[i], observed);
    RunStopsAt(script.calls, start, observed, PostStep, PostThrown, i);
  }
}

=== FILE: seqs.dfy ===
/**
 * Facts about prefixes of a sequence, and an element-wise map built one
 * element at a time, kept apart so that the proofs that use them do not
 * have to rediscover them among many other facts.
 */
module Seqs {
  /** The prefix of full length is the whole sequence. */
  lemma TakeAll<T>(s: seq<T>)
    ensures s[..|s|] == s
  {
  }

  /** A prefix of a prefix is a prefix. */
  lemma TakeTake<T>(s: seq<T>, n: nat, i: nat)
    requires i <= n <= |s|
    ensures s[..n][..i] == s[..i]
  {
  }

  /** `f` applied to each element, built by appending at the end. */
  function MapSeq<X, Y>(xs: seq<X>, f: X -> Y): (r: seq<Y>)
    ensures |r| == |xs|
    decreases |xs|
  {
    if xs == [] then [] else MapSeq(xs[..|xs| - 1], f) + [f(xs[|xs| - 1])]
  }

  /** Each element of the map is `f` of the element at the same index. */
  lemma {:induction false} MapSeqAt<X, Y>(xs: seq<X>, f: X -> Y, i: nat)
    requires i < |xs|
    ensures MapSeq(xs, f)[i] == f(xs[i])
    decreases |xs|
  {
    var n := |xs| - 1;
    if i < n {
      MapSeqAt(xs[..n], f, i);
    }
  }

  /** Mapping one more element of a prefix appends its image. */
  lemma MapSeqSnoc<X, Y>(xs: seq<X>, f: X -> Y, i: nat)
    requires i < |xs|
    ensures MapSeq(xs[..i + 1], f) == MapSeq(xs[..i], f) + [f(xs[i])]
  {
    TakeTake(xs, i + 1, i);
  }
}

=== FILE: server_execute.dfy ===
/**
 * The server's execute route (src/index.ts): choosing the variable map,
 * merging the collection's headers under the request's, resolving `{{name}}`
 * placeholders (names looked up untrimmed) in the url, every header value and
 * the body, sending the request and recording it in the history.
 *
 * Storage calls, `JSON.parse` and the HTTP executor of src/core/executor.ts
 * (not part of this model) are parameters: a storage call either yields its
 * value or throws with a message.
 */
module ServerExecute {
  import opened Options
  import opened Strings
  import opened Dicts
  import opened Json
  import opened Arrays
  import opened Placeholders
  import opened Types

  datatype Fetch<+T> = Done(value: T) | Threw(message: string)

  datatype Environment = Environment(id: string, name: string, variables: string)

  /** A stored request: only the collection it belongs to is read here. */
  datatype StoredRequest = StoredRequest(collectionId: Option<string>)

  /** A collection: `headers` is JSON text, `None` for undefined or null. */
  datatype Collection = Collection(id: string, name: string, headers: Option<string>)

  /** The history entry written after each execution. The header objects are
      kept as the objects `JSON.stringify` serialises. */
  datatype HistoryRecord = HistoryRecord(
    httpMethod: string,
    url: string,
    status: int,
    duration: int,
    requestHeaders: Option<Dict<string>>,
    requestBody: string,
    responseHeaders: Option<Dict<string>>,
    responseBody: Option<string>)

  /** The storage provider's answers. `addToHistory` gives the message of the
      error it throws, or `None` when the write succeeds. */
  datatype Storage = Storage(
    environments: Fetch<seq<Environment>>,
    getRequest: string -> Fetch<Option<StoredRequest>>,
    collections: Fetch<seq<Collection>>,
    addToHistory: HistoryRecord -> Option<string>)

  /** What the route's `variables` holds: `null` (a caller's `null`, or an
      environment whose text is `null`), or a value whose own properties are
      these entries. */
  datatype VarSource = NullSource | Record(entries: Dict<string>)

  /** The route's JSON body: the request to execute plus the variable sources. */
  datatype ExecutionData = ExecutionData(
    request: ExecuteRequest,
    variables: Option<VarSource>,
    environmentId: Option<string>,
    requestId: Option<string>)

  datatype RouteOutcome =
    | Replied(response: ExecuteResponse, record: HistoryRecord)
    | ServerError(error: string)      // status 500 with `{ error }`

  /** The TypeError a property read on `null` throws. */
  function NullReadMessage(name: string): string {
    "Cannot read properties of null (reading '" + name + "')"
  }

  /** The server's `resolveVariables`: an empty text is returned at once,
      otherwise names are looked up exactly as written. On `null` variables
      the first match's lookup throws; a text without a match is returned
      untouched. */
  function ResolveVariables(text: string, vars: VarSource): (r: Fetch<string>)
    ensures text == [] ==> r == Done([])
    ensures vars.Record? ==> r == Done(Resolve(text, vars.entries, false))
    ensures r.Threw? <==> vars.NullSource? && exists p :: 0 <= p < |text| && MatchLen(text[p..]).Some?
    ensures r.Threw? ==> exists p :: 0 <= p < |text| && MatchLen(text[p..]).Some? &&
                                     (forall q :: 0 <= q < p ==> MatchLen(text[q..]).None?) &&
                                     r.message == NullReadMessage(NameAt(text, p))
    ensures vars.NullSource? && r.Done? ==> r.value == text
  {
    if text == [] then Done(text)
    else match vars
      case Record(entries) => Done(Resolve(text, entries, false))
      case NullSource =>
        match FirstMatch(text)
        case Some(p) => Threw(NullReadMessage(NameAt(text, p)))
        case None => Done(text)
  }

  /** With `null` variables the first placeholder throws, naming its key,
      whatever follows it. */
  lemma NullSourceThrows(name: string, rest: string)
    requires name != [] && forall j :: 0 <= j < |name| ==> name[j] != '}'
    ensures ResolveVariables("{{" + name + "}}" + rest, NullSource) == Threw(NullReadMessage(name))
  {
    var s := "{{" + name + "}}" + rest;
    MatchLenOf(name, rest);
    assert s[0..] == s;
    assert s[2..|name| + 2] == name;
  }

  /** A JSON string as variables exposes its characters under their indices:
      `{{i}}` becomes the `i`-th character. */
  lemma StringIndexResolves(text: string, i: nat, rest: string)
    requires i < |text|
    ensures SourceOf(Json.Str(text)).Record?
    ensures var entries := SourceOf(Json.Str(text)).entries;
            ResolveVariables("{{" + NatToString(i) + "}}" + rest, SourceOf(Json.Str(text))) ==
            Done([text[i]] + Resolve(rest, entries, false))
  {
    var entries := SourceOf(Json.Str(text)).entries;
    var name := NatToString(i);
    assert entries[i] == (name, [text[i]]);
    GetEntry(entries, i);
    ResolveLeading(name, rest, entries, false);
  }

  /** The environment `loadVariablesFromStorage` looks for: the one with the
      given id, or without an id the one named `Local Environment`. */
  predicate Wanted(e: Environment, environmentId: Option<string>) {
    if environmentId.Some? then e.id == environmentId.value else e.name == "Local Environment"
  }

  /** `envs.find(...)`: the first wanted environment. */
  function SelectEnvironment(envs: seq<Environment>, environmentId: Option<string>): (r: Option<Environment>)
    ensures r.Some? ==> exists i :: 0 <= i < |envs| && envs[i] == r.value && Wanted(envs[i], environmentId) &&
                                    forall j :: 0 <= j < i ==> !Wanted(envs[j], environmentId)
    ensures r.None? ==> forall e :: e in envs ==> !Wanted(e, environmentId)
  {
    var i := FindIndex(envs, (e: Environment) => Wanted(e, environmentId));
    if i.Some? then Some(envs[i.value]) else None
  }

  /** `JSON.parse(text) as Record<string, string>` as the route reads it:
      `null` stays `null`, and any other value exposes its own entries (an
      object's properties, an array's or a string's indices, none for a
      number or a boolean). */
  function SourceOf(parsed: Parsed): (r: VarSource)
    requires !parsed.Failed?
    ensures r.NullSource? <==> parsed.Null?
    ensures parsed.Obj? ==> r == Record(parsed.entries)
    ensures parsed.Arr? ==> r == Record(IndexEntries(parsed.items))
    ensures parsed.Str? ==>
              && r.Record? && |r.entries| == |parsed.text|
              && forall i :: 0 <= i < |parsed.text| ==> r.entries[i] == (NatToString(i), [parsed.text[i]])
    ensures parsed.Primitive? ==> r == Record([])
  {
    match Entries(parsed)
    case None => NullSource
    case Some(entries) => Record(entries)
  }

  /** `loadVariablesFromStorage`: the selected environment's variables as
      `JSON.parse` gives them, or `{}` when no environment is selected or its
      text does not parse. A failing `getEnvironments` propagates. */
  function LoadVariablesFromStorage(storage: Storage, environmentId: Option<string>, parse: string -> Parsed)
    : (r: Fetch<VarSource>)
    ensures storage.environments.Threw? ==> r == Threw(storage.environments.message)
    ensures storage.environments.Done? ==>
              var env := SelectEnvironment(storage.environments.value, environmentId);
              r == Done(if env.None? || parse(env.value.variables).Failed? then Record([])
                        else SourceOf(parse(env.value.variables)))
  {
    match storage.environments
    case Threw(m) => Threw(m)
    case Done(envs) =>
      match SelectEnvironment(envs, environmentId)
      case None => Done(Record([]))
      case Some(e) =>
        var parsed := parse(e.variables);
        if parsed.Failed? then Done(Record([])) else Done(SourceOf(parsed))
  }

  /** The variables in force: the caller's own value wins outright, even `null`. */
  function ChooseVariables(data: ExecutionData, storage: Storage, parse: string -> Parsed): (r: Fetch<VarSource>)
    ensures data.variables.Some? ==> r == Done(data.variables.value)
    ensures data.variables.None? ==> r == LoadVariablesFromStorage(storage, data.environmentId, parse)
  {
    if data.variables.Some? then Done(data.variables.value)
    else LoadVariablesFromStorage(storage, data.environmentId, parse)
  }

  /** A collection's headers as the route sees them: `{}` without header text,
      otherwise the text with its placeholders resolved, then parsed and
      spread; `{}` when the resolution throws or the text does not parse,
      both being caught. */
  function CollectionHeadersOf(col: Collection, vars: VarSource, parse: string -> Parsed): (r: Dict<string>)
    ensures col.headers.None? || col.headers.value == [] ==> r == []
    ensures col.headers.Some? && ResolveVariables(col.headers.value, vars).Threw? ==> r == []
    ensures col.headers.Some? && col.headers.value != [] && ResolveVariables(col.headers.value, vars).Done? ==>
              var parsed := parse(ResolveVariables(col.headers.value, vars).value);
              r == if parsed.Failed? then [] else Spread(parsed)
  {
    if col.headers.None? || col.headers.value == [] then []
    else match ResolveVariables(col.headers.value, vars)
      case Threw(_) => []
      case Done(text) =>
        var parsed := parse(text);
        if parsed.Failed? then [] else Spread(parsed)
  }

  /** `collections.find(c => c.id === id)`: the first collection with the id. */
  function CollectionWithId(cols: seq<Collection>, id: string): (r: Option<Collection>)
    ensures r.Some? ==> exists i :: 0 <= i < |cols| && cols[i] == r.value && cols[i].id == id &&
                                    forall j :: 0 <= j < i ==> cols[j].id != id
    ensures r.None? ==> forall c :: c in cols ==> c.id != id
  {
    var i := FindIndex(cols, (c: Collection) => c.id == id);
    if i.Some? then Some(cols[i.value]) else None
  }

  /** `getCollectionHeaders`, as the route spreads it: the headers of the
      first collection with the request's collection id, or `{}` when there is
      no such request, no collection id, no such collection, no headers, or
      any failure. */
  function GetCollectionHeaders(storage: Storage, requestId: string, vars: VarSource, parse: string -> Parsed)
    : (r: Dict<string>)
    ensures storage.getRequest(requestId).Threw? ==> r == []
    ensures storage.getRequest(requestId) == Done(None) ==> r == []
    ensures storage.getRequest(requestId) == Done(Some(StoredRequest(None))) ==> r == []
    ensures storage.getRequest(requestId).Done? && storage.collections.Threw? ==> r == []
    ensures storage.getRequest(requestId).Done? && storage.getRequest(requestId).value.Some? &&
            storage.getRequest(requestId).value.value.collectionId.Some? && storage.collections.Done? ==>
              var col := CollectionWithId(storage.collections.value,
                                          storage.getRequest(requestId).value.value.collectionId.value);
              r == if col.Some? then CollectionHeadersOf(col.value, vars, parse) else []
  {
    match storage.getRequest(requestId)
    case Threw(_) => []
    case Done(None) => []
    case Done(Some(detail)) =>
      if detail.collectionId.None? then []
      else
        match storage.collections
        case Threw(_) => []
        case Done(cols) =>
          match CollectionWithId(cols, detail.collectionId.value)
          case None => []
          case Some(col) => CollectionHeadersOf(col, vars, parse)
  }

  /** The request's headers after the merge: when the body names a stored
      request, `{...collectionHeaders, ...(headers ?? {})}`. */
  function MergedHeaders(data: ExecutionData, colHeaders: Dict<string>): (r: Option<Dict<string>>)
    ensures data.requestId.None? ==> r == data.request.headers
    ensures data.requestId.Some? ==> r == Some(Merge(colHeaders, data.request.headers.GetOr([])))
  {
    if data.requestId.Some? then Some(Merge(colHeaders, data.request.headers.GetOr([])))
    else data.request.headers
  }

  /** The text `resolveVariables` returns when it does not throw. */
  function Resolved(text: string, vars: VarSource): (r: string)
    ensures ResolveVariables(text, vars).Done? ==> r == ResolveVariables(text, vars).value
  {
    if vars.Record? then Resolve(text, vars.entries, false) else text
  }

  /** Every header value resolved in entry order, keys and their order kept;
      the first value whose resolution throws ends it with that error. */
  function ResolveHeaderValues(headers: Dict<string>, vars: VarSource): (r: Fetch<Dict<string>>)
    ensures r.Done? <==> forall i :: 0 <= i < |headers| ==> ResolveVariables(headers[i].1, vars).Done?
    ensures r.Threw? ==> exists i :: 0 <= i < |headers| && ResolveVariables(headers[i].1, vars).Threw? &&
                                     r.message == ResolveVariables(headers[i].1, vars).message &&
                                     forall j :: 0 <= j < i ==> ResolveVariables(headers[j].1, vars).Done?
    ensures r.Done? ==>
              && |r.value| == |headers|
              && forall i :: 0 <= i < |headers| ==> r.value[i] == (headers[i].0, Resolved(headers[i].1, vars))
    ensures r.Done? ==>
              && KeySeq(r.value) == KeySeq(headers)
              && forall k :: Get(r.value, k) == if Get(headers, k).Some? then Some(Resolved(Get(headers, k).value, vars)) else None
  {
    match FindIndex(headers, (e: (string, string)) => ResolveVariables(e.1, vars).Threw?)
    case Some(i) => Threw(ResolveVariables(headers[i].1, vars).message)
    case None => Done(MapValues(headers, (v: string) => Resolved(v, vars)))
  }

  /** The request handed to the executor: merged headers, then the url, every
      header value and the body (only when present) resolved, in that order;
      the first resolution that throws ends the route with its error.
      Nothing else changes. */
  function Prepare(data: ExecutionData, vars: VarSource, colHeaders: Dict<string>): (r: Fetch<ExecuteRequest>)
    ensures var url := ResolveVariables(data.request.url, vars);
            url.Threw? ==> r == Threw(url.message)
    ensures var url := ResolveVariables(data.request.url, vars);
            var merged := MergedHeaders(data, colHeaders);
            url.Done? && merged.Some? && ResolveHeaderValues(merged.value, vars).Threw? ==>
              r == Threw(ResolveHeaderValues(merged.value, vars).message)
    ensures var url := ResolveVariables(data.request.url, vars);
            var merged := MergedHeaders(data, colHeaders);
            url.Done? && (merged.None? || ResolveHeaderValues(merged.value, vars).Done?) &&
            data.request.body.Some? && ResolveVariables(data.request.body.value, vars).Threw? ==>
              r == Threw(ResolveVariables(data.request.body.value, vars).message)
    ensures var merged := MergedHeaders(data, colHeaders);
            r.Done? <==> ResolveVariables(data.request.url, vars).Done? &&
                         (merged.None? || ResolveHeaderValues(merged.value, vars).Done?) &&
                         (data.request.body.None? || ResolveVariables(data.request.body.value, vars).Done?)
    ensures vars.Record? ==> r.Done?
    ensures r.Done? ==> r.value.url == Resolved(data.request.url, vars)
    ensures r.Done? ==> (r.value.body.None? <==> data.request.body.None?)
    ensures r.Done? && r.value.body.Some? ==> r.value.body.value == Resolved(data.request.body.value, vars)
    ensures r.Done? ==> (r.value.headers.None? <==> data.requestId.None? && data.request.headers.None?)
    ensures r.Done? && r.value.headers.Some? ==>
              r.value.headers.value == ResolveHeaderValues(MergedHeaders(data, colHeaders).value, vars).value
    ensures r.Done? ==> r.value.(url := data.request.url, headers := data.request.headers, body := data.request.body) == data.request
  {
    var merged := MergedHeaders(data, colHeaders);
    var url := ResolveVariables(data.request.url, vars);
    var headers := if merged.Some? then ResolveHeaderValues(merged.value, vars) else Done([]);
    var body := if data.request.body.Some? then ResolveVariables(data.request.body.value, vars) else Done([]);
    if url.Threw? then Threw(url.message)
    else if headers.Threw? then Threw(headers.message)
    else if body.Threw? then Threw(body.message)
    else
      Done(data.request.(
        url := url.value,
        headers := if merged.Some? then Some(headers.value) else None,
        body := if data.request.body.Some? then Some(body.value) else None))
  }

  /** After the merge a key of the request's own headers keeps the request's
      value and a key only the collection has gets the collection's; either
      way the value is then resolved. No other key appears. */
  lemma RequestHeadersWin(data: ExecutionData, vars: VarSource, colHeaders: Dict<string>, k: string)
    requires data.requestId.Some? && Prepare(data, vars, colHeaders).Done?
    ensures Prepare(data, vars, colHeaders).value.headers.Some?
    ensures var own := data.request.headers.GetOr([]);
            var h := Prepare(data, vars, colHeaders).value.headers.value;
            && Keys(h) == Keys(colHeaders) + Keys(own)
            && (k in Keys(own) ==> Get(h, k) == Some(Resolved(Get(own, k).value, vars)))
            && (k !in Keys(own) && k in Keys(colHeaders) ==>
                  Get(h, k) == Some(Resolved(Get(colHeaders, k).value, vars)))
  {
    var own := data.request.headers.GetOr([]);
    var merged := Merge(colHeaders, own);
    var h := Prepare(data, vars, colHeaders).value.headers.value;
    assert h == ResolveHeaderValues(merged, vars).value;
    assert Keys(h) == Keys(merged) by {
      forall x ensures x in Keys(h) <==> x in Keys(merged) {
        assert (x in Keys(h) <==> Get(h, x).Some?) && (x in Keys(merged) <==> Get(merged, x).Some?);
      }
    }
    assert k in Keys(own) ==> Get(own, k).Some?;
    assert k in Keys(colHeaders) ==> Get(colHeaders, k).Some?;
  }

  /** A response body as the history stores it: text as is, a JSON value
      serialised, an absent body absent. */
  function BodyText(body: Option<ResponseBody>): (r: Option<string>)
    ensures body.None? <==> r.None?
    ensures body.Some? && body.value.TextBody? ==> r == Some(body.value.text)
    ensures body.Some? && body.value.JsonBody? ==> r == Some(body.value.serialized)
  {
    match body
    case None => None
    case Some(TextBody(t)) => Some(t)
    case Some(JsonBody(j)) => Some(j)
  }

  /** The history entry for a sent request and its response: a missing status
      or time is recorded as 0, a missing request body as the empty text. */
  function HistoryRecordOf(sent: ExecuteRequest, response: ExecuteResponse): (r: HistoryRecord)
    ensures r.httpMethod == sent.httpMethod && r.url == sent.url
    ensures r.status == if response.status.Some? then response.status.value else 0
    ensures r.duration == if response.time.Some? then response.time.value else 0
    ensures r.requestHeaders == sent.headers && r.responseHeaders == response.headers
    ensures r.requestBody == if sent.body.Some? then sent.body.value else ""
    ensures r.responseBody == BodyText(response.body)
  {
    HistoryRecord(sent.httpMethod, sent.url, response.status.GetOr(0), response.time.GetOr(0),
                  sent.headers, sent.body.GetOr(""), response.headers, BodyText(response.body))
  }

  /** The collection headers the route merges, `{}` when no stored request is named. */
  function RouteCollectionHeaders(data: ExecutionData, storage: Storage, vars: VarSource, parse: string -> Parsed)
    : Dict<string>
  {
    if data.requestId.Some? then GetCollectionHeaders(storage, data.requestId.value, vars, parse) else []
  }

  /** The route's loop over the merged headers, assigning each resolved
      value under its key; a resolution that throws leaves the loop. */
  method ResolveHeaders(headers: Dict<string>, vars: VarSource) returns (r: Fetch<Dict<string>>)
    ensures r == ResolveHeaderValues(headers, vars)
  {
    var resolved: Dict<string> := [];
    var i := 0;
    while i < |headers|
      invariant 0 <= i <= |headers|
      invariant |resolved| == i
      invariant forall j :: 0 <= j < i ==> ResolveVariables(headers[j].1, vars).Done?
      invariant forall j :: 0 <= j < i ==> resolved[j] == (headers[j].0, Resolved(headers[j].1, vars))
    {
      var (key, value) := headers[i];
      var v := ResolveVariables(value, vars);
      if v.Threw? {
        r := Threw(v.message);
        ThrewAtFirst(headers, vars, i);
        return;
      }
      resolved := Put(resolved, key, v.value);
      i := i + 1;
    }
    var expected := ResolveHeaderValues(headers, vars);
    assert expected.Done?;
    assert resolved == expected.value;
    r := Done(resolved);
  }

  /** The header loop stops at index `i` exactly when `ResolveHeaderValues`
      reports the error of header `i`. */
  lemma ThrewAtFirst(headers: Dict<string>, vars: VarSource, i: nat)
    requires i < |headers| && ResolveVariables(headers[i].1, vars).Threw?
    requires forall j :: 0 <= j < i ==> ResolveVariables(headers[j].1, vars).Done?
    ensures ResolveHeaderValues(headers, vars) == Threw(ResolveVariables(headers[i].1, vars).message)
  {
    var r := ResolveHeaderValues(headers, vars);
    assert r.Threw?;
    var i' :| 0 <= i' < |headers| && ResolveVariables(headers[i'].1, vars).Threw? &&
              r.message == ResolveVariables(headers[i'].1, vars).message &&
              forall j :: 0 <= j < i' ==> ResolveVariables(headers[j].1, vars).Done?;
    assert i' == i;
  }

  /** `POST /__api__/execute`. A failure to read the environments, a
      resolution that throws, or a failure to write the history entry ends in
      a 500 reply carrying the error's message; otherwise the executor's
      response is sent back after being recorded. */
  method ExecuteRoute(data: ExecutionData, storage: Storage, parse: string -> Parsed,
                      send: ExecuteRequest -> ExecuteResponse) returns (outcome: RouteOutcome)
    ensures ChooseVariables(data, storage, parse).Threw? ==>
              outcome == ServerError(ChooseVariables(data, storage, parse).message)
    ensures ChooseVariables(data, storage, parse).Done? ==>
              var vars := ChooseVariables(data, storage, parse).value;
              var sent := Prepare(data, vars, RouteCollectionHeaders(data, storage, vars, parse));
              sent.Threw? ==> outcome == ServerError(sent.message)
    ensures ChooseVariables(data, storage, parse).Done? ==>
              var vars := ChooseVariables(data, storage, parse).value;
              var sent := Prepare(data, vars, RouteCollectionHeaders(data, storage, vars, parse));
              sent.Done? ==>
                var record := HistoryRecordOf(sent.value, send(sent.value));
                outcome == if storage.addToHistory(record).Some? then ServerError(storage.addToHistory(record).value)
                           else Replied(send(sent.value), record)
  {
    var vars: VarSource;
    if data.variables.Some? {
      vars := data.variables.value;
    } else {
      var loaded := LoadVariablesFromStorage(storage, data.environmentId, parse);
      if loaded.Threw? {
        return ServerError(loaded.message);
      }
      vars := loaded.value;
    }

    var colHeaders := RouteCollectionHeaders(data, storage, vars, parse);
    var prepared := PrepareSteps(data, vars, colHeaders);
    if prepared.Threw? {
      return ServerError(prepared.message);
    }
    var request := prepared.value;
    var response := send(request);
    var record := HistoryRecordOf(request, response);
    var failure := storage.addToHistory(record);
    if failure.Some? {
      return ServerError(failure.value);
    }
    return Replied(response, record);
  }

  /** The route's statements from the header merge to the body: each
      resolution in turn, the first that throws leaving the `try`. */
  method PrepareSteps(data: ExecutionData, vars: VarSource, colHeaders: Dict<string>) returns (r: Fetch<ExecuteRequest>)
    ensures r == Prepare(data, vars, colHeaders)
  {
    var request := data.request;
    if data.requestId.Some? {
      request := request.(headers := Some(Merge(colHeaders, request.headers.GetOr([]))));
    }
    var url := ResolveVariables(request.url, vars);
    if url.Threw? {
      return Threw(url.message);
    }
    request := request.(url := url.value);
    if request.headers.Some? {
      var resolved := ResolveHeaders(request.headers.value, vars);
      if resolved.Threw? {
        return Threw(resolved.message);
      }
      request := request.(headers := Some(resolved.value));
    }
    if request.body.Some? {
      var body := ResolveVariables(request.body.value, vars);
      if body.Threw? {
        return Threw(body.message);
      }
      request := request.(body := Some(body.value));
    }
    return Done(request);
  }
}

=== FILE: server_export.dfy ===
/**
 * The server's collection exports (src/index.ts): the Postman v2.1 collection
 * built from a collection's requests, and the OpenAPI `paths` map.
 */
module ServerExport {
  import opened Options
  import opened Seqs
  import opened Strings
  import opened Dicts
  import opened Json

  /** A stored request as the exports read it; `headers` is JSON text, `None`
      standing for undefined or null, and so is `body`. */
  datatype StoredRequest = StoredRequest(
    name: string,
    httpMethod: string,
    url: string,
    headers: Option<string>,
    body: Option<string>)

  const PostmanSchema := "https://schema.getpostman.com/json/collection/v2.1.0/collection.json"

  datatype PostmanHeader = PostmanHeader(key: string, value: string, kind: string)

  datatype PostmanUrl = PostmanUrl(raw: string, host: seq<string>, path: seq<string>)

  /** A request item; its body is always `{mode: 'raw', raw, options: {raw: {language: 'json'}}}`. */
  datatype PostmanItem = PostmanItem(
    name: string,
    httpMethod: string,
    header: seq<PostmanHeader>,
    rawBody: string,
    url: PostmanUrl)

  datatype PostmanCollection = PostmanCollection(name: string, schema: string, item: seq<PostmanItem>)

  /** The entries of a request's header text: none without text, when the text
      does not parse, or when it parses to `null` (where `Object.entries` throws). */
  function HeaderEntries(headers: Option<string>, parse: string -> Parsed): (r: Dict<string>)
    ensures headers.None? || headers.value == [] ==> r == []
    ensures headers.Some? && headers.value != [] && parse(headers.value).Obj? ==> r == parse(headers.value).entries
    ensures headers.Some? && headers.value != [] && (parse(headers.value).Failed? || parse(headers.value).Null?) ==> r == []
    ensures headers.Some? && headers.value != [] && !parse(headers.value).Failed? && !parse(headers.value).Null? ==>
              Some(r) == Entries(parse(headers.value))
  {
    if headers.None? || headers.value == [] then []
    else
      var parsed := parse(headers.value);
      if parsed.Failed? then []
      else match Entries(parsed)
        case None => []
        case Some(entries) => entries
  }

  /** The header list pushed for one request: one `{key, value, type: 'text'}`
      per entry, in entry order. */
  method CollectHeaders(headers: Option<string>, parse: string -> Parsed) returns (list: seq<PostmanHeader>)
    ensures |list| == |HeaderEntries(headers, parse)|
    ensures forall i :: 0 <= i < |list| ==>
              list[i] == PostmanHeader(HeaderEntries(headers, parse)[i].0, HeaderEntries(headers, parse)[i].1, "text")
  {
    list := [];
    var entries := HeaderEntries(headers, parse);
    var i := 0;
    while i < |entries|
      invariant 0 <= i <= |entries|
      invariant |list| == i
      invariant forall j :: 0 <= j < i ==> list[j] == PostmanHeader(entries[j].0, entries[j].1, "text")
    {
      list := list + [PostmanHeader(entries[i].0, entries[i].1, "text")];
      i := i + 1;
    }
  }

  /** `s.split(sep)[1] ?? ''` where `sep` occurs, and `s` where it does not:
      the text after the first `sep`, up to the next one. */
  function AfterFirst(s: string, sep: string): (r: string)
    requires sep != []
    ensures !Contains(s, sep) ==> r == s
    ensures Contains(s, sep) ==>
              var rest := s[IndexOf(s, sep).value + |sep|..];
              r == if Contains(rest, sep) then rest[..IndexOf(rest, sep).value] else rest
    ensures !Contains(r, sep)
  {
    match IndexOf(s, sep)
    case None => s
    case Some(i) =>
      SplitSecond(s, sep, i);
      var rest := s[i + |sep|..];
      BeforeFirst(rest, sep);
      Split(s, sep)[1]
  }

  /** The first piece of a split is the text before the first separator, or
      the whole text without one. */
  lemma BeforeFirst(s: string, sep: string)
    requires sep != []
    ensures Split(s, sep)[0] == if Contains(s, sep) then s[..IndexOf(s, sep).value] else s
  {
    match IndexOf(s, sep)
    case None => SplitAbsent(s, sep);
    case Some(i) => SplitFirst(s, sep, i);
  }

  /** The part of a url after the first `://`, up to a second one, or the
      whole url without one. */
  function AfterScheme(url: string): (r: string)
    ensures !Contains(url, "://") ==> r == url
    ensures Contains(url, "://") ==>
              var rest := url[IndexOf(url, "://").value + 3..];
              r == if Contains(rest, "://") then rest[..IndexOf(rest, "://").value] else rest
  {
    AfterFirst(url, "://")
  }

  /** The host: what follows the scheme, up to the first `/`. */
  function Host(url: string): (r: string)
    ensures var a := AfterScheme(url);
            r == if Contains(a, "/") then a[..IndexOf(a, "/").value] else a
    ensures !Contains(r, "/")
  {
    var a := AfterScheme(url);
    BeforeFirst(a, "/");
    SplitPiecesFree(a, "/");
    Split(a, "/")[0]
  }

  /** The path: the `/`-free segments that, joined with `/`, give what
      follows the host; none when nothing does. */
  function Path(url: string): (r: seq<string>)
    ensures var a := AfterScheme(url);
            !Contains(a, "/") ==> r == []
    ensures var a := AfterScheme(url);
            Contains(a, "/") ==> r != [] && Join(r, "/") == a[IndexOf(a, "/").value + 1..]
    ensures forall k :: 0 <= k < |r| ==> !Contains(r[k], "/")
  {
    var a := AfterScheme(url);
    SplitPiecesFree(a, "/");
    match IndexOf(a, "/")
    case None =>
      SplitAbsent(a, "/");
      Split(a, "/")[1..]
    case Some(i) =>
      SplitFirst(a, "/", i);
      Split(a, "/")[1..]
  }

  /** Host and path joined with `/` give back what follows the scheme, and for
      a url without `://` the url itself. */
  lemma HostPathJoin(url: string)
    ensures Join([Host(url)] + Path(url), "/") == AfterScheme(url)
    ensures !Contains(url, "://") ==> Join([Host(url)] + Path(url), "/") == url
  {
    var parts := Split(AfterScheme(url), "/");
    assert [Host(url)] + Path(url) == parts;
    SplitJoin(AfterScheme(url), "/");
  }

  /** The item exported for one request. */
  function ItemOf(r: StoredRequest, parse: string -> Parsed): PostmanItem {
    var entries := HeaderEntries(r.headers, parse);
    PostmanItem(r.name, r.httpMethod,
      seq(|entries|, i requires 0 <= i < |entries| => PostmanHeader(entries[i].0, entries[i].1, "text")),
      r.body.GetOr(""), PostmanUrl(r.url, [Host(r.url)], Path(r.url)))
  }

  /** What the item for a request carries: its name, method, raw url and
      body (empty when absent), the url's host and path, and one `text`
      header per stored header entry, in order. */
  lemma ItemOfFields(r: StoredRequest, parse: string -> Parsed)
    ensures var item := ItemOf(r, parse);
            && item.name == r.name && item.httpMethod == r.httpMethod && item.url.raw == r.url
            && item.rawBody == (if r.body.Some? then r.body.value else "")
            && item.url.host == [Host(r.url)] && item.url.path == Path(r.url)
            && |item.header| == |HeaderEntries(r.headers, parse)|
            && forall i :: 0 <= i < |item.header| ==>
                 item.header[i] == PostmanHeader(HeaderEntries(r.headers, parse)[i].0, HeaderEntries(r.headers, parse)[i].1, "text")
  {
  }

  /** The body of the export loop: the item for one request, its header
      list pushed entry by entry. */
  method BuildItem(r: StoredRequest, parse: string -> Parsed) returns (item: PostmanItem)
    ensures item == ItemOf(r, parse)
  {
    var header := CollectHeaders(r.headers, parse);
    item := PostmanItem(r.name, r.httpMethod, header, r.body.GetOr(""),
                        PostmanUrl(r.url, [Host(r.url)], Path(r.url)));
  }

  /** The items of the export, one per request in request order. */
  function Items(requests: seq<StoredRequest>, parse: string -> Parsed): (r: seq<PostmanItem>)
    ensures |r| == |requests|
  {
    MapSeq(requests, (r: StoredRequest) => ItemOf(r, parse))
  }

  lemma ItemsAt(requests: seq<StoredRequest>, parse: string -> Parsed, i: nat)
    requires i < |requests|
    ensures Items(requests, parse)[i] == ItemOf(requests[i], parse)
  {
    MapSeqAt(requests, (r: StoredRequest) => ItemOf(r, parse), i);
  }

  lemma ItemsSnoc(requests: seq<StoredRequest>, parse: string -> Parsed, i: nat)
    requires i < |requests|
    ensures Items(requests[..i + 1], parse) == Items(requests[..i], parse) + [ItemOf(requests[i], parse)]
  {
    MapSeqSnoc(requests, (r: StoredRequest) => ItemOf(r, parse), i);
  }

  /** `buildPostmanCollection`: one item per request, in request order. */
  method BuildPostmanCollection(name: string, requests: seq<StoredRequest>, parse: string -> Parsed)
    returns (collection: PostmanCollection)
    ensures collection.name == name && collection.schema == PostmanSchema
    ensures collection.item == Items(requests, parse)
  {
    var items: seq<PostmanItem> := [];
    var i := 0;
    while i < |requests|
      invariant 0 <= i <= |requests|
      invariant items == Items(requests[..i], parse)
    {
      var item := BuildItem(requests[i], parse);
      ItemsSnoc(requests, parse, i);
      items := items + [item];
      i := i + 1;
    }
    TakeAll(requests);
    collection := PostmanCollection(name, PostmanSchema, items);
  }

  /** The export holds one item per request, the item of that request. */
  lemma CollectionItems(requests: seq<StoredRequest>, parse: string -> Parsed)
    ensures |Items(requests, parse)| == |requests|
    ensures forall i :: 0 <= i < |requests| ==> Items(requests, parse)[i] == ItemOf(requests[i], parse)
  {
    forall i | 0 <= i < |requests| ensures Items(requests, parse)[i] == ItemOf(requests[i], parse) {
      ItemsAt(requests, parse, i);
    }
  }

  /** An OpenAPI operation: `{summary, responses: {'200': {description: 'Success'}}}`. */
  datatype Operation = Operation(summary: string)

  /** The OpenAPI path of a request's url: the url itself when it starts with
      `/`, otherwise the url with `/` put in front. */
  function PathName(url: string): (p: string)
    ensures |p| > 0 && p[0] == '/'
    ensures StartsWith(url, "/") ==> p == url
    ensures !StartsWith(url, "/") ==> p == "/" + url
  {
    if StartsWith(url, "/") then url else "/" + url
  }

  /** A path name is already a path. */
  lemma PathNameIdempotent(url: string)
    ensures PathName(PathName(url)) == PathName(url)
  {
    assert StartsWith(PathName(url), "/");
  }

  /** The OpenAPI document's `paths[path][method.toLowerCase()] = operation` for one request. */
  function AddOperation(paths: Dict<Dict<Operation>>, r: StoredRequest): Dict<Dict<Operation>> {
    var p := PathName(r.url);
    Put(paths, p, Put(Get(paths, p).GetOr([]), ToLower(r.httpMethod), Operation(r.name)))
  }

  /** The paths map after the requests have been added in order. */
  function PathsOf(requests: seq<StoredRequest>): Dict<Dict<Operation>>
    decreases |requests|
  {
    if requests == [] then []
    else AddOperation(PathsOf(requests[..|requests| - 1]), requests[|requests| - 1])
  }

  /** The request that decides the operation under `(path, method)`: the last
      one with that path and lower-cased method. */
  predicate LastFor(requests: seq<StoredRequest>, i: nat, path: string, verb: string) {
    i < |requests| && PathName(requests[i].url) == path && ToLower(requests[i].httpMethod) == verb &&
    forall j :: i < j < |requests| ==> !(PathName(requests[j].url) == path && ToLower(requests[j].httpMethod) == verb)
  }

  /** Every request's path and method appear in the map, with the summary of
      the last request that shares them; no other path appears. */
  lemma {:induction false} PathsOfLastWins(requests: seq<StoredRequest>, i: nat, path: string, verb: string)
    requires LastFor(requests, i, path, verb)
    ensures Get(PathsOf(requests), path).Some?
    ensures Get(Get(PathsOf(requests), path).value, verb) == Some(Operation(requests[i].name))
    decreases |requests|
  {
    var init := requests[..|requests| - 1];
    var last := requests[|requests| - 1];
    if i < |requests| - 1 {
      assert LastFor(init, i, path, verb);
      PathsOfLastWins(init, i, path, verb);
    }
  }

  lemma AddOperationKeys(paths: Dict<Dict<Operation>>, r: StoredRequest)
    ensures Keys(AddOperation(paths, r)) == Keys(paths) + {PathName(r.url)}
  {
  }

  /** The path names of the requests' urls, in request order. */
  function UrlPaths(requests: seq<StoredRequest>): (ps: seq<string>)
    ensures |ps| == |requests|
    decreases |requests|
  {
    if requests == [] then []
    else UrlPaths(requests[..|requests| - 1]) + [PathName(requests[|requests| - 1].url)]
  }

  lemma {:induction false} UrlPathsAt(requests: seq<StoredRequest>, i: nat)
    requires i < |requests|
    ensures UrlPaths(requests)[i] == PathName(requests[i].url)
    decreases |requests|
  {
    var n := |requests| - 1;
    if i < n {
      UrlPathsAt(requests[..n], i);
    }
  }

  /** The path names of the requests' urls. */
  function PathNames(requests: seq<StoredRequest>): set<string> {
    Elements(UrlPaths(requests))
  }

  function Elements(xs: seq<string>): set<string> {
    set x | x in xs
  }

  /** A path is among the path names exactly when some request's url has it. */
  lemma PathNamesMembers(requests: seq<StoredRequest>, p: string)
    ensures p in PathNames(requests) <==> exists i :: 0 <= i < |requests| && PathName(requests[i].url) == p
  {
    var ps := UrlPaths(requests);
    if p in PathNames(requests) {
      var i :| 0 <= i < |ps| && ps[i] == p;
      UrlPathsAt(requests, i);
    }
    if exists i :: 0 <= i < |requests| && PathName(requests[i].url) == p {
      var i :| 0 <= i < |requests| && PathName(requests[i].url) == p;
      UrlPathsAt(requests, i);
      assert ps[i] in ps;
    }
  }

  lemma PathNamesSnoc(requests: seq<StoredRequest>)
    requires requests != []
    ensures PathNames(requests) == PathNames(requests[..|requests| - 1]) + {PathName(requests[|requests| - 1].url)}
  {
    var n := |requests| - 1;
    var init := UrlPaths(requests[..n]);
    var ps := init + [PathName(requests[n].url)];
    assert forall x :: x in ps <==> x in init || x == PathName(requests[n].url);
  }

  /** The paths of the map are exactly the path names of the requests. */
  lemma {:induction false} PathsOfKeys(requests: seq<StoredRequest>)
    ensures Keys(PathsOf(requests)) == PathNames(requests)
    decreases |requests|
  {
    if requests != [] {
      var n := |requests| - 1;
      PathsOfKeys(requests[..n]);
      AddOperationKeys(PathsOf(requests[..n]), requests[n]);
      PathNamesSnoc(requests);
    }
  }

  lemma PathsOfSnoc(requests: seq<StoredRequest>, i: nat)
    requires i < |requests|
    ensures PathsOf(requests[..i + 1]) == AddOperation(PathsOf(requests[..i]), requests[i])
  {
    assert requests[..i + 1][..i] == requests[..i];
  }

  /** The OpenAPI export's `forEach` over the requests. */
  method OpenApiPaths(requests: seq<StoredRequest>) returns (paths: Dict<Dict<Operation>>)
    ensures paths == PathsOf(requests)
  {
    paths := [];
    var i := 0;
    while i < |requests|
      invariant 0 <= i <= |requests|
      invariant paths == PathsOf(requests[..i])
    {
      var r := requests[i];
      ghost var before := paths;
      var pathName := PathName(r.url);
      var operations := Get(paths, pathName).GetOr([]);
      paths := Put(paths, pathName, Put(operations, ToLower(r.httpMethod), Operation(r.name)));
      assert paths == AddOperation(before, r);
      PathsOfSnoc(requests, i);
      i := i + 1;
    }
    assert requests[..|requests|] == requests;
  }
}

=== FILE: sidebar.dfy ===
/**
 * The automatic folders of a collection in the sidebar
 * (ui-src/src/components/Sidebar.tsx): `organizeIntoFolders` files each
 * request under the first meaningful segment of its path, and the collection
 * view lists, after the folders, the requests no folder holds.
 */
module Sidebar {
  import opened Options
  import opened Strings
  import opened Dicts
  import opened ClientTypes

  /** A folder of requests; the automatic folders have no sub-folders. */
  datatype Folder = Folder(id: string, name: string, requests: seq<RequestItem>, folders: seq<Folder>)

  /** The path segments that can name a folder: not empty, not `api` or
      `v1`, not a `:param` and not a `{{variable}}`. */
  predicate IsFolderSegment(s: string) {
    s != [] && s != "api" && s != "v1" && !StartsWith(s, ":") && !StartsWith(s, "{{")
  }

  /** `segments.filter(...)`: the folder segments, in path order. The first
      of them is the first folder segment of the path. */
  function FolderSegments(segments: seq<string>): (r: seq<string>)
    ensures forall x :: x in r ==> IsFolderSegment(x)
    ensures r == [] <==> forall i :: 0 <= i < |segments| ==> !IsFolderSegment(segments[i])
    ensures r != [] ==> exists i :: 0 <= i < |segments| && segments[i] == r[0] &&
                                    forall j :: 0 <= j < i ==> !IsFolderSegment(segments[j])
    decreases |segments|
  {
    if segments == [] then []
    else
      var rest := FolderSegments(segments[1..]);
      if IsFolderSegment(segments[0]) then [segments[0]] + rest
      else
        assert forall i :: 1 <= i < |segments| ==> segments[i] == segments[1..][i - 1];
        if rest == [] then rest
        else
          var i :| 0 <= i < |segments[1..]| && segments[1..][i] == rest[0] &&
                   forall j :: 0 <= j < i ==> !IsFolderSegment(segments[1..][j]);
          assert segments[i + 1] == rest[0];
          rest
  }

  /** The text grouped on: the second space-separated token of the name
      (`"POST /api/users"` gives `/api/users`) when the name has a space,
      the url otherwise. */
  function GroupingPath(req: RequestItem): (path: string)
    ensures Contains(req.name, " ") ==> path == Split(req.name, " ")[1]
    ensures !Contains(req.name, " ") ==> path == req.url
  {
    var nameParts := Split(req.name, " ");
    SplitCount(req.name, " ");
    if |nameParts| > 1 then nameParts[1] else req.url
  }

  /** A separator splits a string in more than one part exactly when it
      occurs in it. */
  lemma SplitCount(s: string, sep: string)
    requires sep != []
    ensures |Split(s, sep)| > 1 <==> Contains(s, sep)
  {
    match IndexOf(s, sep)
    case Some(i) => SplitFirst(s, sep, i);
    case None => SplitAbsent(s, sep);
  }

  /** The folder a request goes to: the first folder segment of its
      grouping path, if any. */
  function FolderKey(req: RequestItem): Option<string> {
    var segments := FolderSegments(Split(GroupingPath(req), "/"));
    if |segments| > 0 then Some(segments[0]) else None
  }

  /** `folderName.charAt(0).toUpperCase() + folderName.slice(1)` */
  function Capitalize(s: string): (r: string)
    ensures |r| == |s|
    ensures s != [] ==> r[0] == UpperChar(s[0]) && r[1..] == s[1..]
  {
    if s == [] then [] else [UpperChar(s[0])] + s[1..]
  }

  /** A folder as it is first created for segment `k`. */
  function NewFolder(k: string): Folder {
    Folder("folder-" + k, Capitalize(k), [], [])
  }

  /** One request filed: a missing folder is created, then the request is
      appended to the folder's list. A request without a folder segment
      changes nothing. */
  function AddToFolder(d: Dict<Folder>, key: Option<string>, req: RequestItem): Dict<Folder> {
    match key
    case None => d
    case Some(k) =>
      var d1 := if Get(d, k).None? then Put(d, k, NewFolder(k)) else d;
      var folder := Get(d1, k).value;
      Put(d1, k, folder.(requests := folder.requests + [req]))
  }

  /** The folder object after filing each request under its key, in order. */
  function GroupPairs(ps: seq<(Option<string>, RequestItem)>): Dict<Folder>
    decreases |ps|
  {
    if ps == [] then []
    else AddToFolder(GroupPairs(ps[..|ps| - 1]), ps[|ps| - 1].0, ps[|ps| - 1].1)
  }

  /** The requests filed under `k`, in order. */
  function InFolderPairs(ps: seq<(Option<string>, RequestItem)>, k: string): (r: seq<RequestItem>)
    ensures forall x :: x in r <==> exists i :: 0 <= i < |ps| && ps[i] == (Some(k), x)
    decreases |ps|
  {
    if ps == [] then []
    else
      var n := |ps| - 1;
      var init := InFolderPairs(ps[..n], k);
      assert forall i :: 0 <= i < n ==> ps[..n][i] == ps[i];
      if ps[n].0 == Some(k) then init + [ps[n].1] else init
  }

  lemma GroupPairsSnoc(ps: seq<(Option<string>, RequestItem)>, i: nat)
    requires i < |ps|
    ensures GroupPairs(ps[..i + 1]) == AddToFolder(GroupPairs(ps[..i]), ps[i].0, ps[i].1)
  {
    assert ps[..i + 1][..i] == ps[..i];
  }

  /** A folder holds exactly the requests filed under its segment, in input
      order; its id is `folder-` and the segment, its name the segment with
      the first character upper-cased. A segment nothing was filed under has
      no folder. */
  lemma {:induction false} GroupPairsContents(ps: seq<(Option<string>, RequestItem)>, k: string)
    ensures Get(GroupPairs(ps), k) ==
              if InFolderPairs(ps, k) == [] then None
              else Some(Folder("folder-" + k, Capitalize(k), InFolderPairs(ps, k), []))
    decreases |ps|
  {
    if ps != [] {
      var n := |ps| - 1;
      GroupPairsContents(ps[..n], k);
    }
  }

  /** Each request paired with its folder key. */
  function Keyed(reqs: seq<RequestItem>): (ps: seq<(Option<string>, RequestItem)>)
    ensures |ps| == |reqs|
    ensures forall i :: 0 <= i < |reqs| ==> ps[i] == (FolderKey(reqs[i]), reqs[i])
  {
    seq(|reqs|, i requires 0 <= i < |reqs| => (FolderKey(reqs[i]), reqs[i]))
  }

  /** The folder object `organizeIntoFolders` builds. */
  function Grouped(reqs: seq<RequestItem>): Dict<Folder> {
    GroupPairs(Keyed(reqs))
  }

  /** The requests of `reqs` whose folder segment is `k`, in input order. */
  function InFolder(reqs: seq<RequestItem>, k: string): (r: seq<RequestItem>)
    ensures forall x :: x in r <==> x in reqs && FolderKey(x) == Some(k)
  {
    var ps := Keyed(reqs);
    var r := InFolderPairs(ps, k);
    assert forall x :: x in reqs ==> exists i :: 0 <= i < |reqs| && reqs[i] == x;
    r
  }

  /** `organizeIntoFolders`: files every request in a `forEach`, creating
      folders on first use, and lists the folders in creation order. */
  method OrganizeIntoFolders(requests: seq<RequestItem>) returns (folders: seq<Folder>)
    ensures folders == Values(Grouped(requests))
  {
    var rootFolders: Dict<Folder> := [];
    ghost var ps := Keyed(requests);
    for i := 0 to |requests|
      invariant rootFolders == GroupPairs(ps[..i])
    {
      var req := requests[i];
      ghost var before := rootFolders;
      var nameParts := Split(req.name, " ");
      var path := if |nameParts| > 1 then nameParts[1] else req.url;
      assert path == GroupingPath(req);
      var segments := FolderSegments(Split(path, "/"));
      if |segments| > 0 {
        var folderName := segments[0];
        if Get(rootFolders, folderName).None? {
          rootFolders := Put(rootFolders, folderName, NewFolder(folderName));
        }
        var folder := Get(rootFolders, folderName).value;
        rootFolders := Put(rootFolders, folderName, folder.(requests := folder.requests + [req]));
      }
      assert rootFolders == AddToFolder(before, FolderKey(req), req);
      GroupPairsSnoc(ps, i);
    }
    assert ps[..|requests|] == ps;
    folders := Values(rootFolders);
  }

  /** Every listed folder is the folder of some segment, holding exactly
      the requests filed under it, in input order. */
  lemma FolderListed(reqs: seq<RequestItem>, f: Folder)
    requires f in Values(Grouped(reqs))
    ensures exists k :: InFolder(reqs, k) != [] &&
                        f == Folder("folder-" + k, Capitalize(k), InFolder(reqs, k), [])
  {
    var d := Grouped(reqs);
    var i :| 0 <= i < |d| && d[i].1 == f;
    GetEntry(d, i);
    GroupPairsContents(Keyed(reqs), d[i].0);
  }

  /** A request with a folder segment is in the folder of that segment. */
  lemma FiledInItsFolder(reqs: seq<RequestItem>, r: RequestItem, k: string)
    requires r in reqs && FolderKey(r) == Some(k)
    ensures Get(Grouped(reqs), k).Some? && r in Get(Grouped(reqs), k).value.requests
    ensures Get(Grouped(reqs), k).value in Values(Grouped(reqs))
  {
    var d := Grouped(reqs);
    GroupPairsContents(Keyed(reqs), k);
    assert r in InFolder(reqs, k);
    var i := LastIndex(d, k).value;
    assert Values(d)[i] == d[i].1;
  }

  /** Some folder of the list holds `r`. */
  predicate InSomeFolder(folders: seq<Folder>, r: RequestItem) {
    exists f :: f in folders && r in f.requests
  }

  /** The leftover list of the collection view: the requests no folder
      holds, in input order. */
  function Leftovers(reqs: seq<RequestItem>, folders: seq<Folder>): (r: seq<RequestItem>)
    ensures forall x :: x in r <==> x in reqs && !InSomeFolder(folders, x)
    decreases |reqs|
  {
    if reqs == [] then []
    else
      var rest := Leftovers(reqs[1..], folders);
      assert forall x :: x in reqs <==> x == reqs[0] || x in reqs[1..];
      if InSomeFolder(folders, reqs[0]) then rest else [reqs[0]] + rest
  }

  /** A request is in a folder exactly when its grouping path has a folder
      segment. */
  lemma InSomeFolderIff(reqs: seq<RequestItem>, r: RequestItem)
    requires r in reqs
    ensures InSomeFolder(Values(Grouped(reqs)), r) <==> FolderKey(r).Some?
  {
    var folders := Values(Grouped(reqs));
    if FolderKey(r).Some? {
      FiledInItsFolder(reqs, r, FolderKey(r).value);
    } else {
      forall f | f in folders ensures r !in f.requests {
        FolderListed(reqs, f);
      }
    }
  }

  /** The folders and the leftover list together show every request, each
      in exactly one place: the leftovers are the requests without a folder
      segment. */
  lemma FoldersAndLeftoversPartition(reqs: seq<RequestItem>, r: RequestItem)
    requires r in reqs
    ensures r in Leftovers(reqs, Values(Grouped(reqs))) <==> FolderKey(r).None?
    ensures r in Leftovers(reqs, Values(Grouped(reqs))) <==> !InSomeFolder(Values(Grouped(reqs)), r)
  {
    InSomeFolderIff(reqs, r);
  }
}

=== FILE: storage_utils.dfy ===
/**
 * Tab and settings persistence of the browser client
 * (ui-src/src/app/_scripts/storageUtils.ts): the shape of a new tab, what a
 * tab looks like when saved and when restored, the restored active tab, and
 * saved settings laid over the defaults. `localStorage` is left out: what it
 * holds is passed in, and `JSON.parse` is a parameter.
 */
module StorageUtils {
  import opened Options
  import opened Strings
  import opened Dicts
  import opened Json
  import opened ClientTypes

  /** `createNewTab`; the `tab-<time>` id is passed in. */
  function NewTab(id: string): (t: RequestTab)
    ensures t.id == id && t.name == "New Request" && t.httpMethod == "GET"
    ensures t.url == [] && t.body == [] && t.bodyType == JsonBodyType
    ensures t.headers == [BlankHeader] && t.formData == [BlankFormRow]
    ensures t.response.None? && !t.executing
    ensures t.savedRequestId.None? && t.serverUpdatedAt.None?
  {
    RequestTab(id, "New Request", "GET", "", [BlankHeader], "", JsonBodyType, [BlankFormRow],
               None, false, None, None, None, None)
  }

  /** `formData.map(f => ({ ...f, file: null }))` */
  function WithoutFiles(rows: seq<FormRow>): (r: seq<FormRow>)
    ensures |r| == |rows|
    ensures forall i :: 0 <= i < |rows| ==> r[i] == rows[i].(file := None)
  {
    seq(|rows|, i requires 0 <= i < |rows| => rows[i].(file := None))
  }

  /** What `saveTabsToStorage` writes for one tab: no files, no response. */
  function SavedTab(t: RequestTab): (r: RequestTab)
    ensures forall i :: 0 <= i < |r.formData| ==> r.formData[i].file.None?
    ensures r.response.None?
    ensures r == t.(formData := r.formData, response := None)
    ensures |r.formData| == |t.formData| &&
            forall i :: 0 <= i < |t.formData| ==> r.formData[i] == t.formData[i].(file := None)
  {
    t.(formData := WithoutFiles(t.formData), response := None)
  }

  /** Saving a saved tab changes nothing more. */
  lemma SavedTabIdempotent(t: RequestTab)
    ensures SavedTab(SavedTab(t)) == SavedTab(t)
  {
    var s := SavedTab(t);
    assert SavedTab(s).formData == s.formData;
  }

  /** A stored tab as `JSON.parse` gives it back; `formData` may be missing
      from what was stored. */
  datatype StoredTab = StoredTab(tab: RequestTab, hasFormData: bool)

  /** The outcome of parsing the saved tab list. */
  datatype StoredTabs = Unparsable | NotAnArray | TabArray(items: seq<StoredTab>)

  /** One restored tab: files dropped, not executing, one blank text row
      when the stored tab had no form data. */
  function RestoredTab(st: StoredTab): (r: RequestTab)
    ensures !r.executing
    ensures forall i :: 0 <= i < |r.formData| ==> r.formData[i].file.None?
    ensures !st.hasFormData ==> r.formData == [BlankFormRow]
    ensures st.hasFormData ==> r.formData == WithoutFiles(st.tab.formData)
    ensures r == st.tab.(formData := r.formData, executing := false)
  {
    var formData := if st.hasFormData then WithoutFiles(st.tab.formData) else [BlankFormRow];
    st.tab.(formData := formData, executing := false)
  }

  function RestoredTabs(items: seq<StoredTab>): (r: seq<RequestTab>)
    ensures |r| == |items| && forall i :: 0 <= i < |items| ==> r[i] == RestoredTab(items[i])
  {
    seq(|items|, i requires 0 <= i < |items| => RestoredTab(items[i]))
  }

  /** `loadTabsFromStorage`, given the two stored strings (`None` when the
      key is missing): `null` unless the tab list is a non-empty array; the
      active id is the saved one when there is one, else the first tab's. */
  function LoadTabs(savedTabs: Option<string>, savedActiveTab: Option<string>,
                    parse: string -> StoredTabs): (r: Option<TabsState>)
    ensures r.Some? <==> savedTabs.Some? && savedTabs.value != [] &&
                         parse(savedTabs.value).TabArray? && parse(savedTabs.value).items != []
    ensures r.Some? ==> r.value.tabs == RestoredTabs(parse(savedTabs.value).items)
    ensures r.Some? ==> r.value.activeTabId == savedActiveTab.GetOr(r.value.tabs[0].id)
  {
    if savedTabs.None? || savedTabs.value == [] then None
    else match parse(savedTabs.value)
      case TabArray(items) =>
        if |items| > 0 then
          var restored := RestoredTabs(items);
          Some(TabsState(restored, savedActiveTab.GetOr(restored[0].id)))
        else None
      case _ => None
  }

  /** Reading back what was saved: when the saved text parses back to the
      saved tabs, the same tabs return in order, without files or response
      and not executing, with the saved active id. */
  lemma SaveLoadRoundTrip(tabs: seq<RequestTab>, activeTabId: string, text: string,
                          parse: string -> StoredTabs)
    requires tabs != [] && text != []
    requires parse(text) == TabArray(seq(|tabs|, i requires 0 <= i < |tabs| => StoredTab(SavedTab(tabs[i]), true)))
    ensures LoadTabs(Some(text), Some(activeTabId), parse).Some?
    ensures var s := LoadTabs(Some(text), Some(activeTabId), parse).value;
            s.activeTabId == activeTabId && |s.tabs| == |tabs| &&
            forall i :: 0 <= i < |tabs| ==> s.tabs[i] == SavedTab(tabs[i]).(executing := false)
  {
    var s := LoadTabs(Some(text), Some(activeTabId), parse).value;
    forall i | 0 <= i < |tabs| ensures s.tabs[i] == SavedTab(tabs[i]).(executing := false) {
      var saved := SavedTab(tabs[i]);
      assert RestoredTab(StoredTab(saved, true)).formData == saved.formData;
    }
  }

  /** A new tab comes back from storage as it was. */
  lemma NewTabSurvivesStorage(id: string)
    ensures RestoredTab(StoredTab(SavedTab(NewTab(id)), true)) == NewTab(id)
  {
    assert WithoutFiles([BlankFormRow]) == [BlankFormRow];
  }

  /** `loadSettingsFromStorage`: outside a browser, without a saved value,
      or when it does not parse, the defaults; otherwise the defaults with
      the saved object's properties spread over them. */
  function LoadSettings(inBrowser: bool, saved: Option<string>, defaults: Dict<string>,
                        parse: string -> Parsed): (r: Dict<string>)
    ensures !inBrowser || saved.None? || saved == Some([]) ==> r == defaults
    ensures inBrowser && saved.Some? && parse(saved.value).Failed? ==> r == defaults
    ensures inBrowser && saved.Some? && saved.value != [] && parse(saved.value).Obj? ==>
              var entries := parse(saved.value).entries;
              Keys(r) == Keys(defaults) + Keys(entries) &&
              forall k :: Get(r, k) == if k in Keys(entries) then Get(entries, k) else Get(defaults, k)
    ensures inBrowser && saved.Some? && saved.value != [] && parse(saved.value).Null? ==>
              forall k :: Get(r, k) == Get(defaults, k)
    ensures inBrowser && saved.Some? && saved.value != [] && !parse(saved.value).Failed? ==>
              var spread := Spread(parse(saved.value));
              Keys(r) == Keys(defaults) + Keys(spread) &&
              forall k :: Get(r, k) == if k in Keys(spread) then Get(spread, k) else Get(defaults, k)
  {
    if !inBrowser || saved.None? || saved.value == [] then defaults
    else
      var parsed := parse(saved.value);
      if parsed.Failed? then defaults
      else Merge(defaults, Spread(parsed))
  }
}

=== FILE: strings.dfy ===
/**
 * The JavaScript string built-ins the modelled code relies on: `trim`,
 * `indexOf`/`includes`/`startsWith`, `split`/`join`, ASCII case mapping and
 * the decimal rendering of integers in template literals.
 */
module Strings {
  import opened Options

  /** The code points JavaScript's `trim` removes and its `\s` class matches
      (WhiteSpace and LineTerminator of ECMA-262). */
  predicate IsWhitespace(c: char) {
    || c == ' ' || c == '\t' || c == '\n' || c == '\U{000B}' || c == '\U{000C}' || c == '\r'
    || c == '\U{00A0}' || c == '\U{1680}' || ('\U{2000}' <= c <= '\U{200A}')
    || c == '\U{2028}' || c == '\U{2029}' || c == '\U{202F}' || c == '\U{205F}'
    || c == '\U{3000}' || c == '\U{FEFF}'
  }

  /** `s.trimStart()`: the longest suffix of `s` that does not start with whitespace. */
  function TrimStart(s: string): (r: string)
    ensures |r| <= |s| && r == s[|s| - |r|..]
    ensures forall i :: 0 <= i < |s| - |r| ==> IsWhitespace(s[i])
    ensures r != [] ==> !IsWhitespace(r[0])
  {
    if s != [] && IsWhitespace(s[0]) then TrimStart(s[1..]) else s
  }

  /** `s.trimEnd()`: the longest prefix of `s` that does not end with whitespace. */
  function TrimEnd(s: string): (r: string)
    ensures |r| <= |s| && r == s[..|r|]
    ensures forall i :: |r| <= i < |s| ==> IsWhitespace(s[i])
    ensures r != [] ==> !IsWhitespace(r[|r| - 1])
  {
    if s != [] && IsWhitespace(s[|s| - 1]) then TrimEnd(s[..|s| - 1]) else s
  }

  /** `s.trim()` */
  function Trim(s: string): (r: string)
    ensures |r| <= |s|
    ensures r != [] ==> !IsWhitespace(r[0]) && !IsWhitespace(r[|r| - 1])
    ensures r == [] <==> forall i :: 0 <= i < |s| ==> IsWhitespace(s[i])
  {
    var t := TrimStart(s);
    var r := TrimEnd(t);
    assert r == [] ==> t == [] by {
      if t != [] { assert !IsWhitespace(t[0]); }
    }
    r
  }

  /** What `trim` keeps is the infix of `s` between a run of leading and a
      run of trailing whitespace, starting after the leading run. */
  lemma TrimInfix(s: string)
    ensures var a := |s| - |TrimStart(s)|;
            && a + |Trim(s)| <= |s|
            && Trim(s) == s[a..a + |Trim(s)|]
            && (forall i :: 0 <= i < a ==> IsWhitespace(s[i]))
            && (forall i :: a + |Trim(s)| <= i < |s| ==> IsWhitespace(s[i]))
  {
    var t := TrimStart(s);
    var r := TrimEnd(t);
    assert Trim(s) == r;
    InfixOfSuffix(s, t, r);
  }

  /** A prefix `r` of a suffix `t` of `s` whose tail after `r` is whitespace
      sits at `|s| - |t|` with only whitespace after it. */
  lemma InfixOfSuffix(s: string, t: string, r: string)
    requires |t| <= |s| && t == s[|s| - |t|..]
    requires |r| <= |t| && r == t[..|r|] && forall i :: |r| <= i < |t| ==> IsWhitespace(t[i])
    ensures var a := |s| - |t|;
            r == s[a..a + |r|] && forall i :: a + |r| <= i < |s| ==> IsWhitespace(s[i])
  {
    var a := |s| - |t|;
    forall i | a + |r| <= i < |s| ensures IsWhitespace(s[i]) {
      assert s[i] == t[i - a];
    }
  }

  /** Trimming leaves a string alone when it is empty or neither starts nor ends
      with whitespace. */
  lemma TrimmedUnchanged(s: string)
    requires s == [] || (!IsWhitespace(s[0]) && !IsWhitespace(s[|s| - 1]))
    ensures Trim(s) == s
  {
  }

  /** One space on each side of a word is trimmed away. */
  lemma TrimPadded(w: string)
    requires w != [] && !IsWhitespace(w[0]) && !IsWhitespace(w[|w| - 1])
    ensures Trim(" " + w + " ") == w
  {
    var s := " " + w + " ";
    assert s[1..] == w + " ";
    assert TrimStart(s) == TrimStart(w + " ");
    assert (w + " ")[0] == w[0];
    assert TrimStart(w + " ") == w + " ";
    assert (w + " ")[..|w|] == w;
    assert TrimEnd(w + " ") == TrimEnd(w);
  }

  /** Trimming twice is trimming once. */
  lemma TrimIdempotent(s: string)
    ensures Trim(Trim(s)) == Trim(s)
  {
    TrimmedUnchanged(Trim(s));
  }

  /** A blank string (the source's `!s.trim()`) is one made only of whitespace. */
  predicate IsBlank(s: string) {
    Trim(s) == []
  }

  /** `sep` occurs in `s` at index `j`. */
  predicate OccursAt(s: string, sep: string, j: int) {
    0 <= j && j + |sep| <= |s| && s[j..j + |sep|] == sep
  }

  /** `s.indexOf(sep)`, with `None` for -1. */
  function IndexOf(s: string, sep: string): (r: Option<nat>)
    ensures r.Some? ==> OccursAt(s, sep, r.value)
    ensures r.Some? ==> forall j :: 0 <= j < r.value ==> !OccursAt(s, sep, j)
    ensures r.None? ==> forall j :: 0 <= j <= |s| ==> !OccursAt(s, sep, j)
    decreases |s|
  {
    if |s| < |sep| then None
    else if s[..|sep|] == sep then Some(0)
    else
      OccursShift(s, sep);
      match IndexOf(s[1..], sep)
      case None => None
      case Some(i) => Some(i + 1)
  }

  /** An occurrence past the first character is an occurrence in the rest. */
  lemma OccursShift(s: string, sep: string)
    requires s != []
    ensures forall j :: 1 <= j <= |s| ==> (OccursAt(s, sep, j) <==> OccursAt(s[1..], sep, j - 1))
  {
    forall k | 0 <= k && k + 1 + |sep| <= |s|
      ensures OccursAt(s, sep, k + 1) <==> OccursAt(s[1..], sep, k)
    {
      assert s[1..][k..k + |sep|] == s[k + 1..k + 1 + |sep|];
    }
  }

  /** `s.includes(sub)` */
  predicate Contains(s: string, sub: string) {
    IndexOf(s, sub).Some?
  }

  /** `s.startsWith(p)` */
  predicate StartsWith(s: string, p: string) {
    |p| <= |s| && s[..|p|] == p
  }

  /** `s.endsWith(p)` */
  predicate EndsWith(s: string, p: string) {
    |p| <= |s| && s[|s| - |p|..] == p
  }

  /** A prefix that stops before the first occurrence of `sep` holds no occurrence of it. */
  lemma PrefixBeforeFirst(s: string, sep: string, i: nat)
    requires sep != [] && i <= |s|
    requires forall j :: 0 <= j < i ==> !OccursAt(s, sep, j)
    ensures !Contains(s[..i], sep)
  {
    forall j | 0 <= j <= i && OccursAt(s[..i], sep, j)
      ensures false
    {
      assert s[..i][j..j + |sep|] == s[j..j + |sep|];
      assert OccursAt(s, sep, j);
    }
  }

  /** `s.split(sep)` for a non-empty separator: the pieces between the
      non-overlapping occurrences of `sep`, scanning left to right. */
  function Split(s: string, sep: string): (parts: seq<string>)
    requires sep != []
    ensures |parts| >= 1 && StartsWith(s, parts[0])
    decreases |s|
  {
    match IndexOf(s, sep)
    case None => [s]
    case Some(i) => [s[..i]] + Split(s[i + |sep|..], sep)
  }

  /** No piece of a split holds the separator. */
  lemma {:induction false} SplitPiecesFree(s: string, sep: string)
    requires sep != []
    ensures forall k :: 0 <= k < |Split(s, sep)| ==> !Contains(Split(s, sep)[k], sep)
    decreases |s|
  {
    match IndexOf(s, sep)
    case None =>
    case Some(i) =>
      PrefixBeforeFirst(s, sep, i);
      SplitPiecesFree(s[i + |sep|..], sep);
      SplitUnfold(s, sep, i);
  }

  /** `parts.join(sep)` */
  function Join(parts: seq<string>, sep: string): string
  {
    if |parts| == 0 then ""
    else if |parts| == 1 then parts[0]
    else parts[0] + sep + Join(parts[1..], sep)
  }

  /** Joining the pieces of a split with the same separator gives the string back. */
  lemma {:induction false} SplitJoin(s: string, sep: string)
    requires sep != []
    ensures Join(Split(s, sep), sep) == s
    decreases |s|
  {
    match IndexOf(s, sep)
    case None =>
    case Some(i) =>
      SplitJoin(s[i + |sep|..], sep);
      SplitUnfold(s, sep, i);
      JoinAround(s, sep, i, Split(s[i + |sep|..], sep));
  }

  /** The text before an occurrence of `sep`, then pieces that join back to
      the text after it, join back to the whole text. */
  lemma JoinAround(s: string, sep: string, i: nat, rest: seq<string>)
    requires OccursAt(s, sep, i) && rest != []
    requires Join(rest, sep) == s[i + |sep|..]
    ensures Join([s[..i]] + rest, sep) == s
  {
    JoinCons(s[..i], rest, sep);
    Reassemble(s, i, i + |sep|);
  }

  lemma PrefixSuffix(s: string, k: nat)
    requires k <= |s|
    ensures s[..k] + s[k..] == s
  {
  }

  lemma Reassemble(s: string, i: nat, j: nat)
    requires i <= j <= |s|
    ensures s[..i] + s[i..j] + s[j..] == s
  {
  }

  lemma JoinCons(first: string, rest: seq<string>, sep: string)
    requires rest != []
    ensures Join([first] + rest, sep) == first + sep + Join(rest, sep)
  {
    assert ([first] + rest)[1..] == rest;
  }

  /** One step of a split: the text before the first `sep`, then the split
      of the text after it. */
  lemma SplitUnfold(s: string, sep: string, i: nat)
    requires sep != [] && IndexOf(s, sep) == Some(i)
    ensures Split(s, sep) == [s[..i]] + Split(s[i + |sep|..], sep)
  {
  }

  /** When `sep` occurs, the first piece is the text before its first occurrence
      and the remaining pieces, joined back, are the text after it. */
  lemma SplitFirst(s: string, sep: string, i: nat)
    requires sep != [] && IndexOf(s, sep) == Some(i)
    ensures |Split(s, sep)| >= 2
    ensures Split(s, sep)[0] == s[..i]
    ensures Join(Split(s, sep)[1..], sep) == s[i + |sep|..]
  {
    var tail := s[i + |sep|..];
    SplitUnfold(s, sep, i);
    SplitJoin(tail, sep);
    assert Split(s, sep)[1..] == Split(tail, sep);
  }

  /** When `sep` occurs, the second piece is the first piece of the text
      after it, and holds no `sep`. */
  lemma SplitSecond(s: string, sep: string, i: nat)
    requires sep != [] && IndexOf(s, sep) == Some(i)
    ensures |Split(s, sep)| >= 2
    ensures Split(s, sep)[1] == Split(s[i + |sep|..], sep)[0]
    ensures StartsWith(s[i + |sep|..], Split(s, sep)[1])
    ensures !Contains(Split(s, sep)[1], sep)
  {
    SplitUnfold(s, sep, i);
    SplitPiecesFree(s[i + |sep|..], sep);
  }

  /** Without `sep`, the split is the whole string. */
  lemma SplitAbsent(s: string, sep: string)
    requires sep != [] && !Contains(s, sep)
    ensures Split(s, sep) == [s]
  {
  }

  /** `c.toUpperCase()` on ASCII letters. */
  function UpperChar(c: char): char {
    if 'a' <= c <= 'z' then (c as int - 32) as char else c
  }

  /** `c.toLowerCase()` on ASCII letters. */
  function LowerChar(c: char): char {
    if 'A' <= c <= 'Z' then (c as int + 32) as char else c
  }

  /** `s.toUpperCase()` (ASCII letters only). */
  function ToUpper(s: string): string {
    seq(|s|, i requires 0 <= i < |s| => UpperChar(s[i]))
  }

  /** `s.toLowerCase()` (ASCII letters only). */
  function ToLower(s: string): string {
    seq(|s|, i requires 0 <= i < |s| => LowerChar(s[i]))
  }

  predicate IsDigit(c: char) {
    '0' <= c <= '9'
  }

  function DigitChar(d: nat): (c: char)
    requires d < 10
  {
    "0123456789"[d]
  }

  /** The decimal digits of `n`, as `${n}` writes a non-negative integer. */
  function NatToString(n: nat): (r: string)
    ensures |r| >= 1
    ensures forall i :: 0 <= i < |r| ==> IsDigit(r[i])
    ensures n > 0 ==> r[0] != '0'
    decreases n
  {
    if n < 10 then [DigitChar(n)] else NatToString(n / 10) + [DigitChar(n % 10)]
  }

  /** `${n}` for an integer `n`. */
  function IntToString(n: int): string {
    if n < 0 then "-" + NatToString(-n) else NatToString(n)
  }

  /** The value of a string of decimal digits. */
  function DigitsValue(s: string): nat
    requires forall i :: 0 <= i < |s| ==> IsDigit(s[i])
  {
    if s == [] then 0
    else assert IsDigit(s[|s| - 1]); DigitsValue(s[..|s| - 1]) * 10 + (s[|s| - 1] as int - '0' as int)
  }

  /** Reading back the rendered digits gives the number: the rendering loses nothing. */
  lemma {:induction false} NatToStringRoundTrip(n: nat)
    ensures DigitsValue(NatToString(n)) == n
    decreases n
  {
    if n >= 10 {
      NatToStringRoundTrip(n / 10);
      var r := NatToString(n);
      assert r[..|r| - 1] == NatToString(n / 10);
    }
  }
}

=== FILE: types.dfy ===
/**
 * The records exchanged between the modelled components (ui-src/src/types/index.ts
 * and the interfaces of ui-src/src/lib/executor.ts). Optional fields are
 * `Option`s; `Record<string, string>` fields are `Dict<string>`s.
 */
module Types {
  import opened Options
  import opened Dicts

  /** A response body: text, or a JSON value carried as the text
      `JSON.stringify` writes for it. */
  datatype ResponseBody = TextBody(text: string) | JsonBody(serialized: string)

  /** What is asked of the HTTP executor. */
  datatype ExecuteRequest = ExecuteRequest(
    httpMethod: string,
    url: string,
    headers: Option<Dict<string>>,
    body: Option<string>,
    timeout: Option<int>,
    sslVerification: Option<bool>,
    followRedirects: Option<bool>,
    maxResponseSize: Option<int>)

  /** What the HTTP executor answers. */
  datatype ExecuteResponse = ExecuteResponse(
    success: bool,
    status: Option<int>,
    statusText: Option<string>,
    headers: Option<Dict<string>>,
    cookies: Option<seq<string>>,
    body: Option<ResponseBody>,
    time: Option<int>,
    error: Option<string>)

  /** A response that carries only an error. */
  function Failure(error: string, time: int): (r: ExecuteResponse)
    ensures !r.success && r.error == Some(error) && r.time == Some(time)
    ensures r.status.None? && r.headers.None? && r.body.None?
  {
    ExecuteResponse(false, None, None, None, None, None, Some(time), Some(error))
  }
}

=== FILE: validators.dfy ===
/**
 * The input schemas of the client (ui-src/src/lib/validators.ts). Each schema
 * is a function from the raw input, a record whose fields may be missing
 * (`None`), to the parsed value, or `None` when the schema rejects the input.
 * Missing fields with a default are filled in; lengths are counted in
 * characters; numbers are integers here.
 */
module Validators {
  import opened Options
  import opened Dicts

  /** The methods `z.enum(['GET', 'POST', 'PUT', 'PATCH', 'DELETE'])` admits. */
  datatype HttpMethod = GET | POST | PUT | PATCH | DELETE

  function MethodName(m: HttpMethod): string {
    match m
    case GET => "GET"
    case POST => "POST"
    case PUT => "PUT"
    case PATCH => "PATCH"
    case DELETE => "DELETE"
  }

  /** The enum check: exactly the five names, in upper case. */
  function ParseMethod(s: string): (r: Option<HttpMethod>)
    ensures r.Some? ==> MethodName(r.value) == s
  {
    if s == "GET" then Some(GET)
    else if s == "POST" then Some(POST)
    else if s == "PUT" then Some(PUT)
    else if s == "PATCH" then Some(PATCH)
    else if s == "DELETE" then Some(DELETE)
    else None
  }

  /** Every method name is admitted, as the method it names. */
  lemma ParseMethodName(m: HttpMethod)
    ensures ParseMethod(MethodName(m)) == Some(m)
  {
  }

  /** `z.string().min(lo).max(hi)` */
  predicate LengthWithin(s: string, lo: nat, hi: nat) {
    lo <= |s| <= hi
  }

  /** `z.number().min(lo).max(hi).optional()`: missing, or within the bounds
      (both included). */
  predicate OptionalWithin(n: Option<int>, lo: int, hi: int) {
    n.None? || lo <= n.value <= hi
  }

  // ---- login and signup ----

  /** The credentials both the login and the signup form send. */
  datatype CredentialsInput = CredentialsInput(email: Option<string>, password: Option<string>)

  datatype Credentials = Credentials(email: string, password: string)

  const MinPasswordLength := 6

  /** `loginSchema` and `signupSchema`, which are the same: an e-mail address
      and a password of at least six characters. The e-mail format check is
      zod's own and is passed in. */
  function ParseCredentials(input: CredentialsInput, isEmail: string -> bool): (r: Option<Credentials>)
    ensures r.Some? <==> input.email.Some? && isEmail(input.email.value) &&
                         input.password.Some? && |input.password.value| >= MinPasswordLength
    ensures r.Some? ==> r.value == Credentials(input.email.value, input.password.value)
  {
    if input.email.Some? && isEmail(input.email.value) &&
       input.password.Some? && |input.password.value| >= MinPasswordLength
    then Some(Credentials(input.email.value, input.password.value))
    else None
  }

  // ---- execute ----

  datatype ExecuteInput = ExecuteInput(
    httpMethod: Option<string>,
    url: Option<string>,
    headers: Option<Dict<string>>,
    body: Option<string>,
    timeout: Option<int>,
    environmentId: Option<string>,
    sslVerification: Option<bool>,
    followRedirects: Option<bool>,
    maxResponseSize: Option<int>)

  datatype ExecuteRequestInput = ExecuteRequestInput(
    httpMethod: HttpMethod,
    url: string,
    headers: Option<Dict<string>>,
    body: Option<string>,
    timeout: Option<int>,
    environmentId: Option<string>,
    sslVerification: Option<bool>,
    followRedirects: Option<bool>,
    maxResponseSize: Option<int>)

  const MinTimeout := 1000
  const MaxTimeout := 120000
  const MinResponseSize := 1
  const MaxResponseSize := 100

  /** `executeRequestSchema`: a known method, a non-empty url, and a timeout
      (milliseconds) and size limit (megabytes) within bounds when given. */
  function ParseExecute(input: ExecuteInput): (r: Option<ExecuteRequestInput>)
    ensures r.Some? <==> input.httpMethod.Some? && ParseMethod(input.httpMethod.value).Some? &&
                         input.url.Some? && |input.url.value| >= 1 &&
                         OptionalWithin(input.timeout, MinTimeout, MaxTimeout) &&
                         OptionalWithin(input.maxResponseSize, MinResponseSize, MaxResponseSize)
    ensures r.Some? ==> MethodName(r.value.httpMethod) == input.httpMethod.value && r.value.url == input.url.value &&
                        r.value.timeout == input.timeout && r.value.maxResponseSize == input.maxResponseSize &&
                        r.value.headers == input.headers && r.value.body == input.body &&
                        r.value.environmentId == input.environmentId &&
                        r.value.sslVerification == input.sslVerification &&
                        r.value.followRedirects == input.followRedirects
  {
    if input.httpMethod.Some? && ParseMethod(input.httpMethod.value).Some? &&
       input.url.Some? && |input.url.value| >= 1 &&
       OptionalWithin(input.timeout, MinTimeout, MaxTimeout) &&
       OptionalWithin(input.maxResponseSize, MinResponseSize, MaxResponseSize)
    then Some(ExecuteRequestInput(ParseMethod(input.httpMethod.value).value, input.url.value, input.headers,
                                  input.body, input.timeout, input.environmentId, input.sslVerification,
                                  input.followRedirects, input.maxResponseSize))
    else None
  }

  // ---- collections ----

  const MaxCollectionName := 100

  /** `createCollectionSchema` and `updateCollectionSchema`, which are the
      same: a name of 1 to 100 characters. */
  function ParseCollectionName(name: Option<string>): (r: Option<string>)
    ensures r.Some? <==> name.Some? && LengthWithin(name.value, 1, MaxCollectionName)
    ensures r.Some? ==> r == name
  {
    if name.Some? && LengthWithin(name.value, 1, MaxCollectionName) then name else None
  }

  // ---- requests ----

  datatype RequestInput = RequestInput(
    name: Option<string>,
    httpMethod: Option<string>,
    url: Option<string>,
    headers: Option<string>,
    body: Option<string>,
    collectionId: Option<string>)

  datatype CreateRequestInput = CreateRequestInput(
    name: string,
    httpMethod: HttpMethod,
    url: string,
    headers: string,
    body: Option<string>,
    collectionId: string)

  const MaxRequestName := 100
  const EmptyObjectText := "{}"

  /** The request name check, shared by create and update. */
  predicate RequestNameOk(name: string) {
    LengthWithin(name, 1, MaxRequestName)
  }

  /** `createRequestSchema`: a name of 1 to 100 characters, a known method or
      none (then `GET`), a non-empty url, header text (`{}` when missing) and
      a non-empty collection id. */
  function ParseCreateRequest(input: RequestInput): (r: Option<CreateRequestInput>)
    ensures r.Some? <==> input.name.Some? && RequestNameOk(input.name.value) &&
                         (input.httpMethod.None? || ParseMethod(input.httpMethod.value).Some?) &&
                         input.url.Some? && |input.url.value| >= 1 &&
                         input.collectionId.Some? && |input.collectionId.value| >= 1
    ensures r.Some? && input.httpMethod.None? ==> r.value.httpMethod == GET
    ensures r.Some? && input.httpMethod.Some? ==> MethodName(r.value.httpMethod) == input.httpMethod.value
    ensures r.Some? && input.headers.None? ==> r.value.headers == EmptyObjectText
    ensures r.Some? && input.headers.Some? ==> r.value.headers == input.headers.value
    ensures r.Some? ==> r.value.name == input.name.value && r.value.url == input.url.value &&
                        r.value.body == input.body && r.value.collectionId == input.collectionId.value
  {
    var m := if input.httpMethod.None? then Some(GET) else ParseMethod(input.httpMethod.value);
    if input.name.Some? && RequestNameOk(input.name.value) && m.Some? &&
       input.url.Some? && |input.url.value| >= 1 &&
       input.collectionId.Some? && |input.collectionId.value| >= 1
    then Some(CreateRequestInput(input.name.value, m.value, input.url.value,
                                 input.headers.GetOr(EmptyObjectText), input.body, input.collectionId.value))
    else None
  }

  /** A parsed request as raw input again, every field present. */
  function CreateAsInput(c: CreateRequestInput): RequestInput {
    RequestInput(Some(c.name), Some(MethodName(c.httpMethod)), Some(c.url), Some(c.headers), c.body, Some(c.collectionId))
  }

  /** Parsing what the schema produced gives it back: defaults are filled in
      once and the result obeys every bound. */
  lemma CreateRequestReparse(input: RequestInput)
    requires ParseCreateRequest(input).Some?
    ensures ParseCreateRequest(CreateAsInput(ParseCreateRequest(input).value)) == ParseCreateRequest(input)
  {
    ParseMethodName(ParseCreateRequest(input).value.httpMethod);
  }

  datatype UpdateRequestInput = UpdateRequestInput(
    name: Option<string>,
    httpMethod: Option<HttpMethod>,
    url: Option<string>,
    headers: Option<string>,
    body: Option<string>)

  /** `updateRequestSchema`: every field may be missing; the ones given obey
      the bounds of the create schema. */
  function ParseUpdateRequest(input: RequestInput): (r: Option<UpdateRequestInput>)
    ensures r.Some? <==> (input.name.None? || RequestNameOk(input.name.value)) &&
                         (input.httpMethod.None? || ParseMethod(input.httpMethod.value).Some?) &&
                         (input.url.None? || |input.url.value| >= 1)
    ensures r.Some? ==> r.value.name == input.name && r.value.url == input.url &&
                        r.value.headers == input.headers && r.value.body == input.body
    ensures r.Some? ==> (r.value.httpMethod.None? <==> input.httpMethod.None?)
    ensures r.Some? && input.httpMethod.Some? ==> MethodName(r.value.httpMethod.value) == input.httpMethod.value
  {
    var m := if input.httpMethod.None? then Some(None) else
               match ParseMethod(input.httpMethod.value)
               case Some(v) => Some(Some(v))
               case None => None;
    if (input.name.None? || RequestNameOk(input.name.value)) && m.Some? &&
       (input.url.None? || |input.url.value| >= 1)
    then Some(UpdateRequestInput(input.name, m.value, input.url, input.headers, input.body))
    else None
  }

  /** Whatever a create accepts, an update accepts too. */
  lemma CreateAcceptedUpdateAccepts(input: RequestInput)
    requires ParseCreateRequest(input).Some?
    ensures ParseUpdateRequest(input).Some?
  {
  }

  // ---- environments ----

  datatype EnvironmentInput = EnvironmentInput(name: Option<string>, variables: Option<string>)

  datatype CreateEnvironmentInput = CreateEnvironmentInput(name: string, variables: string)

  datatype UpdateEnvironmentInput = UpdateEnvironmentInput(name: Option<string>, variables: Option<string>)

  const MaxEnvironmentName := 50

  /** `createEnvironmentSchema`: a name of 1 to 50 characters; the variables
      text is `{}` when missing. */
  function ParseCreateEnvironment(input: EnvironmentInput): (r: Option<CreateEnvironmentInput>)
    ensures r.Some? <==> input.name.Some? && LengthWithin(input.name.value, 1, MaxEnvironmentName)
    ensures r.Some? ==> r.value.name == input.name.value
    ensures r.Some? ==> r.value.variables == if input.variables.None? then EmptyObjectText else input.variables.value
  {
    if input.name.Some? && LengthWithin(input.name.value, 1, MaxEnvironmentName)
    then Some(CreateEnvironmentInput(input.name.value, input.variables.GetOr(EmptyObjectText)))
    else None
  }

  /** Parsing a parsed environment again gives it back. */
  lemma CreateEnvironmentReparse(input: EnvironmentInput)
    requires ParseCreateEnvironment(input).Some?
    ensures var e := ParseCreateEnvironment(input).value;
            ParseCreateEnvironment(EnvironmentInput(Some(e.name), Some(e.variables))) == Some(e)
  {
  }

  /** `updateEnvironmentSchema`: both fields may be missing; a name given has
      1 to 50 characters. */
  function ParseUpdateEnvironment(input: EnvironmentInput): (r: Option<UpdateEnvironmentInput>)
    ensures r.Some? <==> input.name.None? || LengthWithin(input.name.value, 1, MaxEnvironmentName)
    ensures r.Some? ==> r.value == UpdateEnvironmentInput(input.name, input.variables)
  {
    if input.name.None? || LengthWithin(input.name.value, 1, MaxEnvironmentName)
    then Some(UpdateEnvironmentInput(input.name, input.variables))
    else None
  }

  /** Whatever an environment create accepts, an update accepts too. */
  lemma CreateEnvironmentAcceptedUpdateAccepts(input: EnvironmentInput)
    requires ParseCreateEnvironment(input).Some?
    ensures ParseUpdateEnvironment(input).Some?
  {
  }
}
